=== FILE: README.md ===
# react-swagger-connect generator core, modelled in Dafny

react-swagger-connect reads a Swagger 2.0 document and writes, for every
operation, a TypeScript module: type declarations for the request, the
responses and every schema they reference, then a `fetch`-based executor
function. This project models the pure part of that generator, the chain from
the parsed document to the text of each generated file, and proves properties
of it.

The modules follow the source files:

| module | source | what it models |
|---|---|---|
| `Results` | — | JavaScript throws as `Result`; `TypeError` for engine errors, `Thrown(message)` for the generator's own |
| `Strings` | — | ASCII `trim`, `split`, `join`, `indexOf`, decimal `toString` and `parseInt` digits |
| `Dicts` | — | plain objects as ordered association lists with JavaScript spread semantics |
| `Swagger` | `src/schema.ts` | the document: schema nodes as records of optional members, parameters, security, operations |
| `Flattening` | `src/flatten.ts` | `flatten` |
| `Naming` | `src/capitalize.ts`, `src/decapitalize.ts`, `src/getOperationName.ts` | name helpers |
| `Mime` | `src/getMIMEType.ts` | request and response MIME types |
| `References` | `src/findSchemaReferences.ts` | `$ref` extraction |
| `Gather` | `src/gatherSchemas.ts` | pointer walk and the closure loop |
| `TypeScript` | `src/swaggerSchemaToTypeScript.ts`, `src/swaggerSchemaDictToTypeScript.ts` | type rendering |
| `Parameters` | `src/getParameters.ts` | merged, deduplicated parameters |
| `OperationTypes` | `src/getOperationTypes.ts` | request/response seeds, envelopes, union |
| `Executor` | `src/getOperationExecutorFunction.ts` | request-building fragments and the executor text |
| `Process` | `src/processSpec.ts` | the walk over paths and methods |

Design choices:

- A schema node is a record of optional members, not a closed variant. `findSchemaReferences` tests `type` first and `swaggerSchemaToTypeScript` tests `$ref` first, and both orders are kept.
- `Undefined`, `Null` and `Scalar` stand for the non-object values a pointer walk or a malformed document can put where a schema is expected. The `in` operator throws on them.
- Dictionaries keep `Object.keys` order. Assigning to an existing key keeps its position; a new key is appended.
- The generated text of the type declarations and request fragments is spelled out with the templates' own line breaks and indentation. Each request fragment is a small datatype that a render function turns into text.
- `gatherSchemas` is a recursive function with a termination measure: the number of keys the loop could still add. That set is finite because every key is a seed key or "_" + the last segment of a reference reachable from the seeds or the definitions.

Two behaviours of the code are easy to misread from its intent; the model follows the code:

- The operation name is not decapitalized.
- A recognised method key whose operation is falsy ends the whole walk (the `return` at src/processSpec.ts:27). It does not merely skip that key.

## Model

| member | source | states |
|---|---|---|
| Flattening.Flatten | src/flatten.ts:1-6 | the result is the inner sequences laid end to end, in order (the reference concatenation) |
| Flattening.FoldIsConcat | src/flatten.ts:2-5 | the reduce from any accumulator appends the concatenation of the inner sequences to it |
| Flattening.FlattenAppend | src/flatten.ts:2-5 | flattening distributes over concatenation of the outer sequence |
| Flattening.FlattenLength | src/flatten.ts:2-5 | the length is the sum of the inner lengths; an empty outer sequence gives the empty sequence |
| Flattening.FlattenMembership | src/flatten.ts:2-5 | an element is in the result exactly when it is in some inner sequence |
| Results.AllOk | src/findSchemaReferences.ts:17-19 | a `map` whose callback may throw: it succeeds iff every element does, keeps every value in order, and otherwise reports the first failure |
| Strings.Trim | src/capitalize.ts:3 | the input is the result with whitespace only before and after it; the result neither starts nor ends with whitespace; it is empty iff the input is all whitespace |
| Strings.Split | src/gatherSchemas.ts:57 | joining the pieces with the separator gives the input back, and no piece contains the separator |
| Strings.SplitUnique | src/gatherSchemas.ts:57 | any separator-free pieces that join to a string are exactly its split |
| Strings.NatToString | src/findSchemaReferences.ts:28 | the decimal spelling is digits only, has no leading zero, and reads back as the number |
| Strings.NatToStringOfDigits | src/getOperationTypes.ts:38-39 | a canonical numeral is spelled back verbatim |
| Strings.LeadingDigits | src/getOperationTypes.ts:38 | the longest all-digit prefix: what `parseInt` reads |
| Naming.Capitalize | src/capitalize.ts:1-7 | same length as the trimmed input; empty iff the input is all whitespace; first character upper-cased and the rest equal to the trimmed input |
| Naming.Decapitalize | src/decapitalize.ts:1-7 | the same with the first character lower-cased |
| Naming.CapitalizeTrimmed | src/capitalize.ts:2-6 | on a string without surrounding whitespace only the first character changes |
| Naming.DecapitalizeTrimmed | src/decapitalize.ts:2-6 | the same for `decapitalize` |
| Naming.CapitalizeLowerStart | src/capitalize.ts:5 | a string starting with a lower-case letter is changed |
| Naming.CapitalizeIdempotent | src/capitalize.ts:2-6 | capitalizing twice is capitalizing once |
| Naming.DecapitalizeIdempotent | src/decapitalize.ts:2-6 | decapitalizing twice is decapitalizing once |
| Naming.LastLineStart | src/getOperationName.ts:5 | where the last line starts: `.` cannot cross a line terminator and `$` anchors at the end |
| Naming.FindUsing | src/getOperationName.ts:5 | the first "Using" followed by an upper-case letter at or after a position, or none at all |
| Naming.UpperRunEnd | src/getOperationName.ts:5 | the end of the maximal upper-case run matched by `[A-Z]+` |
| Naming.StripUsing | src/getOperationName.ts:5-8 | without a match the id is unchanged; otherwise the text before the first match joined to the text after its whole upper-case run, at least six characters shorter |
| Naming.GetOperationName | src/getOperationName.ts:3-9 | an absent `operationId` gives ""; otherwise the id with the infix stripped |
| Naming.OperationNameDeletesOnly | src/getOperationName.ts:5-8 | for a one-line id the name is a prefix of the id joined to a suffix of it, of equal length or at least six shorter |
| Naming.StripUsingExample | src/getOperationName.ts:5-8 | "getUserUsingGET" gives "getUser" |
| Naming.StripUsingKeepsSuffix | src/getOperationName.ts:5-8 | "listUsingGET_1" gives "list_1" |
| Mime.FirstOrDefault | src/getMIMEType.ts:4 | an absent list gives "application/json", a declared one its first entry, a declared empty one `undefined` |
| Mime.GetRequestMimeType | src/getMIMEType.ts:3-6 | the three rules over `consumes` |
| Mime.GetResponseMimeType | src/getMIMEType.ts:8-11 | the three rules over `produces` |
| Dicts.Update | src/gatherSchemas.ts:47 | `{ ...d, [k]: v }`: keys gain `k`, `k` maps to `v`, other keys keep their values, an existing key keeps its position and a new one is appended |
| Dicts.Merge | src/gatherSchemas.ts:17 | `{ ...d, ...e }` has the keys of both and keeps the positions of `d` |
| Dicts.MergeLookup | src/gatherSchemas.ts:17 | after the spread a key of `e` maps to its value in `e`, any other key to its value in `d` |
| Dicts.MergeUnchanged | src/gatherSchemas.ts:17-20 | spreading entries already present with the same values changes nothing |
| Swagger.OperationAt | src/processSpec.ts:22 | `swagger.paths[dir][method]` throws `TypeError` iff the path is missing; a found operation is the member under that key |
| References.FindSchemaReferences | src/findSchemaReferences.ts:4-49 | every failure carries this frame's path message; every reference found occurs in the node; a non-object fails; an object without properties or an array without items gives []; a node that is neither, with no `schema`, gives exactly its `$ref` |
| References.SingleItemReferences | src/findSchemaReferences.ts:23-32 | an array with one `items` schema: none found when the item is nullish, otherwise exactly the item's references, found under the path + "[]", and it fails iff the item's extraction does |
| References.Rethrow | src/findSchemaReferences.ts:42-48 | the `catch` replaces any failure below with this frame's message and flattens a success |
| References.ObjectReferences | src/findSchemaReferences.ts:14-21 | an object with properties succeeds iff every property does, and yields their references in key order, duplicates kept |
| References.TupleReferences | src/findSchemaReferences.ts:23-30 | a tuple array does the same over its slots, each labelled `[i]` |
| References.SchemaBeforeRef | src/findSchemaReferences.ts:35-40 | a `schema` object is followed and `$ref` is ignored |
| Gather.DropHash | src/gatherSchemas.ts:57 | the `#` chunks are removed and nothing else |
| Gather.RefName | src/gatherSchemas.ts:57-58 | the last segment of the reference, spelled "undefined" when there is none; `PlainRefSegments` and `SlotRefSegments` state it for the reference forms |
| Gather.Bind | src/gatherSchemas.ts:47 | the binding "_" + name, which always starts with `_` |
| Gather.Walk | src/gatherSchemas.ts:60-65 | the walk throws iff some position before a step is `null` or `undefined`; otherwise it ends where stepping through every segment ends |
| Gather.GetReferencedDefinition | src/gatherSchemas.ts:53-67 | it fails iff an intermediate segment leads to `null`/`undefined`, with "Swagger file has no definition for <ref>"; otherwise it returns the last segment and the value reached |
| Gather.ResolvedRefs | src/gatherSchemas.ts:59-66 | a resolved value mentions only references the definitions mention |
| Gather.DefinitionsFoldKeys | src/gatherSchemas.ts:44-50 | the fold adds exactly the keys "_" + name of its references, keeps keys distinct, and fails only with some reference's "no definition" message |
| Gather.DefinitionsFold | src/gatherSchemas.ts:44-50 | the reduce over the references; `DefinitionsFoldKeys`, `DefinitionsFoldOk` and `DefinitionsFoldLookup` state its properties |
| Gather.DefinitionsFoldOk | src/gatherSchemas.ts:44-50 | the fold fails iff some reference fails to resolve |
| Gather.DefinitionsFoldLookup | src/gatherSchemas.ts:44-50 | every value bound is the resolution of a reference with that binding, or the accumulator's |
| Gather.GetReferencedDefinitions | src/gatherSchemas.ts:40-51 | succeeds iff every reference resolves; keys are exactly the bindings; values mention only the definitions' references |
| Gather.DefinitionsLookup | src/gatherSchemas.ts:40-51 | each key holds the resolution of a reference bound under it |
| Gather.Annotate | src/gatherSchemas.ts:29-35 | a failure is rethrown as "Error while getting refs for <key>:" followed by the inner message |
| Gather.GetRefs | src/gatherSchemas.ts:26-38 | succeeds iff every value's extraction does; references come from the values; a failure names the first failing key |
| Gather.UnresolvedFailsNextPass | src/gatherSchemas.ts:26-38 | a bound value that is not an object (such as the `undefined` a missing definition yields) makes the next pass fail, naming an entry at or before it |
| Gather.PassKeepsInv | src/gatherSchemas.ts:15-22 | one pass keeps keys distinct, never loses a key, stays inside the finite key universe, and shrinks the unused universe when it adds a key |
| Gather.GatherLoop | src/gatherSchemas.ts:13-23 | the loop's result keeps every key it started with and ends on a pass that binds every extracted reference to a key already present |
| Gather.GatherSchemas | src/gatherSchemas.ts:5-24 | without `definitions` the seeds are dropped; otherwise seed keys survive, only bindings of references mentioned by the seeds or by any definition are added, and the last pass adds nothing |
| Gather.PassKeepsCanonical | src/gatherSchemas.ts:17 | a pass keeps seed values and binds each key to the resolution of every reference with that binding |
| Gather.FinalPassClosed | src/gatherSchemas.ts:19-20 | on such a dictionary the pass that ends the loop changes nothing |
| Gather.GatherLoopClosed | src/gatherSchemas.ts:14-21 | the loop's result is closed: its references resolve and rebinding them changes nothing |
| Gather.ClosedIsFixpoint | src/gatherSchemas.ts:14-21 | gathering from a closed dictionary returns it unchanged |
| Gather.GatherIdempotent | src/gatherSchemas.ts:5-24 | with consistent bindings and no seed key of binding form, gathering again from the result returns the same dictionary |
| Gather.PlainRefSegments | src/gatherSchemas.ts:46-58 | `#/definitions/<name>` is walked along `definitions`, `<name>` and bound as "_" + name |
| Gather.PlainRef | src/gatherSchemas.ts:53-67 | such a reference resolves to that definition, or `undefined` when absent, and fails without `definitions` |
| Gather.Step | src/gatherSchemas.ts:64 | `result[seg]` on the model's values: the root's `definitions`, a key of an object, a member of a schema, an element of an array (tuple `items`, `enum`, `required`); anything else is `undefined`. Its properties are stated by the lemmas below |
| Gather.ArrayIndexOfNat | src/gatherSchemas.ts:64 | the decimal spelling of an index is read back as that index |
| Gather.ArrayIndexSpelling | src/gatherSchemas.ts:64 | a segment read as an index is the decimal spelling of that index, so "01" or "+1" is not one |
| Gather.StepIntoList | src/gatherSchemas.ts:64 | an array is indexed by the decimal spelling of an index in range; any other segment gives `undefined` |
| Gather.TupleSlotStep | src/gatherSchemas.ts:64 | `items` then `<i>` reaches slot `i` of a tuple schema |
| Gather.SlotRefSegments | src/gatherSchemas.ts:46-58 | `#/definitions/<name>/items/<i>` is walked along `definitions`, `<name>`, `items`, `<i>` and bound as "_" + i |
| Gather.SlotRefResolves | src/gatherSchemas.ts:53-67 | such a reference into a tuple definition resolves to slot `i`, bound as "_" + i |
| TypeScript.FirstMatch | src/swaggerSchemaToTypeScript.ts:5 | the leftmost position where `#\/definitions\/([^/]+)` matches, or none |
| TypeScript.RefTypeName | src/swaggerSchemaToTypeScript.ts:5 | no name iff the pattern matches nowhere; otherwise the greedy `/`-free run after the leftmost match |
| TypeScript.RefTypeNameOfDefinitionRef | src/swaggerSchemaToTypeScript.ts:5-7 | `#/definitions/<name>` yields `name` |
| TypeScript.EnumType | src/swaggerSchemaToTypeScript.ts:12-14 | empty iff there are no values; otherwise starts like a JSON value |
| TypeScript.LiteralJson | src/swaggerSchemaToTypeScript.ts:13 | `JSON.stringify` of one enum value, never empty; `LiteralJsonEnumLike` states how it begins and `NumericEnumExample` a numeric case |
| TypeScript.LiteralJsonEnumLike | src/swaggerSchemaToTypeScript.ts:13 | a JSON value starts with a quote, a sign, a digit, `t`, `f` or the word `null` |
| TypeScript.TupleSlots | src/swaggerSchemaToTypeScript.ts:33 | each slot is prefixed "| " exactly when there are at least two |
| TypeScript.Field | src/swaggerSchemaToTypeScript.ts:47-50 | a member starts `'p'` and has `?` iff `p` is not required |
| TypeScript.Render | src/swaggerSchemaToTypeScript.ts:3-60 | succeeds iff every visited node is an object and every `$ref` names a definition; a non-object throws `TypeError` |
| TypeScript.RenderBrace | src/swaggerSchemaDictToTypeScript.ts:10-11 | a rendering starts with `{` iff the node is a record (an object type with properties, no `$ref`, no `enum`) |
| TypeScript.Declaration | src/swaggerSchemaDictToTypeScript.ts:10-13 | one declaration's text; `DeclarationForm` states its form |
| TypeScript.DeclarationForm | src/swaggerSchemaDictToTypeScript.ts:10-13 | a rendering starting with `{` becomes `export interface <key>`, anything else `export type <key> = `; the rendering ends the declaration |
| TypeScript.RenderIgnoresDir | src/swaggerSchemaToTypeScript.ts:32-50 | the diagnostic path never reaches the output |
| TypeScript.RefWins | src/swaggerSchemaToTypeScript.ts:4-10 | `$ref` decides alone; an unmatched one throws "<ref> is unrecognized reference" |
| TypeScript.EnumWins | src/swaggerSchemaToTypeScript.ts:11-14 | with a `type`, an `enum` list decides alone and always renders |
| TypeScript.NumericEnumExample | src/swaggerSchemaToTypeScript.ts:12-14 | numbers in an enum render as a union of number literals |
| TypeScript.PlainRefRendersBinding | src/swaggerSchemaToTypeScript.ts:5-7 | a `#/definitions/<name>` reference renders as the key the gathering binds it under |
| TypeScript.KeywordRendering | src/swaggerSchemaToTypeScript.ts:11-59 | `boolean`, `number`, `string`, `Blob` come from exactly their types; `void` from no `type` or an unlisted one |
| TypeScript.NonScalarRendering | src/swaggerSchemaToTypeScript.ts:4-51 | a `$ref` renders as `_…`, an `enum` as the union of its values, an array as `any[]` or `Array<…>`, a record as `any` or `{…}` |
| TypeScript.EnumNotKeyword | src/swaggerSchemaToTypeScript.ts:12-14 | the `enum` union (the JSON values joined by a bar) is never one of the keywords `boolean`, `number`, `string`, `Blob`, `void` |
| TypeScript.ArrayRendering | src/swaggerSchemaToTypeScript.ts:24-38 | no items give `any[]`; one item gives `Array<T>`; a tuple gives its slot types comma-joined inside `Array<…>` |
| TypeScript.ObjectRendering | src/swaggerSchemaToTypeScript.ts:39-53 | no properties give `any`; otherwise one member per property in key order |
| TypeScript.RenderDict | src/swaggerSchemaDictToTypeScript.ts:4-17 | one declaration per key in order, `interface` for records and `type` otherwise; the first failure aborts with no partial output |
| Parameters.ExtPolicies | src/getParameters.ts:23-31 | the schemes a requirement's names resolve to; empty iff none resolves |
| Parameters.SubjectPolicies | src/getParameters.ts:32 | the requirement itself when none of its names resolves, otherwise only schemes |
| Parameters.Policies | src/getParameters.ts:21-34 | every requirement's policies; no requirement, no policy |
| Parameters.ApiKeyParams | src/getParameters.ts:39-41 | one string parameter per API key scheme, at its own `in` and name |
| Parameters.BasicParams | src/getParameters.ts:42-46 | only `Authorization` headers, present iff some basic scheme applies |
| Parameters.IsApiKeySecurity | src/getParameters.ts:62-67 | a resolved security scheme of type `apiKey`; a requirement kept as is is an object too, but its members are scope arrays, so its `type` is never the string "apiKey"; `ApiKeyParams` states its use |
| Parameters.IsBasicAuth | src/getParameters.ts:55-60 | a resolved security scheme of type `basic`; a requirement kept as is fails the test for the same reason; `BasicParams` states its use |
| Parameters.KeepFirstMembers | src/getParameters.ts:48-52 | the kept entries are exactly the first occurrences of their pair |
| Parameters.KeepFirstDistinct | src/getParameters.ts:48-52 | no two kept entries share a (name, in) pair |
| Parameters.KeepFirstKeys | src/getParameters.ts:48-52 | no pair is lost |
| Parameters.DedupFrom | src/getParameters.ts:48-52 | the reduce appends exactly the first occurrences, in order |
| Parameters.Deduplicate | src/getParameters.ts:48-52 | the reduce keeps first occurrences in candidate order, duplicate free and losing no pair |
| Parameters.GetParameters | src/getParameters.ts:11-53 | `TypeError` without the path, "getParameters: operation is empty" without the operation, otherwise the deduplicated candidates |
| Parameters.OperationParamsWin | src/getParameters.ts:35-52 | an operation parameter beats any later candidate with its pair |
| Parameters.OneAuthorizationHeader | src/getParameters.ts:42-52 | at most one `Authorization` header, and one whenever a basic scheme applies |
| Parameters.SecurityParamsOptional | src/getParameters.ts:39-46 | security-derived parameters are strings without `required` or `schema` |
| Parameters.OperationSecurityOverrides | src/getParameters.ts:17-20 | a declared operation list, even empty, replaces the global one |
| Parameters.EffectiveSecurity | src/getParameters.ts:17-20 | the operation's `security` when declared, else the global one, else none; `OperationSecurityOverrides` states it |
| Parameters.Candidates | src/getParameters.ts:35-47 | operation parameters, then path-item parameters, then the security-derived ones; `OperationParamsWin` and `GetParameters` state its use |
| Parameters.Dedup | src/getParameters.ts:48-52 | the reduce itself; `DedupFrom` relates it to the first-occurrence reference |
| OperationTypes.ParamSchema | src/getOperationTypes.ts:29 | a parameter with `schema` is read as that schema; one without is read as a schema with its `type`, `items` and `enum` |
| OperationTypes.RequestProperties | src/getOperationTypes.ts:26-32 | one key per parameter name, kept distinct |
| OperationTypes.RequestPropertiesLookup | src/getOperationTypes.ts:26-32 | a name maps to the schema of the last parameter with that name |
| OperationTypes.RequestSchema | src/getOperationTypes.ts:22-33 | the request record: an object with the required names and one property per parameter name; `Seeds`, `RequestPropertiesLookup` and `RequiredNames` state its contents |
| OperationTypes.RequiredNames | src/getOperationTypes.ts:25 | exactly the names of the required parameters |
| OperationTypes.CodeType | src/getOperationTypes.ts:38-39 | `any` iff the key has no leading digit; otherwise the canonical numeral (no leading zero unless it is `0`) with the value of its leading digits |
| OperationTypes.CodeTypeOfStatus | src/getOperationTypes.ts:38-39 | a canonical status code is its own code type |
| OperationTypes.ResponseOf | src/getOperationTypes.ts:40 | a missing schema defaults to `{ type: 'object' }`, a `null` one stays and is skipped later |
| OperationTypes.ResponsesList | src/getOperationTypes.ts:35-48 | one entry per response key, in order |
| OperationTypes.ContentKeyMismatch | src/getOperationTypes.ts:54 | for an unnamed operation and a lower-case response key, the key the code seeds differs from the one the envelope uses (see Findings) |
| OperationTypes.DeclaredKeyForm | src/getOperationTypes.ts:54 | without a name the declaration capitalizes the response key |
| OperationTypes.ReferencedKeyForm | src/getOperationTypes.ts:72 | without a name the envelope uses the response key as it is |
| OperationTypes.ContentKeyAgrees | src/getOperationTypes.ts:54 | for a name without surrounding whitespace the two keys agree |
| OperationTypes.SeedKeyAgrees | src/getOperationTypes.ts:54 | for a name without surrounding whitespace the as-written and the corrected seed keys are equal |
| OperationTypes.ContentSeeds | src/getOperationTypes.ts:50-56 | one content seed per response with a truthy schema, under the key the chosen rule gives (the code's `capitalize(...)` or the corrected one), added to the earlier keys and kept distinct; a key no such response seeds keeps its earlier value, and a seeded key holds the schema of the last response seeded under it |
| OperationTypes.ContentSeedsAgree | src/getOperationTypes.ts:50-56 | for a name without surrounding whitespace both rules seed the same dictionary |
| OperationTypes.Seeds | src/getOperationTypes.ts:22-56 | the seeds are exactly `<OpName>Request` and the content keys of the chosen rule, distinct; `<OpName>Request` holds the request record, and each content key the schema of the last response seeded under it |
| OperationTypes.RequestKeyNotContent | src/getOperationTypes.ts:22-56 | no content key equals `<OpName>Request`, so the request record is never overwritten |
| OperationTypes.Envelope | src/getOperationTypes.ts:63-74 | the envelope text of one response: optional description comment, `export interface <OpName><kind>Response` with `status`, `text` and `json?`; `EnvelopeInUnion` states its properties |
| OperationTypes.Envelopes | src/getOperationTypes.ts:63-74 | one envelope per response, in key order |
| OperationTypes.ResponsesUnion | src/getOperationTypes.ts:76-78 | `export type <OpName>Responses` joining the response interface names with " \| "; `EnvelopeInUnion` states its properties |
| OperationTypes.EnvelopeInUnion | src/getOperationTypes.ts:63-78 | each envelope declares, after its comment, the interface the union lists, and ends with a `json?` member typed by the response's content key |
| OperationTypes.Assemble | src/getOperationTypes.ts:60-79 | declarations, then envelopes, then the union; fails iff some gathered schema cannot be rendered |
| OperationTypes.TypesForShape | src/getOperationTypes.ts:58-79 | for either seeding rule: fails iff gathering or rendering fails; length is closure + responses + 1; envelopes in key order, union last |
| OperationTypes.TypesFor | src/getOperationTypes.ts:58-79 | the declarations of one operation for a given seeding rule; `TypesForShape` states their shape |
| OperationTypes.TypesWithoutDefinitions | src/getOperationTypes.ts:58-79 | for either seeding rule, without `definitions` the output is the envelopes and the union only |
| OperationTypes.EnvelopeContentDeclared | src/getOperationTypes.ts:50-72 | with the corrected seeding, every content type an envelope refers to is declared by the gathered dictionary |
| OperationTypes.CapitalizedStart | src/capitalize.ts:1-3 | a string that is not all whitespace capitalizes to one that does not start with a lower-case letter |
| OperationTypes.UnnamedContentKey | src/getOperationTypes.ts:54 | without a name the code's content key does not start with a lower-case letter |
| OperationTypes.UnnamedSeedKeys | src/getOperationTypes.ts:22-56 | without a name no key the code seeds starts with a lower-case letter |
| OperationTypes.EnvelopeContentUndeclared | src/getOperationTypes.ts:50-72 | as written, for an unnamed operation and a lower-case response key with a truthy schema, the content type the envelope refers to is not a key of the gathered dictionary |
| OperationTypes.GetOperationTypes | src/getOperationTypes.ts:8-80 | `TypeError` without the path, "createTypes: operation is empty" without the operation; for an existing operation exactly the output for its name, its deduplicated parameters and its responses, seeded as the code seeds |
| Executor.ParamsAt | src/getOperationExecutorFunction.ts:140 | exactly the parameters at the location; empty iff none is there |
| Executor.ParamsAtAppend | src/getOperationExecutorFunction.ts:140 | filtering keeps the relative order |
| Executor.OperationCheck | src/getOperationExecutorFunction.ts:136-139 | each builder's own check: `TypeError` without the path, "<builder>: operation is empty" without the operation |
| Executor.HostPrefix | src/getOperationExecutorFunction.ts:141 | "https://" + host when the host is set, else "" |
| Executor.BasePathPrefix | src/getOperationExecutorFunction.ts:142-146 | dropped iff empty or absent, or the path starts with '/' and the base path is "/" or "./"; kept verbatim otherwise |
| Executor.PathCodeFor | src/getOperationExecutorFunction.ts:147-168 | host + base path + path; a constant url iff there is no path parameter; one substitution per path parameter in order, guarded iff not required |
| Executor.RenderReplacement | src/getOperationExecutorFunction.ts:151-166 | one path substitution's text |
| Executor.ReplacementGuard | src/getOperationExecutorFunction.ts:151-166 | an optional path parameter opens with its `!= null` test; a required one with the substitution itself |
| Executor.RenderPath | src/getOperationExecutorFunction.ts:147-168 | the path fragment's text; `RenderPathDeclaresUrl` states what it declares |
| Executor.RenderPathDeclaresUrl | src/getOperationExecutorFunction.ts:147-168 | the fragment opens with the computed url: `const url` without path parameters, `let url` before the substitutions otherwise |
| Executor.CreateFetcherPath | src/getOperationExecutorFunction.ts:130-169 | the builder fails exactly as its operation check does |
| Executor.QueryCodeFor | src/getOperationExecutorFunction.ts:181-206 | one guarded push per query parameter in order, per element iff array typed |
| Executor.RenderQueryPush | src/getOperationExecutorFunction.ts:186-204 | one query push's text |
| Executor.QueryPushGuard | src/getOperationExecutorFunction.ts:186-204 | every query push opens with its `!= null` test, whether or not the parameter is required |
| Executor.CreateFetcherQuery | src/getOperationExecutorFunction.ts:171-207 | the builder fails exactly as its operation check does |
| Executor.RenderQuery | src/getOperationExecutorFunction.ts:182-206 | the query fragment is empty iff there is no push |
| Executor.UrlWithQuery | src/getOperationExecutorFunction.ts:22-23 | the query string is appended iff some parameter is in the query |
| Executor.UrlWithQueryDeclared | src/getOperationExecutorFunction.ts:55-57 | the url expression reads `query` iff the query fragment declares it |
| Executor.HeaderCodeFor | src/getOperationExecutorFunction.ts:220-235 | one push per header parameter in order, guarded iff not required |
| Executor.RenderHeaderPush | src/getOperationExecutorFunction.ts:223-233 | one header push's text |
| Executor.HeaderPushGuard | src/getOperationExecutorFunction.ts:223-233 | an optional header opens with its `!= null` test and then pushes; a required one pushes directly |
| Executor.CreateFetcherHeaders | src/getOperationExecutorFunction.ts:209-236 | the builder fails exactly as its operation check does |
| Executor.RenderHeaders | src/getOperationExecutorFunction.ts:221-235 | the header fragment's text; `HeadersAlwaysDeclared` states its shape |
| Executor.HeadersAlwaysDeclared | src/getOperationExecutorFunction.ts:221-235 | the `headers` array is declared first even without header parameters, then nothing is pushed; otherwise the first push follows the declaration |
| Executor.FirstBodyName | src/getOperationExecutorFunction.ts:338-348 | the first body parameter's name; `TypeError` iff there is none |
| Executor.BodyFor | src/getOperationExecutorFunction.ts:256-285 | dispatch by substring, in this order: a multipart MIME type gives the multipart form and a url-encoded one the url-encoded form, both over the formData names; a JSON or json-patch one the JSON body and a text one the text body of the first body parameter, `TypeError` without one; `TypeError` for an `undefined` MIME type; anything else throws with base path, path, method and MIME type; each body kind comes only from its MIME type |
| Executor.UnrecognizedMessage | src/getOperationExecutorFunction.ts:281-285 | the message of an unrecognised MIME type: base path (printed `undefined` when absent), path, method and the quoted MIME type; `BodyFor` states when it is thrown |
| Executor.JsonPatchIsJson | src/getOperationExecutorFunction.ts:270-273 | the json-patch test never decides: "application/json" occurs in it |
| Executor.CreateFetcherBody | src/getOperationExecutorFunction.ts:238-286 | no body iff no formData and no body parameter; otherwise the MIME dispatch |
| Executor.FormTarget | src/getOperationExecutorFunction.ts:288-336 | a form appends its first field to its target before the `const body` declaration |
| Executor.UrlEncodedAppendsToBody | src/getOperationExecutorFunction.ts:313-336 | the url-encoded form appends to `body` before declaring it; the multipart one appends to `form` |
| Executor.RenderForm | src/getOperationExecutorFunction.ts:288-336 | a form fragment's text; `FormTarget` and `FormDeclaresBody` state its properties |
| Executor.FormDeclaresBody | src/getOperationExecutorFunction.ts:288-336 | every form fragment, with fields or without, declares `body` |
| Executor.RenderBody | src/getOperationExecutorFunction.ts:288-348 | the body fragment's text; `BodyAlwaysDeclared` and `UrlEncodedAppendsToBody` state its properties |
| Executor.BodyAlwaysDeclared | src/getOperationExecutorFunction.ts:288-348 | whatever the body code, the fragment declares `body` |
| Executor.NonEmpty | src/getOperationExecutorFunction.ts:32-36 | exactly the non-empty lines, and all of them when none is empty |
| Executor.CommentLines | src/getOperationExecutorFunction.ts:32-36 | every comment line starts "// " and holds no line break |
| Executor.CommentsRoundTrip | src/getOperationExecutorFunction.ts:32-36 | removing the markers and joining the lines gives a description without blank lines back |
| Executor.InnerChecksPass | src/getOperationExecutorFunction.ts:47-53 | once the operation exists the builders' own checks pass; only the body can fail |
| Executor.ExecutorFor | src/getOperationExecutorFunction.ts:17-57 | the name is `getOperationName` of the operation and `OpName` its capitalisation; the comments are the description's lines; the fragments are those of the deduplicated parameters; it fails iff the body fragment does |
| Executor.ExecutorQueryConsistent | src/getOperationExecutorFunction.ts:47-57 | the url reads `query` iff some statement pushes onto it |
| Executor.RenderExecutor | src/getOperationExecutorFunction.ts:28-57 | the request-building half of the executor text; `ExecutorExportsName` and `ExecutorEndsWithTail` state its properties |
| Executor.ExecutorExportsName | src/getOperationExecutorFunction.ts:28-30 | the exported constant is named after the executor's name |
| Executor.ExecutorExportsOperationName | src/getOperationExecutorFunction.ts:19-30 | the executor text of an operation exports a constant named by `getOperationName` of that operation |
| Executor.ExecutorEndsWithTail | src/getOperationExecutorFunction.ts:55-59 | the runtime part closes the executor text |
| Executor.GetOperationExecutorFunction | src/getOperationExecutorFunction.ts:8-128 | the declarations followed by the executor text; `FetcherWithoutOperation`, `FetcherSucceeds` and `FetcherShape` state its properties |
| Executor.FetcherWithoutOperation | src/getOperationExecutorFunction.ts:13-16 | `TypeError` without the path, "createFetcher: operation is empty" without the operation |
| Executor.FetcherSucceeds | src/getOperationExecutorFunction.ts:25-27 | succeeds iff the declarations and the request code do; a failure of the declarations is the one reported |
| Executor.FetcherShape | src/getOperationExecutorFunction.ts:25-127 | the output is the operation's declarations followed by the executor text |
| Process.Blank | src/processSpec.ts:35 | an all-whitespace line becomes "", any other is kept |
| Process.FileStartsWithDirective | src/processSpec.ts:34-36 | every file opens with the lint directive, followed by an empty line when anything follows |
| Process.FileOf | src/processSpec.ts:34-36 | the file text: the lint directive, the fetcher and the component lines, whitespace-only lines blanked, joined by empty lines; `FileStartsWithDirective` states its start |
| Process.Pairs | src/processSpec.ts:10-12 | the (path, member) key pairs in `Object.keys` order: each path's members in order, one path after the other; exactly the pairs of some path and member |
| Process.PairsDistinct | src/processSpec.ts:10-12 | with distinct object keys every (path, member) pair is visited once |
| Process.OutcomeOf | src/processSpec.ts:22-47 | warn and stop iff the operation is falsy; yield iff it exists and its fetcher succeeds, named by `getOperationName`; otherwise the caught error |
| Process.Outcome | src/processSpec.ts:22-48 | the event of one recognised key, from the operation, its fetcher and its component; `OutcomeOf` and `OutcomeFails` state it |
| Process.Walk | src/processSpec.ts:10-50 | only the last event can be the stop |
| Process.ProcessSpec | src/processSpec.ts:7-53 | only the last event can be the stop |
| Process.RecognizedPairs | src/processSpec.ts:14-21 | exactly the pairs whose key is one of the six methods |
| Process.WalkIsOutcomesUpToAbort | src/processSpec.ts:12-48 | the walk is: keep the recognised keys, compute each outcome, cut after the first stop |
| Process.NoAbortWalk | src/processSpec.ts:31-48 | without a stop every recognised key gives exactly its outcome, in order |
| Process.OneEventPerOperation | src/processSpec.ts:10-48 | without a falsy operation every recognised key gives one event and a failure does not stop the walk |
| Process.AbortEndsWalk | src/processSpec.ts:23-28 | the keys after the first stop give nothing |
| Process.OutcomeAborts | src/processSpec.ts:22-28 | only a falsy operation stops the walk |
| Process.ProcessSpecAborts | src/processSpec.ts:23-28 | at the first falsy operation: the outcomes before it, the warning, nothing after |
| Process.UnrecognizedKeysIgnored | src/processSpec.ts:14-21 | keys other than the six methods make no difference |
| Process.ExitsWithFailure | src/processSpec.ts:45-47 | `process.exitCode = 1`: some event is a caught failure; `ExitCodeWithoutAbort` and `ExitCodeWithAbort` state when |
| Process.OutcomeFails | src/processSpec.ts:13-47 | a key's outcome is a failure iff its path item is missing, or its operation exists and its fetcher fails |
| Process.WalkFailures | src/processSpec.ts:10-48 | without a stop, the walk has a failure iff some recognised key's outcome is one |
| Process.ExitCodeWithoutAbort | src/processSpec.ts:10-48 | without a falsy operation, the exit code is set iff some recognised key fails |
| Process.ExitCodeWithAbort | src/processSpec.ts:23-48 | with a falsy operation, only the keys before it can set the exit code |

## Left out

- src/getOperationExecutorComponent.ts is not part of this model. The React component of each operation is a parameter of `Process.ProcessSpec`, and it cannot fail.
- The runtime half of each executor (`init`, the header merge, `fetch`, the response parsing and debug logging, src/getOperationExecutorFunction.ts:59-125) is a parameter. It depends only on the names and the method.
- `signale` logging and `process.exitCode` become the event list. `Process.ExitsWithFailure` reads the exit status off it.
- Executor.RenderExecutor: the order of the four request fragments is not stated by a lemma of its own; it is the order of the body's concatenation.
- src/getSwaggerFiles.ts, src/readConfig.ts and src/cli.ts (file and network I/O, configuration, formatting) are not part of this model.
- `JSON.stringify` escaping is not modelled: strings are quoted as they are, and only integral numbers appear in `enum`.
- Only ASCII whitespace and ASCII letters are modelled for `trim`, `\s` and case changes.
- `Object.keys` puts integer-like keys first; dictionaries here are taken to be already in `Object.keys` order.
- Of the document root, only `definitions` is reachable by a `$ref` walk; a pointer through any other root member resolves to `undefined`.
- Gather.Step: members that values inherit from their prototypes (`length`, `toString`, array methods) and indexing into strings are not modelled; stepping into them gives `undefined`. `enum` and `required` elements are stepped into as primitives (`null` for an `enum` null), whatever their truthiness.
- Gather.Value: a walk that ends on the root, a map or an array yields a schema with no members. In JavaScript a `properties` or `definitions` map with a key named `type`, `items`, `properties`, `$ref` or `schema` would expose that key to the later stages. Schema members outside the seven modelled fields (`allOf`, `additionalProperties`, `format`, and so on) cannot be reached by a `$ref` walk here and give `undefined`.
- `~0`/`~1` unescaping (section 4 of RFC 6901) is not done, because the code does not do it.
- A falsy primitive (`0`, `""`, `false`) where a schema is expected is not representable; `Scalar` stands for a truthy one.
- A response value that is itself `null` or `undefined` is not representable. The code would throw on destructuring it.
- OperationTypes.CodeType: stated for keys without leading whitespace or sign, which `parseInt` would skip or read, and keys whose leading digits exceed 2^53, which `parseInt` rounds through a double (from 1e21 printed in exponent form); the model keeps the exact numeral.
- OperationTypes.RequiredNames: states which names are listed, not their order.
- TypeScript.EnumType: states how the union begins, not every member's spelling.
- Gather.GatherIdempotent: proved only when references with the same binding resolve to the same value and no seed key starts with `_`. Without that, a later binding can overwrite a seed or an earlier binding, and a second gathering can differ.

## Findings

| source | as written | input that shows it | evidently intended | confidence | as-written member | corrected member |
|---|---|---|---|---|---|---|
| src/getOperationTypes.ts:54 | the content schema is seeded under `capitalize(opName + kind + "ResponseContent")`, while the envelope at line 72 refers to `OpName + kind + "ResponseContent"` | an operation without `operationId` and a response key `default`: the seed is `DefaultResponseContent`, the envelope's `json?:` names `defaultResponseContent`, which is never declared | seed under the key the envelope refers to | not executed | OperationTypes.EnvelopeContentUndeclared | OperationTypes.EnvelopeContentDeclared |

The seeding rule is a parameter, `OperationTypes.KeyRule`. `OperationTypes.GetOperationTypes`, and so the executor and the walk over the document, seed as the code does (`AsWritten`). The corrected rule (`Corrected`) seeds under `OperationTypes.ContentKey`, the key the envelope uses, and `OperationTypes.EnvelopeContentDeclared` is proved for it. `OperationTypes.ContentKeyMismatch` shows the two keys differing. `OperationTypes.ContentSeedsAgree` shows that both rules seed the same dictionary when the operation name has no surrounding whitespace.

=== FILE: dicts.dfy ===
/** JavaScript plain objects used as dictionaries, as ordered association
    lists in `Object.keys` order. Assignment and spread follow JavaScript: an
    existing key keeps its position and takes the new value, a new key is
    appended. */
module Dicts {
  import opened Results

  type Dict<V> = seq<(string, V)>

  function Keys<V>(d: Dict<V>): set<string> {
    set i | 0 <= i < |d| :: d[i].0
  }

  /** Every JavaScript object has distinct keys. */
  predicate UniqueKeys<V>(d: Dict<V>) {
    forall i, j :: 0 <= i < j < |d| ==> d[i].0 != d[j].0
  }

  function IndexOf<V>(d: Dict<V>, k: string): (i: nat)
    requires k in Keys(d)
    ensures i < |d| && d[i].0 == k
    ensures forall j :: 0 <= j < i ==> d[j].0 != k
  {
    if d[0].0 == k then 0
    else
      assert k in Keys(d[1..]) by {
        var j :| 0 <= j < |d| && d[j].0 == k;
        assert d[1..][j - 1].0 == k;
      }
      1 + IndexOf(d[1..], k)
  }

  /** `d[k]`, where `None` is `undefined`. */
  function Lookup<V>(d: Dict<V>, k: string): (r: Option<V>)
    ensures r.Some? <==> k in Keys(d)
    ensures r.Some? ==> exists i :: 0 <= i < |d| && d[i] == (k, r.value)
  {
    if k in Keys(d) then Some(d[IndexOf(d, k)].1) else None
  }

  lemma LookupAt<V>(d: Dict<V>, i: nat)
    requires UniqueKeys(d) && i < |d|
    ensures Lookup(d, d[i].0) == Some(d[i].1)
  {
    assert d[i].0 in Keys(d);
  }

  lemma UniqueKeysCount<V>(d: Dict<V>)
    requires UniqueKeys(d)
    ensures |Keys(d)| == |d|
    decreases |d|
  {
    if |d| > 0 {
      var t := d[..|d| - 1];
      UniqueKeysCount(t);
      assert Keys(d) == Keys(t) + {d[|d| - 1].0};
      assert d[|d| - 1].0 !in Keys(t);
    }
  }

  /** `d[k] = v`, or `{ ...d, [k]: v }`. */
  function Update<V>(d: Dict<V>, k: string, v: V): (r: Dict<V>)
    ensures Keys(r) == Keys(d) + {k}
    ensures Lookup(r, k) == Some(v)
    ensures forall k' :: k' != k ==> Lookup(r, k') == Lookup(d, k')
    ensures k in Keys(d) ==> |r| == |d| && forall i :: 0 <= i < |d| ==> r[i].0 == d[i].0
    ensures k in Keys(d) ==> forall i :: 0 <= i < |d| && d[i].0 != k ==> r[i] == d[i]
    ensures k !in Keys(d) ==> r == d + [(k, v)]
    ensures UniqueKeys(d) ==> UniqueKeys(r)
    ensures forall i :: 0 <= i < |r| ==> (i < |d| && r[i] == d[i]) || r[i] == (k, v)
  {
    if k in Keys(d) then
      var i := IndexOf(d, k);
      var r := d[i := (k, v)];
      assert Keys(r) == Keys(d) by {
        forall x | x in Keys(d) ensures x in Keys(r) {
          var j :| 0 <= j < |d| && d[j].0 == x;
          assert r[j].0 == x;
        }
      }
      assert IndexOf(r, k) == i by { IndexOfUnchangedKeys(d, r, k); }
      forall k' | k' != k ensures Lookup(r, k') == Lookup(d, k') {
        if k' in Keys(d) {
          IndexOfUnchangedKeys(d, r, k');
        }
      }
      r
    else
      var r := d + [(k, v)];
      assert Keys(r) == Keys(d) + {k} by {
        forall x | x in Keys(r) ensures x in Keys(d) + {k} {
          var j :| 0 <= j < |r| && r[j].0 == x;
          if j < |d| { assert d[j].0 == x; }
        }
        forall x | x in Keys(d) ensures x in Keys(r) {
          var j :| 0 <= j < |d| && d[j].0 == x;
          assert r[j].0 == x;
        }
        assert r[|d|].0 == k;
      }
      assert IndexOf(r, k) == |d|;
      forall k' | k' != k ensures Lookup(r, k') == Lookup(d, k') {
        if k' in Keys(d) {
          IndexOfPrefix(d, r, k');
        }
      }
      r
  }

  lemma {:induction false} IndexOfUnchangedKeys<V>(d: Dict<V>, r: Dict<V>, k: string)
    requires |d| == |r| && forall i :: 0 <= i < |d| ==> r[i].0 == d[i].0
    requires k in Keys(d)
    ensures k in Keys(r) && IndexOf(r, k) == IndexOf(d, k)
  {
    var i := IndexOf(d, k);
    assert r[i].0 == k;
    var j := IndexOf(r, k);
  }

  lemma {:induction false} IndexOfPrefix<V>(d: Dict<V>, r: Dict<V>, k: string)
    requires |d| <= |r| && forall i :: 0 <= i < |d| ==> r[i] == d[i]
    requires k in Keys(d)
    ensures k in Keys(r) && IndexOf(r, k) == IndexOf(d, k)
  {
    var i := IndexOf(d, k);
    assert r[i].0 == k;
    var j := IndexOf(r, k);
  }

  /** `{ ...d, ...e }`: the entries of `e` assigned onto `d` in order. */
  function Merge<V>(d: Dict<V>, e: Dict<V>): (r: Dict<V>)
    ensures Keys(r) == Keys(d) + Keys(e)
    ensures UniqueKeys(d) ==> UniqueKeys(r)
    ensures |d| <= |r| && forall i :: 0 <= i < |d| ==> r[i].0 == d[i].0
    decreases |e|
  {
    if |e| == 0 then d
    else
      KeysCons(e);
      Merge(Update(d, e[0].0, e[0].1), e[1..])
  }

  lemma KeysCons<V>(e: Dict<V>)
    requires |e| > 0
    ensures Keys(e) == {e[0].0} + Keys(e[1..])
  {
    forall x | x in Keys(e) ensures x in {e[0].0} + Keys(e[1..]) {
      var j :| 0 <= j < |e| && e[j].0 == x;
      if j > 0 { assert e[1..][j - 1].0 == x; }
    }
    forall x | x in Keys(e[1..]) ensures x in Keys(e) {
      var j :| 0 <= j < |e[1..]| && e[1..][j].0 == x;
      assert e[j + 1].0 == x;
    }
  }

  /** After the spread, a key of `e` maps to its value in `e`, any other key
      to its value in `d`. */
  lemma {:induction false} MergeLookup<V>(d: Dict<V>, e: Dict<V>, k: string)
    requires UniqueKeys(e)
    ensures k in Keys(e) ==> Lookup(Merge(d, e), k) == Lookup(e, k)
    ensures k !in Keys(e) ==> Lookup(Merge(d, e), k) == Lookup(d, k)
    decreases |e|
  {
    if |e| > 0 {
      KeysCons(e);
      var d' := Update(d, e[0].0, e[0].1);
      MergeLookup(d', e[1..], k);
      if k == e[0].0 {
        assert k !in Keys(e[1..]);
        assert IndexOf(e, k) == 0;
      } else if k in Keys(e) {
        IndexOfTail(e, k);
      }
    }
  }

  lemma IndexOfTail<V>(e: Dict<V>, k: string)
    requires |e| > 0 && k in Keys(e) && e[0].0 != k
    ensures k in Keys(e[1..]) && Lookup(e, k) == Lookup(e[1..], k)
  {
    var j :| 0 <= j < |e| && e[j].0 == k;
    assert e[1..][j - 1].0 == k;
  }

  /** Two duplicate-free dictionaries with the same keys at the same positions
      and the same lookups are the same dictionary. */
  lemma DictExtensional<V>(d: Dict<V>, r: Dict<V>)
    requires UniqueKeys(d) && UniqueKeys(r)
    requires |r| == |d| && forall i :: 0 <= i < |d| ==> r[i].0 == d[i].0
    requires forall k :: Lookup(r, k) == Lookup(d, k)
    ensures r == d
  {
    forall i | 0 <= i < |d| ensures r[i] == d[i] {
      LookupAt(d, i);
      LookupAt(r, i);
    }
  }

  /** Spreading entries that are already present with the same values changes nothing. */
  lemma MergeUnchanged<V>(d: Dict<V>, e: Dict<V>)
    requires UniqueKeys(d) && UniqueKeys(e)
    requires forall k :: k in Keys(e) ==> Lookup(e, k) == Lookup(d, k)
    ensures Merge(d, e) == d
  {
    var r := Merge(d, e);
    assert Keys(e) <= Keys(d) by {
      forall k | k in Keys(e) ensures k in Keys(d) {
        assert Lookup(e, k).Some?;
      }
    }
    assert Keys(r) == Keys(d);
    UniqueKeysCount(r);
    UniqueKeysCount(d);
    forall k ensures Lookup(r, k) == Lookup(d, k) {
      MergeLookup(d, e, k);
    }
    DictExtensional(d, r);
  }
}

=== FILE: executor.dfy ===
/** src/getOperationExecutorFunction.ts: the request-building statements of
    one generated fetcher. Each fragment is a small datatype saying which
    statements appear, in which order and under which guard; a `Render…`
    function spells it out with the template's own text. */
module Executor {
  import opened Results
  import opened Strings
  import opened Dicts
  import opened Swagger
  import opened Naming
  import opened Mime
  import opened Parameters
  import opened OperationTypes

  /** `parameters.filter(param => param.in === loc)`. */
  function ParamsAt(params: seq<Param>, loc: string): (r: seq<Param>)
    ensures |r| <= |params|
    ensures forall p :: p in r <==> p in params && p.loc == loc
    ensures |r| == 0 <==> forall i :: 0 <= i < |params| ==> params[i].loc != loc
  {
    if |params| == 0 then []
    else
      var r := (if params[0].loc == loc then [params[0]] else []) + ParamsAt(params[1..], loc);
      assert forall i :: 0 < i < |params| ==> params[i] in params[1..] by {
        forall i | 0 < i < |params| ensures params[i] in params[1..] {
          assert params[1..][i - 1] == params[i];
        }
      }
      r
  }

  /** Filtering keeps the relative order: the parameters at `loc` of a
      concatenation are those of each part, one after the other. */
  lemma {:induction false} ParamsAtAppend(a: seq<Param>, b: seq<Param>, loc: string)
    ensures ParamsAt(a + b, loc) == ParamsAt(a, loc) + ParamsAt(b, loc)
    decreases |a|
  {
    if |a| > 0 {
      assert (a + b)[1..] == a[1..] + b;
      ParamsAtAppend(a[1..], b, loc);
    } else {
      assert a + b == b;
    }
  }

  function Names(params: seq<Param>): (r: seq<string>)
    ensures |r| == |params| && forall i :: 0 <= i < |params| ==> r[i] == params[i].name
  {
    seq(|params|, i requires 0 <= i < |params| => params[i].name)
  }

  /** `swagger.paths[dir][method]` followed by the `!operation` check every
      fragment builder repeats, with the builder's name in the message. */
  function OperationCheck(spec: Spec, dir: string, verb: string, who: string): (r: Result<Operation>)
    ensures dir !in Keys(spec.paths) ==> r == Err(TypeError)
    ensures OperationAt(spec, dir, verb) == Ok(None) ==> r == Err(Thrown(who + ": operation is empty"))
    ensures r.Ok? <==> OperationAt(spec, dir, verb).Ok? && OperationAt(spec, dir, verb).value.Some?
    ensures r.Ok? ==> OperationAt(spec, dir, verb) == Ok(Some(r.value))
  {
    var op :- OperationAt(spec, dir, verb);
    if op.None? then Err(Thrown(who + ": operation is empty")) else Ok(op.value)
  }

  // ---------------------------------------------------------------- url

  /** `swagger.host ? `https://${swagger.host}` : ''`. */
  function HostPrefix(host: Option<string>): (r: string)
    ensures Truthy(host) ==> r == "https://" + host.value
    ensures !Truthy(host) ==> r == ""
  {
    if Truthy(host) then "https://" + host.value else ""
  }

  /** The base path is dropped when it is empty or absent, and when the path
      already starts with '/' and the base path is just "/" or "./";
      otherwise it is kept verbatim. */
  function BasePathPrefix(basePath: Option<string>, dir: string): (r: string)
    ensures r == "" <==> !Truthy(basePath) || (|dir| > 0 && dir[0] == '/' && basePath.value in {"/", "./"})
    ensures r != "" ==> r == basePath.value
  {
    if !Truthy(basePath) then ""
    else if |dir| > 0 && dir[0] == '/' && (basePath.value == "/" || basePath.value == "./") then ""
    else basePath.value
  }

  /** One `{name}` substitution; `guarded` wraps it in `!= null`. */
  datatype Replacement = Replacement(name: string, guarded: bool)

  /** Either one constant url, or a `let url` rewritten by substitutions. */
  datatype PathCode = ConstUrl(url: string) | LetUrl(url: string, replacements: seq<Replacement>)

  function PathCodeFor(spec: Spec, dir: string, params: seq<Param>): (c: PathCode)
    ensures c.url == HostPrefix(spec.host) + BasePathPrefix(spec.basePath, dir) + dir
    ensures c.ConstUrl? <==> forall i :: 0 <= i < |params| ==> params[i].loc != "path"
    ensures c.LetUrl? ==> var pp := ParamsAt(params, "path");
      |c.replacements| == |pp|
      && forall i :: 0 <= i < |pp| ==> c.replacements[i].name == pp[i].name && (c.replacements[i].guarded <==> !pp[i].required)
  {
    var url := HostPrefix(spec.host) + BasePathPrefix(spec.basePath, dir) + dir;
    var pp := ParamsAt(params, "path");
    if |pp| == 0 then ConstUrl(url)
    else LetUrl(url, seq(|pp|, i requires 0 <= i < |pp| => Replacement(pp[i].name, !pp[i].required)))
  }

  /** `createFetcherPath`. */
  function CreateFetcherPath(spec: Spec, dir: string, verb: string, params: seq<Param>): (r: Result<PathCode>)
    ensures r.Ok? <==> OperationCheck(spec, dir, verb, "createFetcherPath").Ok?
    ensures r.Err? ==> r.error == OperationCheck(spec, dir, verb, "createFetcherPath").error
    ensures r.Ok? ==> r.value == PathCodeFor(spec, dir, params)
  {
    var _ :- OperationCheck(spec, dir, verb, "createFetcherPath");
    Ok(PathCodeFor(spec, dir, params))
  }

  /** The test that skips a parameter the request leaves out. */
  function NullGuard(name: string): string {
    "if (request['" + name + "'] != null) {"
  }

  function RenderReplacement(r: Replacement): string {
    if !r.guarded then
      "\n                " + "url = url.replace(" + ("\n                  '{" + r.name + "}',\n                  request['"
        + r.name + "'].toString()\n                );")
    else
      "\n                " + NullGuard(r.name) + ("\n                  url = url.replace(\n                    '{"
        + r.name + "}',\n                    request['" + r.name + "'].toString()\n                  );\n                }")
  }

  function RenderPath(c: PathCode): string {
    match c
    case ConstUrl(url) => "const url = '" + url + "';"
    case LetUrl(url, rs) =>
      "\n        let url = '" + url + "';" + Join("", seq(|rs|, i requires 0 <= i < |rs| => RenderReplacement(rs[i])))
  }

  /** The url is declared exactly as computed, and first: a constant when
      nothing is substituted, a `let` that the replacements rewrite otherwise. */
  lemma RenderPathDeclaresUrl(c: PathCode)
    ensures c.ConstUrl? ==> OccursAt(RenderPath(c), "const url = '" + c.url + "';", 0)
    ensures c.LetUrl? ==> OccursAt(RenderPath(c), "\n        let url = '" + c.url + "';", 0)
  {
    if c.LetUrl? {
      var decl := "\n        let url = '" + c.url + "';";
      OccursEnd([], decl);
      assert [] + decl == decl;
      OccursExtend(decl, Join("", seq(|c.replacements|, i requires 0 <= i < |c.replacements| => RenderReplacement(c.replacements[i]))), decl, 0);
    } else {
      OccursEnd([], RenderPath(c));
      assert [] + RenderPath(c) == RenderPath(c);
    }
  }

  // ---------------------------------------------------------------- query

  /** One guarded `query.push`: for an array every element, otherwise the value. */
  datatype QueryPush = PushEach(name: string) | PushOne(name: string)

  function QueryCodeFor(params: seq<Param>): (q: seq<QueryPush>)
    ensures var qp := ParamsAt(params, "query");
      |q| == |qp| && forall i :: 0 <= i < |qp| ==> q[i].name == qp[i].name && (q[i].PushEach? <==> qp[i].typ == Some("array"))
  {
    var qp := ParamsAt(params, "query");
    seq(|qp|, i requires 0 <= i < |qp| => if qp[i].typ == Some("array") then PushEach(qp[i].name) else PushOne(qp[i].name))
  }

  /** `createFetcherQuery`. */
  function CreateFetcherQuery(spec: Spec, dir: string, verb: string, params: seq<Param>): (r: Result<seq<QueryPush>>)
    ensures r.Ok? <==> OperationCheck(spec, dir, verb, "createFetcherQuery").Ok?
    ensures r.Err? ==> r.error == OperationCheck(spec, dir, verb, "createFetcherQuery").error
    ensures r.Ok? ==> r.value == QueryCodeFor(params)
  {
    var _ :- OperationCheck(spec, dir, verb, "createFetcherQuery");
    Ok(QueryCodeFor(params))
  }

  /** Every push is guarded by `!= null`, whether or not the parameter is required. */
  function RenderQueryPush(q: QueryPush): string {
    "\n              " + NullGuard(q.name) + QueryPushBody(q)
  }

  /** What the guard protects: a push per element for an array, else one push. */
  function QueryPushBody(q: QueryPush): string {
    match q
    case PushEach(n) =>
      "\n                (request['" + n
        + "']!).forEach(v =>\n                  query.push(\n                    '" + n
        + "=' + encodeURIComponent(String(v))\n                  )\n                );\n              }"
    case PushOne(n) =>
      "\n                query.push(\n                  '" + n
        + "=' +\n                  encodeURIComponent(String(request['" + n + "']))\n                );\n              }"
  }

  function RenderQuery(q: seq<QueryPush>): (s: string)
    ensures s == "" <==> q == []
  {
    if q == [] then ""
    else "\n        const query = new Array<string>();" + Join("", seq(|q|, i requires 0 <= i < |q| => RenderQueryPush(q[i])))
  }

  /** The `hasQueryParams` decision: the query string is appended to the url
      exactly when some parameter is in the query. */
  function UrlWithQuery(params: seq<Param>): (e: string)
    ensures e == "url + '?' + query.join('&')" <==> exists i :: 0 <= i < |params| && params[i].loc == "query"
    ensures e == "url" <==> forall i :: 0 <= i < |params| ==> params[i].loc != "query"
  {
    if |ParamsAt(params, "query")| > 0 then "url + '?' + query.join('&')" else "url"
  }

  /** The url expression reads `query` exactly when the query fragment
      declares it. */
  lemma UrlWithQueryDeclared(params: seq<Param>)
    ensures UrlWithQuery(params) != "url" <==> RenderQuery(QueryCodeFor(params)) != ""
  {
  }

  // ---------------------------------------------------------------- headers

  /** One `headers.push`; `guarded` wraps it in `!= null`. */
  datatype HeaderPush = HeaderPush(name: string, guarded: bool)

  function HeaderCodeFor(params: seq<Param>): (h: seq<HeaderPush>)
    ensures var hp := ParamsAt(params, "header");
      |h| == |hp| && forall i :: 0 <= i < |hp| ==> h[i].name == hp[i].name && (h[i].guarded <==> !hp[i].required)
  {
    var hp := ParamsAt(params, "header");
    seq(|hp|, i requires 0 <= i < |hp| => HeaderPush(hp[i].name, !hp[i].required))
  }

  /** `createFetcherHeaders`. */
  function CreateFetcherHeaders(spec: Spec, dir: string, verb: string, params: seq<Param>): (r: Result<seq<HeaderPush>>)
    ensures r.Ok? <==> OperationCheck(spec, dir, verb, "createFetcherHeaders").Ok?
    ensures r.Err? ==> r.error == OperationCheck(spec, dir, verb, "createFetcherHeaders").error
    ensures r.Ok? ==> r.value == HeaderCodeFor(params)
  {
    var _ :- OperationCheck(spec, dir, verb, "createFetcherHeaders");
    Ok(HeaderCodeFor(params))
  }

  function HeaderPushCall(name: string): string {
    "headers.push(['" + name + "', request['" + name + "']]);"
  }

  function RenderHeaderPush(h: HeaderPush): string {
    if !h.guarded then "\n            " + HeaderPushCall(h.name)
    else "\n            " + NullGuard(h.name) + ("\n              " + HeaderPushCall(h.name) + "\n            }")
  }

  /** The `headers` array is always declared, even with no header parameter. */
  function RenderHeaders(h: seq<HeaderPush>): string {
    HeadersDeclaration
      + Join("\r\n", seq(|h|, i requires 0 <= i < |h| => RenderHeaderPush(h[i]))) + "\n    "
  }

  const HeadersDeclaration := "\n    const headers = [] as string[][];\n    "

  /** The `headers` array is declared before the first push, and with no
      header parameter nothing is pushed. */
  lemma HeadersAlwaysDeclared(h: seq<HeaderPush>)
    ensures OccursAt(RenderHeaders(h), HeadersDeclaration, 0)
    ensures h == [] ==> RenderHeaders(h) == HeadersDeclaration + "\n    "
    ensures h != [] ==> OccursAt(RenderHeaders(h), RenderHeaderPush(h[0]), |HeadersDeclaration|)
  {
    var pushes := seq(|h|, i requires 0 <= i < |h| => RenderHeaderPush(h[i]));
    var joined := Join("\r\n", pushes);
    OccursEnd([], HeadersDeclaration);
    assert [] + HeadersDeclaration == HeadersDeclaration;
    OccursExtend(HeadersDeclaration, joined, HeadersDeclaration, 0);
    OccursExtend(HeadersDeclaration + joined, "\n    ", HeadersDeclaration, 0);
    if h != [] {
      JoinStartsWith("\r\n", pushes);
      assert OccursAt(joined, pushes[0], 0);
      OccursInside(HeadersDeclaration, joined, "\n    ", pushes[0], 0);
    } else {
      assert joined == "";
      assert HeadersDeclaration + joined == HeadersDeclaration;
    }
  }

  /** A piece right after the indentation occurs there. */
  lemma FirstAfter(indent: string, x: string, rest: string)
    ensures OccursAt(indent + x + rest, x, |indent|)
  {
    OccursInside(indent, x, rest, x, 0);
  }

  /** An optional path parameter is tested against `null` before it is
      substituted; a required one is substituted directly. */
  lemma ReplacementGuard(r: Replacement)
    ensures r.guarded ==> OccursAt(RenderReplacement(r), NullGuard(r.name), 17)
    ensures !r.guarded ==> OccursAt(RenderReplacement(r), "url = url.replace(", 17)
  {
    var indent := "\n                ";
    if r.guarded {
      FirstAfter(indent, NullGuard(r.name), "\n                  url = url.replace(\n                    '{"
        + r.name + "}',\n                    request['" + r.name + "'].toString()\n                  );\n                }");
    } else {
      FirstAfter(indent, "url = url.replace(", "\n                  '{" + r.name + "}',\n                  request['"
        + r.name + "'].toString()\n                );");
    }
  }

  /** Every query parameter is tested against `null`, required or not. */
  lemma QueryPushGuard(q: QueryPush)
    ensures OccursAt(RenderQueryPush(q), NullGuard(q.name), 15)
  {
    FirstAfter("\n              ", NullGuard(q.name), QueryPushBody(q));
  }

  /** Every header parameter is pushed; an optional one only behind the
      `null` test. */
  lemma HeaderPushGuard(h: HeaderPush)
    ensures h.guarded ==> OccursAt(RenderHeaderPush(h), NullGuard(h.name), 13)
    ensures h.guarded ==> OccursAt(RenderHeaderPush(h), HeaderPushCall(h.name), 13 + |NullGuard(h.name)| + 15)
    ensures !h.guarded ==> OccursAt(RenderHeaderPush(h), HeaderPushCall(h.name), 13)
  {
    var indent := "\n            ";
    var call := HeaderPushCall(h.name);
    if h.guarded {
      var guard := NullGuard(h.name);
      var rest := "\n              " + call + "\n            }";
      FirstAfter(indent, guard, rest);
      FirstAfter("\n              ", call, "\n            }");
      OccursInside(indent + guard, rest, [], call, 15);
      assert indent + guard + rest + [] == RenderHeaderPush(h);
    } else {
      OccursEnd(indent, call);
    }
  }

  // ---------------------------------------------------------------- body

  /** The body statement: none, a form of the truthy form fields, or the first
      body parameter sent as JSON or as text. */
  datatype BodyCode =
    | NoBody
    | MultipartForm(fields: seq<string>)
    | UrlEncodedForm(fields: seq<string>)
    | JsonBody(name: string)
    | TextBody(name: string)

  const Multipart := "multipart/form-data"
  const UrlEncoded := "application/x-www-form-urlencoded"
  const Json := "application/json"
  const JsonPatch := "application/json-patch+json"
  const Text := "text/plain"

  /** `JSON.stringify` of a string without characters needing an escape. */
  function JsonQuote(s: string): string {
    "\"" + s + "\""
  }

  /** The message thrown for a request MIME type none of the encodings
      recognises; an absent base path prints as `undefined`. */
  function UnrecognizedMessage(basePath: Option<string>, dir: string, verb: string, mime: string): string {
    basePath.GetOr("undefined") + " " + dir + " " + verb + "\n\t\U{26A0}\U{FE0F} Unrecognized \"" + JsonQuote(mime) + "\""
  }

  /** `createJSONBody` and `createTextBody` read `parameters[0].name`; with no
      body parameter that is a `TypeError`. */
  function FirstBodyName(params: seq<Param>): (r: Result<string>)
    ensures r.Err? <==> forall i :: 0 <= i < |params| ==> params[i].loc != "body"
    ensures r.Err? ==> r.error == TypeError
    ensures r.Ok? ==> exists i :: (0 <= i < |params| && params[i].loc == "body" && params[i].name == r.value
      && forall j :: 0 <= j < i ==> params[j].loc != "body")
  {
    if |params| == 0 then Err(TypeError)
    else if params[0].loc == "body" then Ok(params[0].name)
    else
      var r := FirstBodyName(params[1..]);
      assert forall i :: 0 < i < |params| ==> params[i] == params[1..][i - 1];
      if r.Ok? then
        var i :| 0 <= i < |params[1..]| && params[1..][i].loc == "body" && params[1..][i].name == r.value
          && forall j :: 0 <= j < i ==> params[1..][j].loc != "body";
        assert params[i + 1] == params[1..][i];
        r
      else r
  }

  /** The MIME dispatch once some form or body parameter exists. */
  function BodyFor(basePath: Option<string>, dir: string, verb: string, consumes: Option<string>, params: seq<Param>): (r: Result<BodyCode>)
    ensures consumes.None? ==> r == Err(TypeError)
    ensures r.Ok? && r.value.MultipartForm? ==> Contains(consumes.value, Multipart)
    ensures r.Ok? && r.value.UrlEncodedForm? ==> Contains(consumes.value, UrlEncoded) && !Contains(consumes.value, Multipart)
    ensures r.Ok? && (r.value.MultipartForm? || r.value.UrlEncodedForm?) ==> r.value.fields == Names(ParamsAt(params, "formData"))
    ensures r.Ok? && r.value.JsonBody? ==>
      Contains(consumes.value, Json) && !Contains(consumes.value, Multipart) && !Contains(consumes.value, UrlEncoded)
    ensures r.Ok? && r.value.TextBody? ==>
      Contains(consumes.value, Text) && !Contains(consumes.value, Json)
      && !Contains(consumes.value, Multipart) && !Contains(consumes.value, UrlEncoded)
    ensures r.Ok? && (r.value.JsonBody? || r.value.TextBody?) ==> FirstBodyName(params) == Ok(r.value.name)
    ensures r.Ok? ==> !r.value.NoBody?
    ensures consumes.Some? && Contains(consumes.value, Multipart) ==>
      r == Ok(MultipartForm(Names(ParamsAt(params, "formData"))))
    ensures consumes.Some? && !Contains(consumes.value, Multipart) && Contains(consumes.value, UrlEncoded) ==>
      r == Ok(UrlEncodedForm(Names(ParamsAt(params, "formData"))))
    ensures (consumes.Some? && !Contains(consumes.value, Multipart) && !Contains(consumes.value, UrlEncoded)
             && (Contains(consumes.value, Json) || Contains(consumes.value, JsonPatch))) ==>
      r == (if FirstBodyName(params).Ok? then Ok(JsonBody(FirstBodyName(params).value)) else Err(TypeError))
    ensures (consumes.Some? && !Contains(consumes.value, Multipart) && !Contains(consumes.value, UrlEncoded)
             && !Contains(consumes.value, Json) && Contains(consumes.value, Text)) ==>
      r == (if FirstBodyName(params).Ok? then Ok(TextBody(FirstBodyName(params).value)) else Err(TypeError))
    ensures (consumes.Some? && !Contains(consumes.value, Multipart) && !Contains(consumes.value, UrlEncoded)
             && !Contains(consumes.value, Json) && !Contains(consumes.value, Text)) ==>
      r == Err(Thrown(UnrecognizedMessage(basePath, dir, verb, consumes.value)))
  {
    match consumes
    case None => Err(TypeError)
    case Some(m) =>
      if Contains(m, Multipart) then Ok(MultipartForm(Names(ParamsAt(params, "formData"))))
      else if Contains(m, UrlEncoded) then Ok(UrlEncodedForm(Names(ParamsAt(params, "formData"))))
      else if Contains(m, Json) || Contains(m, JsonPatch) then
        JsonPatchIsJson(m);
        var n :- FirstBodyName(params);
        Ok(JsonBody(n))
      else if Contains(m, Text) then
        var n :- FirstBodyName(params);
        Ok(TextBody(n))
      else Err(Thrown(UnrecognizedMessage(basePath, dir, verb, m)))
  }

  /** The `application/json-patch+json` test never decides anything:
      `application/json` is a prefix of it. */
  lemma JsonPatchIsJson(m: string)
    ensures Contains(m, JsonPatch) ==> Contains(m, Json)
  {
    if Contains(m, JsonPatch) {
      var i :| 0 <= i <= |m| - |JsonPatch| && OccursAt(m, JsonPatch, i);
      assert m[i..i + |Json|] == m[i..i + |JsonPatch|][..|Json|];
      assert OccursAt(m, Json, i);
    }
  }

  /** `createFetcherBody`: no form and no body parameter means no body;
      otherwise the request MIME type decides. */
  function CreateFetcherBody(spec: Spec, dir: string, verb: string, params: seq<Param>): (r: Result<BodyCode>)
    ensures OperationCheck(spec, dir, verb, "createFetcherBody").Err? ==>
      r == Err(OperationCheck(spec, dir, verb, "createFetcherBody").error)
    ensures OperationCheck(spec, dir, verb, "createFetcherBody").Ok? ==>
      (r == Ok(NoBody) <==> forall i :: 0 <= i < |params| ==> params[i].loc != "formData" && params[i].loc != "body")
    ensures OperationCheck(spec, dir, verb, "createFetcherBody").Ok? && r != Ok(NoBody) ==>
      r == BodyFor(spec.basePath, dir, verb, GetRequestMimeType(OperationCheck(spec, dir, verb, "createFetcherBody").value), params)
  {
    var op :- OperationCheck(spec, dir, verb, "createFetcherBody");
    if |ParamsAt(params, "formData")| == 0 && |ParamsAt(params, "body")| == 0 then Ok(NoBody)
    else BodyFor(spec.basePath, dir, verb, GetRequestMimeType(op), params)
  }

  /** A form of the given fields, appended to `target` and sent with `contentType`. */
  function RenderForm(init: string, target: string, contentType: string, fields: seq<string>): string {
    if |fields| == 0 then "\n      " + BodyKeyword + " = undefined;"
    else
      FormHead(init) + Join("\n", seq(|fields|, i requires 0 <= i < |fields| => FormAppend(target, fields[i])))
        + FormTail(contentType)
  }

  function FormHead(init: string): string {
    "\n      const form = " + init + "\n      let formFilled = false;\n      "
  }

  /** The declaration every body fragment ends up making. */
  const BodyKeyword := "const body"

  const BodyDeclaration := BodyKeyword + " = formFilled"

  /** The `body` declaration, which pushes the Content-Type header only when
      some field was appended. */
  function FormTail(contentType: string): string {
    "\n      " + BodyDeclaration + FormTailRest(contentType)
  }

  function FormTailRest(contentType: string): string {
    "\n        ? (\n          headers.push([ 'Content-Type', '" + contentType + "' ]),\n          form\n        )\n        : undefined;\n      "
  }

  /** A truthy field is appended and marks the form as filled. */
  function FormAppend(target: string, name: string): string {
    AppendGuard(name) + AppendCall(target, name) + AppendRest(name)
  }

  function AppendGuard(name: string): string {
    "\n            if (request['" + name + "']) {\n              formFilled = true;\n              "
  }

  function AppendCall(target: string, name: string): string {
    target + ".append('" + name + "'"
  }

  function AppendRest(name: string): string {
    ", request['" + name + "']!);\n            }"
  }

  function RenderBody(b: BodyCode): string {
    match b
    case NoBody => BodyKeyword + " = undefined"
    case MultipartForm(fields) => RenderForm("new FormData();", "form", Multipart, fields)
    case UrlEncodedForm(fields) =>
      RenderForm("new URLSearchParams() as any as FormData // workaround TS defs;", "body", UrlEncoded, fields)
    case JsonBody(n) =>
      "\n    headers.push([ 'Content-Type', '" + Json + "' ]);\n    " + BodyKeyword + " = JSON.stringify(request['" + n + "'])"
    case TextBody(n) => "\n    headers.push([ 'Content-Type', '" + Text + "' ]);\n    " + BodyKeyword + " = request['" + n + "']"
  }

  lemma JoinStartsWith(sep: string, parts: seq<string>)
    requires |parts| > 0
    ensures |Join(sep, parts)| >= |parts[0]| && Join(sep, parts)[..|parts[0]|] == parts[0]
  {
  }

  lemma AppendCallOccurs(target: string, name: string)
    ensures OccursAt(FormAppend(target, name), AppendCall(target, name), |AppendGuard(name)|)
  {
    OccursInside(AppendGuard(name), AppendCall(target, name), AppendRest(name), AppendCall(target, name), 0);
  }

  lemma OccursInFirst(sep: string, parts: seq<string>, x: string, i: nat)
    requires |parts| > 0 && OccursAt(parts[0], x, i)
    ensures OccursAt(Join(sep, parts), x, i)
  {
    JoinStartsWith(sep, parts);
    var j := Join(sep, parts);
    assert j[i..i + |x|] == j[..|parts[0]|][i..i + |x|];
  }

  lemma DeclarationOccurs(contentType: string)
    ensures OccursAt(FormTail(contentType), BodyDeclaration, 7)
  {
    OccursInside("\n      ", BodyDeclaration, FormTailRest(contentType), BodyDeclaration, 0);
  }

  /** A rendered form appends its first field to `target`, before the
      `const body` declaration that closes the fragment. */
  lemma FormTarget(init: string, target: string, contentType: string, fields: seq<string>)
    requires |fields| > 0
    ensures var s := RenderForm(init, target, contentType, fields);
      exists i, j :: (i < j && OccursAt(s, AppendCall(target, fields[0]), i) && OccursAt(s, BodyDeclaration, j))
  {
    var parts := seq(|fields|, i requires 0 <= i < |fields| => FormAppend(target, fields[i]));
    var appends := Join("\n", parts);
    var head := FormHead(init);
    var tail := FormTail(contentType);
    var s := RenderForm(init, target, contentType, fields);
    assert s == head + appends + tail;
    var call := AppendCall(target, fields[0]);
    var k := |AppendGuard(fields[0])|;
    AppendCallOccurs(target, fields[0]);
    OccursInFirst("\n", parts, call, k);
    OccursInside(head, appends, tail, call, k);
    DeclarationOccurs(contentType);
    OccursInside(head + appends, tail, [], BodyDeclaration, 7);
    assert head + appends + tail + [] == s;
    var i := |head| + k;
    var j := |head + appends| + 7;
    assert i < j;
    assert OccursAt(s, call, i) && OccursAt(s, BodyDeclaration, j);
  }

  /** The url-encoded form appends its first field to `body`, which the
      fragment only declares at its end; the multipart form appends to the
      `form` it declared. */
  lemma UrlEncodedAppendsToBody(fields: seq<string>)
    requires |fields| > 0
    ensures var s := RenderBody(UrlEncodedForm(fields));
      exists i, j :: (i < j && OccursAt(s, AppendCall("body", fields[0]), i) && OccursAt(s, BodyDeclaration, j))
    ensures var s := RenderBody(MultipartForm(fields));
      exists i :: OccursAt(s, AppendCall("form", fields[0]), i)
  {
    var init := "new URLSearchParams() as any as FormData // workaround TS defs;";
    assert RenderBody(UrlEncodedForm(fields)) == RenderForm(init, "body", UrlEncoded, fields);
    FormTarget(init, "body", UrlEncoded, fields);
    assert RenderBody(MultipartForm(fields)) == RenderForm("new FormData();", "form", Multipart, fields);
    FormTarget("new FormData();", "form", Multipart, fields);
  }

  /** Whatever the body fragment, it declares `body`, which the `fetch`
      call that follows reads. */
  lemma BodyAlwaysDeclared(b: BodyCode)
    ensures exists j :: OccursAt(RenderBody(b), BodyKeyword, j)
  {
    match b
    case NoBody =>
      OccursExtend(BodyKeyword, " = undefined", BodyKeyword, 0);
      assert OccursAt(RenderBody(b), BodyKeyword, 0);
    case MultipartForm(fields) =>
      assert RenderBody(b) == RenderForm("new FormData();", "form", Multipart, fields);
      FormDeclaresBody("new FormData();", "form", Multipart, fields);
    case UrlEncodedForm(fields) =>
      assert RenderBody(b) == RenderForm("new URLSearchParams() as any as FormData // workaround TS defs;", "body", UrlEncoded, fields);
      FormDeclaresBody("new URLSearchParams() as any as FormData // workaround TS defs;", "body", UrlEncoded, fields);
    case JsonBody(n) =>
      var pre := "\n    headers.push([ 'Content-Type', '" + Json + "' ]);\n    ";
      OccursEnd(pre, BodyKeyword);
      OccursExtend(pre + BodyKeyword, " = JSON.stringify(request['", BodyKeyword, |pre|);
      OccursExtend(pre + BodyKeyword + " = JSON.stringify(request['", n, BodyKeyword, |pre|);
      OccursExtend(pre + BodyKeyword + " = JSON.stringify(request['" + n, "'])", BodyKeyword, |pre|);
      assert OccursAt(RenderBody(b), BodyKeyword, |pre|);
    case TextBody(n) =>
      var pre := "\n    headers.push([ 'Content-Type', '" + Text + "' ]);\n    ";
      OccursEnd(pre, BodyKeyword);
      OccursExtend(pre + BodyKeyword, " = request['", BodyKeyword, |pre|);
      OccursExtend(pre + BodyKeyword + " = request['", n, BodyKeyword, |pre|);
      OccursExtend(pre + BodyKeyword + " = request['" + n, "']", BodyKeyword, |pre|);
      assert OccursAt(RenderBody(b), BodyKeyword, |pre|);
  }

  lemma FormDeclaresBody(init: string, target: string, contentType: string, fields: seq<string>)
    ensures exists j :: OccursAt(RenderForm(init, target, contentType, fields), BodyKeyword, j)
  {
    var s := RenderForm(init, target, contentType, fields);
    if |fields| == 0 {
      OccursEnd("\n      ", BodyKeyword);
      OccursExtend("\n      " + BodyKeyword, " = undefined;", BodyKeyword, 7);
    } else {
      FormTarget(init, target, contentType, fields);
      var i, j :| i < j && OccursAt(s, AppendCall(target, fields[0]), i) && OccursAt(s, BodyDeclaration, j);
      OccursFront(s, BodyKeyword, " = formFilled", j);
    }
  }

  // ---------------------------------------------------------------- executor

  /** `(operation.description || '').split('\n').filter(l => !!l).map(l => `// ${l}`)`. */
  function NonEmpty(lines: seq<string>): (r: seq<string>)
    ensures forall i :: 0 <= i < |r| ==> r[i] != ""
    ensures forall l :: l in r <==> l in lines && l != ""
    ensures (forall i :: 0 <= i < |lines| ==> lines[i] != "") ==> r == lines
  {
    if |lines| == 0 then []
    else
      assert forall i :: 0 < i < |lines| ==> lines[i] == lines[1..][i - 1];
      assert lines == [lines[0]] + lines[1..];
      (if lines[0] == "" then [] else [lines[0]]) + NonEmpty(lines[1..])
  }

  function CommentLines(description: Option<string>): (r: seq<string>)
    ensures forall i :: 0 <= i < |r| ==> |r[i]| > 3 && r[i][..3] == "// " && '\n' !in r[i]
  {
    var pieces := Split(if Truthy(description) then description.value else "", '\n');
    var lines := NonEmpty(pieces);
    assert forall i :: 0 <= i < |lines| ==> lines[i] in pieces;
    seq(|lines|, i requires 0 <= i < |lines| => "// " + lines[i])
  }

  /** A description without blank lines survives as comments: removing the
      `// ` markers and joining the lines gives the description back. */
  lemma CommentsRoundTrip(d: string)
    requires d != "" && forall i :: 0 <= i < |Split(d, '\n')| ==> Split(d, '\n')[i] != ""
    ensures var c := CommentLines(Some(d)); Join("\n", seq(|c|, i requires 0 <= i < |c| => c[i][3..])) == d
  {
    var lines := Split(d, '\n');
    var c := CommentLines(Some(d));
    assert NonEmpty(lines) == lines;
    assert seq(|c|, i requires 0 <= i < |c| => c[i][3..]) == lines;
  }

  /** The statements the generated fetcher runs before calling `fetch`. */
  datatype ExecutorCode = ExecutorCode(
    opName: string,
    OpName: string,
    comments: seq<string>,
    path: PathCode,
    query: seq<QueryPush>,
    headers: seq<HeaderPush>,
    body: BodyCode,
    urlWithQuery: string)

  /** The part of the fetcher that builds the request, in template order.
      `tail` is the rest of the template (`init`, `fetch` and the debug
      logging), which depends only on the names and the method. */
  function RenderExecutor(e: ExecutorCode, tail: string): string {
    ExecutorHead(e) + RenderPath(e.path) + Gap + RenderQuery(e.query) + Gap + RenderHeaders(e.headers) + Gap
      + RenderBody(e.body) + ExecutorEnd(e.urlWithQuery) + tail
  }

  function ExecutorEnd(urlWithQuery: string): string {
    Gap + "const urlWithQuery = " + urlWithQuery + ";" + Gap
  }

  const Gap := "\n\n      "

  /** The export and the fetcher's signature, up to its opening brace. */
  function ExecutorHead(e: ExecutorCode): string {
    ExportPrefix + e.opName + (" = " + ExecutorSignature(e))
  }

  const ExportPrefix := "\n\n    export const "

  function ExecutorSignature(e: ExecutorCode): string {
    "Object.assign(" + e.opName + "Executor, { debug: false });\n\n    "
      + Join("\n", e.comments) + "\n    function " + e.opName + "Executor(\n      request: " + e.OpName
      + "Request,\n      userInit?:\n        { \n          [id in Exclude<keyof RequestInit, 'headers'>]?:\n"
      + "            Exclude<RequestInit[id], undefined>\n        } &\n        { headers?: string[][] }\n"
      + "    ): Promise<" + e.OpName + "Responses> {" + Gap
  }

  /** The exported constant is named after the operation. */
  lemma ExecutorExportsName(e: ExecutorCode, tail: string)
    ensures OccursAt(RenderExecutor(e, tail), e.opName, |ExportPrefix|)
  {
    HeadNamesExport(e);
    TemplateLayout(ExecutorHead(e), RenderPath(e.path), RenderQuery(e.query), RenderHeaders(e.headers), RenderBody(e.body),
      ExecutorEnd(e.urlWithQuery), tail, e.opName);
  }

  /** The runtime part closes the text. */
  lemma ExecutorEndsWithTail(e: ExecutorCode, tail: string)
    ensures EndsWith(RenderExecutor(e, tail), tail)
  {
    var front := ExecutorHead(e) + RenderPath(e.path) + Gap + RenderQuery(e.query) + Gap + RenderHeaders(e.headers) + Gap
      + RenderBody(e.body) + ExecutorEnd(e.urlWithQuery);
    EndsWithLast(front, tail);
  }

  /** The layout of the template for any parts. */
  lemma TemplateLayout(head: string, p: string, q: string, h: string, b: string, end: string, tail: string, name: string)
    requires OccursAt(head, name, |ExportPrefix|)
    ensures var s := head + p + Gap + q + Gap + h + Gap + b + end + tail;
      OccursAt(s, name, |ExportPrefix|)
      && (exists i: nat, j: nat, k: nat, l: nat :: (OccursAt(s, p, i) && i + |p| <= j && OccursAt(s, q, j) && j + |q| <= k
        && OccursAt(s, h, k) && k + |h| <= l && OccursAt(s, b, l)))
      && EndsWith(s, tail)
  {
    var front := head + p + Gap + q + Gap + h + Gap + b;
    var s := front + end + tail;
    var xs, at := LayoutAt(head, p, q, h, b, name);
    Layout1(front, end, tail, xs, at);
    EndsWithLast(front + end, tail);
    assert OccursAt(s, name, at[0]);
    var i, j, k, l := at[1], at[2], at[3], at[4];
    assert OccursAt(s, p, i) && i + |p| <= j && OccursAt(s, q, j) && j + |q| <= k
      && OccursAt(s, h, k) && k + |h| <= l && OccursAt(s, b, l);
  }

  /** Where the name and the four fragments sit in the text before the end. */
  lemma LayoutAt(head: string, p: string, q: string, h: string, b: string, name: string) returns (xs: seq<string>, at: seq<nat>)
    requires OccursAt(head, name, |ExportPrefix|)
    ensures var s := head + p + Gap + q + Gap + h + Gap + b;
      |xs| == |at| == 5 && xs == [name, p, q, h, b]
      && at[0] == |ExportPrefix| && at[1] == |head| && at[2] == at[1] + |p| + |Gap|
      && at[3] == at[2] + |q| + |Gap| && at[4] == at[3] + |h| + |Gap|
      && forall m :: 0 <= m < 5 ==> OccursAt(s, xs[m], at[m])
  {
    OccursEnd(head, p);
    OccursExtend(head, p, name, |ExportPrefix|);
    Layout3(head + p, Gap, q, Gap, h, [name, p], [|ExportPrefix|, |head|]);
    var s5 := head + p + Gap + q + Gap + h;
    Layout1(s5, Gap, b, [name, p, q, h], [|ExportPrefix|, |head|, |head + p + Gap|, |head + p + Gap + q + Gap|]);
    OccursEnd(s5 + Gap, b);
    xs := [name, p, q, h, b];
    at := [|ExportPrefix|, |head|, |head + p + Gap|, |head + p + Gap + q + Gap|, |s5 + Gap|];
  }

  lemma HeadNamesExport(e: ExecutorCode)
    ensures OccursAt(ExecutorHead(e), e.opName, |ExportPrefix|)
  {
    OccursEnd(ExportPrefix, e.opName);
    OccursExtend(ExportPrefix + e.opName, " = " + ExecutorSignature(e), e.opName, |ExportPrefix|);
  }

  /** Occurrences in `s` survive appending `g1 + x + g2 + y`, and `x` and `y`
      then occur where they start. */
  lemma Layout3(s: string, g1: string, x: string, g2: string, y: string, xs: seq<string>, at: seq<nat>)
    requires |xs| == |at| && forall m :: 0 <= m < |xs| ==> OccursAt(s, xs[m], at[m])
    ensures var t := s + g1 + x + g2 + y;
      (forall m :: 0 <= m < |xs| ==> OccursAt(t, xs[m], at[m]))
      && OccursAt(t, x, |s + g1|) && OccursAt(t, y, |s + g1 + x + g2|)
  {
    var t := s + g1 + x + g2 + y;
    forall m | 0 <= m < |xs| ensures OccursAt(t, xs[m], at[m]) {
      assert t[at[m]..at[m] + |xs[m]|] == s[at[m]..at[m] + |xs[m]|];
    }
    assert t[|s + g1|..|s + g1| + |x|] == x;
    assert t[|s + g1 + x + g2|..|s + g1 + x + g2| + |y|] == y;
  }

  /** Occurrences in `s` survive appending `a + b`. */
  lemma Layout1(s: string, a: string, b: string, xs: seq<string>, at: seq<nat>)
    requires |xs| == |at| && forall m :: 0 <= m < |xs| ==> OccursAt(s, xs[m], at[m])
    ensures forall m :: 0 <= m < |xs| ==> OccursAt(s + a + b, xs[m], at[m])
  {
    forall m | 0 <= m < |xs| ensures OccursAt(s + a + b, xs[m], at[m]) {
      assert (s + a + b)[at[m]..at[m] + |xs[m]|] == s[at[m]..at[m] + |xs[m]|];
    }
  }

  /** When the operation exists the builders' own `!operation` checks pass. */
  lemma InnerChecksPass(spec: Spec, dir: string, verb: string, params: seq<Param>)
    requires OperationAt(spec, dir, verb).Ok? && OperationAt(spec, dir, verb).value.Some?
    ensures CreateFetcherPath(spec, dir, verb, params) == Ok(PathCodeFor(spec, dir, params))
    ensures CreateFetcherQuery(spec, dir, verb, params) == Ok(QueryCodeFor(params))
    ensures CreateFetcherHeaders(spec, dir, verb, params) == Ok(HeaderCodeFor(params))
    ensures CreateFetcherBody(spec, dir, verb, params).Ok? || CreateFetcherBody(spec, dir, verb, params).error in {TypeError}
      || exists m :: CreateFetcherBody(spec, dir, verb, params).error == Thrown(UnrecognizedMessage(spec.basePath, dir, verb, m))
  {
    var b := CreateFetcherBody(spec, dir, verb, params);
    if b.Err? && b.error != TypeError {
      var m := GetRequestMimeType(OperationAt(spec, dir, verb).value.value);
      assert m.Some?;
      assert b.error == Thrown(UnrecognizedMessage(spec.basePath, dir, verb, m.value));
    }
  }

  /** The request-building code of the operation at `dir` and `verb`. */
  function ExecutorFor(spec: Spec, dir: string, verb: string): (r: Result<ExecutorCode>)
    ensures dir !in Keys(spec.paths) ==> r == Err(TypeError)
    ensures dir in Keys(spec.paths) && OperationAt(spec, dir, verb) == Ok(None) ==>
      r == Err(Thrown("createFetcher: operation is empty"))
    ensures r.Ok? ==> OperationAt(spec, dir, verb).Ok? && OperationAt(spec, dir, verb).value.Some?
    ensures r.Ok? ==> var params := GetParameters(spec, dir, verb).value;
      && r.value.opName == GetOperationName(OperationAt(spec, dir, verb).value.value)
      && r.value.comments == CommentLines(OperationAt(spec, dir, verb).value.value.description)
      && r.value.OpName == Capitalize(r.value.opName)
      && r.value.path == PathCodeFor(spec, dir, params)
      && r.value.query == QueryCodeFor(params)
      && r.value.headers == HeaderCodeFor(params)
      && r.value.urlWithQuery == UrlWithQuery(params)
      && Ok(r.value.body) == CreateFetcherBody(spec, dir, verb, params)
    ensures OperationAt(spec, dir, verb).Ok? && OperationAt(spec, dir, verb).value.Some? ==>
      (r.Ok? <==> CreateFetcherBody(spec, dir, verb, GetParameters(spec, dir, verb).value).Ok?)
  {
    var op :- OperationAt(spec, dir, verb);
    if op.None? then Err(Thrown("createFetcher: operation is empty"))
    else
      var p := GetParameters(spec, dir, verb);
      assert p.Ok?;
      var params := p.value;
      InnerChecksPass(spec, dir, verb, params);
      var opName := GetOperationName(op.value);
      match CreateFetcherBody(spec, dir, verb, params)
      case Err(e) => Err(e)
      case Ok(body) =>
        Ok(ExecutorCode(opName, Capitalize(opName), CommentLines(op.value.description),
          CreateFetcherPath(spec, dir, verb, params).value, CreateFetcherQuery(spec, dir, verb, params).value,
          CreateFetcherHeaders(spec, dir, verb, params).value, body, UrlWithQuery(params)))
  }

  /** The generated query statements and url expression agree: the url reads
      `query` exactly when some statement pushes onto it. */
  lemma ExecutorQueryConsistent(spec: Spec, dir: string, verb: string)
    requires ExecutorFor(spec, dir, verb).Ok?
    ensures var e := ExecutorFor(spec, dir, verb).value; e.urlWithQuery != "url" <==> e.query != []
  {
  }

  /** `getOperationExecutorFunction(swagger, dir, method)`: the operation's
      type declarations followed by the fetcher. The declarations are computed
      first, so a failure there wins over a failure in the body fragment. */
  function GetOperationExecutorFunction(spec: Spec, dir: string, verb: string, tail: (string, string, string) -> string): Result<seq<string>> {
    var op :- OperationAt(spec, dir, verb);
    if op.None? then Err(Thrown("createFetcher: operation is empty"))
    else
      var types := GetOperationTypes(spec, dir, verb);
      if types.Err? then Err(types.error)
      else
        var x := ExecutorFor(spec, dir, verb);
        if x.Err? then Err(x.error)
        else Ok(types.value + [RenderExecutor(x.value, tail(x.value.opName, x.value.OpName, verb))])
  }

  /** A missing path item is a `TypeError`; a falsy operation is reported as
      empty before anything is generated. */
  lemma FetcherWithoutOperation(spec: Spec, dir: string, verb: string, tail: (string, string, string) -> string)
    ensures dir !in Keys(spec.paths) ==> GetOperationExecutorFunction(spec, dir, verb, tail) == Err(TypeError)
    ensures dir in Keys(spec.paths) && OperationAt(spec, dir, verb) == Ok(None) ==>
      GetOperationExecutorFunction(spec, dir, verb, tail) == Err(Thrown("createFetcher: operation is empty"))
  {
  }

  /** For an existing operation the fetcher succeeds exactly when both the
      declarations and the request code do; a failure of the declarations is
      the one reported. */
  lemma FetcherSucceeds(spec: Spec, dir: string, verb: string, tail: (string, string, string) -> string)
    requires OperationAt(spec, dir, verb).Ok? && OperationAt(spec, dir, verb).value.Some?
    ensures GetOperationExecutorFunction(spec, dir, verb, tail).Ok? <==>
      GetOperationTypes(spec, dir, verb).Ok? && ExecutorFor(spec, dir, verb).Ok?
    ensures GetOperationTypes(spec, dir, verb).Err? ==>
      GetOperationExecutorFunction(spec, dir, verb, tail) == Err(GetOperationTypes(spec, dir, verb).error)
  {
  }

  /** The output is the declarations followed by the fetcher text. */
  lemma FetcherShape(spec: Spec, dir: string, verb: string, tail: (string, string, string) -> string)
    requires OperationAt(spec, dir, verb).Ok? && OperationAt(spec, dir, verb).value.Some?
    requires GetOperationTypes(spec, dir, verb).Ok? && ExecutorFor(spec, dir, verb).Ok?
    ensures var types := GetOperationTypes(spec, dir, verb).value; var e := ExecutorFor(spec, dir, verb).value;
      GetOperationExecutorFunction(spec, dir, verb, tail) == Ok(types + [RenderExecutor(e, tail(e.opName, e.OpName, verb))])
  {
  }

  /** The fetcher text exports a constant named as `getOperationName` names
      the operation. */
  lemma ExecutorExportsOperationName(spec: Spec, dir: string, verb: string, tail: string)
    requires ExecutorFor(spec, dir, verb).Ok?
    ensures OperationAt(spec, dir, verb).Ok? && OperationAt(spec, dir, verb).value.Some?
    ensures OccursAt(RenderExecutor(ExecutorFor(spec, dir, verb).value, tail),
      GetOperationName(OperationAt(spec, dir, verb).value.value), |ExportPrefix|)
  {
    var e := ExecutorFor(spec, dir, verb).value;
    assert e.opName == GetOperationName(OperationAt(spec, dir, verb).value.value);
    ExecutorExportsName(e, tail);
  }
}

=== FILE: flatten.dfy ===
/** `flatten` of src/flatten.ts: a left fold that concatenates each inner
    sequence onto an accumulator, starting from the empty sequence. */
module Flattening {

  /** Reference definition: the inner sequences laid end to end, in order. */
  function Concat<T>(s: seq<seq<T>>): seq<T> {
    if |s| == 0 then [] else s[0] + Concat(s[1..])
  }

  function SumLengths<T>(s: seq<seq<T>>): nat {
    if |s| == 0 then 0 else |s[0]| + SumLengths(s[1..])
  }

  /** `subject.reduce((result, item) => result.concat(item), acc)`. */
  function Fold<T>(acc: seq<T>, s: seq<seq<T>>): seq<T>
    decreases |s|
  {
    if |s| == 0 then acc else Fold(acc + s[0], s[1..])
  }

  function Flatten<T>(s: seq<seq<T>>): (r: seq<T>)
    ensures r == Concat(s)
  {
    FoldIsConcat([], s);
    Fold([], s)
  }

  lemma {:induction false} FoldIsConcat<T>(acc: seq<T>, s: seq<seq<T>>)
    ensures Fold(acc, s) == acc + Concat(s)
    decreases |s|
  {
    if |s| > 0 {
      FoldIsConcat(acc + s[0], s[1..]);
      assert acc + s[0] + Concat(s[1..]) == acc + (s[0] + Concat(s[1..]));
    }
  }

  lemma {:induction false} ConcatAppend<T>(a: seq<seq<T>>, b: seq<seq<T>>)
    ensures Concat(a + b) == Concat(a) + Concat(b)
    decreases |a|
  {
    if |a| == 0 {
      assert a + b == b;
    } else {
      assert (a + b)[1..] == a[1..] + b;
      ConcatAppend(a[1..], b);
    }
  }

  /** Flattening distributes over concatenation of the outer sequence. */
  lemma FlattenAppend<T>(a: seq<seq<T>>, b: seq<seq<T>>)
    ensures Flatten(a + b) == Flatten(a) + Flatten(b)
  {
    ConcatAppend(a, b);
  }

  lemma {:induction false} ConcatLength<T>(s: seq<seq<T>>)
    ensures |Concat(s)| == SumLengths(s)
    decreases |s|
  {
    if |s| > 0 {
      ConcatLength(s[1..]);
    }
  }

  /** The length of the result is the sum of the inner lengths; an empty outer
      sequence flattens to the empty sequence. */
  lemma FlattenLength<T>(s: seq<seq<T>>)
    ensures |Flatten(s)| == SumLengths(s)
    ensures |s| == 0 ==> Flatten(s) == []
  {
    ConcatLength(s);
  }

  lemma {:induction false} ConcatMembership<T>(s: seq<seq<T>>, x: T)
    ensures x in Concat(s) <==> exists i :: 0 <= i < |s| && x in s[i]
    decreases |s|
  {
    if |s| > 0 {
      ConcatMembership(s[1..], x);
      if x in Concat(s[1..]) {
        var i :| 0 <= i < |s[1..]| && x in s[1..][i];
        assert x in s[i + 1];
      }
      if exists i :: 0 <= i < |s| && x in s[i] {
        var i :| 0 <= i < |s| && x in s[i];
        if i > 0 {
          assert x in s[1..][i - 1];
        }
      }
    }
  }

  /** An element occurs in the result exactly when it occurs in some inner sequence. */
  lemma FlattenMembership<T>(s: seq<seq<T>>, x: T)
    ensures x in Flatten(s) <==> exists i :: 0 <= i < |s| && x in s[i]
  {
    ConcatMembership(s, x);
  }
}

=== FILE: gather.dfy ===
/** src/gatherSchemas.ts: closing a dictionary of seed schemas under `$ref`.

    Each pass extracts every reference of every value, resolves each one by
    walking its `/`-separated segments from the document root, binds the
    result under "_" + the last segment, and spreads the bindings over the
    dictionary. The loop stops at the first pass that adds no key. */
module Gather {
  import opened Results
  import opened Strings
  import opened Dicts
  import opened Swagger
  import opened Flattening
  import opened References

  /** `chunks.filter(chunk => chunk !== '#')`. */
  function DropHash(chunks: seq<string>): (r: seq<string>)
    ensures |r| <= |chunks|
    ensures forall x :: x in r <==> x in chunks && x != "#"
  {
    if |chunks| == 0 then []
    else (if chunks[0] == "#" then [] else [chunks[0]]) + DropHash(chunks[1..])
  }

  /** The segments a reference is walked along. No `~0`/`~1` unescaping is
      done, unlike section 4 of RFC 6901. */
  function Segments(ref: string): seq<string> {
    DropHash(Split(ref, '/'))
  }

  /** The last segment; a template literal spells a missing one "undefined". */
  function RefName(ref: string): string {
    var segs := Segments(ref);
    if |segs| == 0 then "undefined" else segs[|segs| - 1]
  }

  /** The dictionary key a reference is bound under. */
  function Bind(ref: string): (k: string)
    ensures |k| > 0 && k[0] == '_'
  {
    "_" + RefName(ref)
  }

  /** Where a pointer walk stands: the document root, a map of named schemas
      (`definitions` or a `properties` object), a JSON array (tuple `items`,
      `enum`, `required`), or a single value. */
  datatype Pos = AtRoot | AtDict(entries: Dict<Node>) | AtList(elems: seq<Node>) | AtNode(node: Node)

  predicate NullishPos(p: Pos) {
    p.AtNode? && Nullish(p.node)
  }

  /** The index a segment names when it is a key of a JavaScript array: the
      canonical decimal spelling of a natural number ("0", "17", not "01"). */
  function ArrayIndex(seg: string): Option<nat> {
    if |seg| >= 1 && AllDigits(seg) && (seg[0] == '0' ==> |seg| == 1) then Some(DigitsValue(seg)) else None
  }

  /** Every index's spelling names that index, and only spellings name one. */
  lemma ArrayIndexOfNat(i: nat)
    ensures ArrayIndex(NatToString(i)) == Some(i)
  {
    var r := NatToString(i);
    if r[0] == '0' {
      assert i == 0;
      assert r == [DigitChar(0)];
    }
  }

  lemma ArrayIndexSpelling(seg: string)
    requires ArrayIndex(seg).Some?
    ensures NatToString(ArrayIndex(seg).value) == seg
  {
    NatToStringOfDigits(seg);
  }

  /** An `enum` member as a value: `null` is nullish, any other literal a primitive. */
  function LiteralNode(l: Literal): Node {
    if l.LNull? then Null else Scalar
  }

  /** `result[seg]`. Of the document root only `definitions` is modelled; an
      array is indexed by the canonical spelling of an index. */
  function Step(spec: Spec, pos: Pos, seg: string): Pos {
    match pos
    case AtRoot =>
      if seg != "definitions" then AtNode(Undefined)
      else if spec.definitions.None? then AtNode(Undefined)
      else AtDict(spec.definitions.value)
    case AtDict(d) =>
      if seg in Keys(d) then AtNode(Lookup(d, seg).value) else AtNode(Undefined)
    case AtList(es) =>
      var k := ArrayIndex(seg);
      if k.Some? && k.value < |es| then AtNode(es[k.value]) else AtNode(Undefined)
    case AtNode(n) =>
      match n
      case Schema(ref, typ, enum, items, props, required, sch) =>
        if seg == "properties" then
          (match props case NoProperties => AtNode(Undefined) case Properties(ps) => AtDict(ps))
        else if seg == "schema" then AtNode(sch.GetOr(Undefined))
        else if seg == "items" then
          (match items case NoItems => AtNode(Undefined) case One(i) => AtNode(i) case Tuple(slots) => AtList(slots))
        else if seg == "$ref" then (if ref.Some? then AtNode(Scalar) else AtNode(Undefined))
        else if seg == "type" then (if typ.Some? then AtNode(Scalar) else AtNode(Undefined))
        else if seg == "enum" then
          (if enum.Some? then AtList(seq(|enum.value|, i requires 0 <= i < |enum.value| => LiteralNode(enum.value[i])))
           else AtNode(Undefined))
        else if seg == "required" then
          (if required.Some? then AtList(seq(|required.value|, i => Scalar)) else AtNode(Undefined))
        else AtNode(Undefined)
      case _ => AtNode(Undefined)
  }

  /** Stepping into an array by the decimal spelling of an index in range
      reaches that element; any other segment (a leading zero, a sign, an
      index past the end, a name) reaches `undefined`. */
  lemma StepIntoList(spec: Spec, es: seq<Node>, seg: string)
    ensures forall i :: 0 <= i < |es| ==> Step(spec, AtList(es), NatToString(i)) == AtNode(es[i])
    ensures (forall i :: 0 <= i < |es| ==> seg != NatToString(i)) ==> Step(spec, AtList(es), seg) == AtNode(Undefined)
  {
    forall i | 0 <= i < |es| ensures Step(spec, AtList(es), NatToString(i)) == AtNode(es[i]) {
      ArrayIndexOfNat(i);
    }
    var k := ArrayIndex(seg);
    if k.Some? && k.value < |es| {
      ArrayIndexSpelling(seg);
    }
  }

  /** `#/definitions/D/items/<i>` walks into slot `i` of a tuple. */
  lemma TupleSlotStep(spec: Spec, slots: seq<Node>, i: nat)
    requires i < |slots|
    ensures Step(spec, Step(spec, AtNode(Schema(None, None, None, Tuple(slots), NoProperties, None, None)), "items"), NatToString(i))
      == AtNode(slots[i])
  {
    ArrayIndexOfNat(i);
  }

  /** Reference definition: the position reached by stepping through every segment. */
  function After(spec: Spec, pos: Pos, segs: seq<string>): Pos
    decreases |segs|
  {
    if |segs| == 0 then pos else After(spec, Step(spec, pos, segs[0]), segs[1..])
  }

  /** The `while (remainingPath.length)` loop: before each step a `null` or
      `undefined` position throws (`None`). */
  function Walk(spec: Spec, pos: Pos, segs: seq<string>): (r: Option<Pos>)
    ensures r.None? <==> exists j :: 0 <= j < |segs| && NullishPos(After(spec, pos, segs[..j]))
    ensures r.Some? ==> r.value == After(spec, pos, segs)
    decreases |segs|
  {
    if |segs| == 0 then Some(pos)
    else if NullishPos(pos) then
      assert segs[..0] == [];
      None
    else
      var r := Walk(spec, Step(spec, pos, segs[0]), segs[1..]);
      assert forall j :: 1 <= j <= |segs| ==> After(spec, pos, segs[..j]) == After(spec, Step(spec, pos, segs[0]), segs[1..][..j - 1]) by {
        forall j | 1 <= j <= |segs| ensures After(spec, pos, segs[..j]) == After(spec, Step(spec, pos, segs[0]), segs[1..][..j - 1]) {
          assert segs[..j][1..] == segs[1..][..j - 1];
        }
      }
      assert segs[..0] == [];
      assert r.None? ==> exists j :: 0 <= j < |segs| && NullishPos(After(spec, pos, segs[..j])) by {
        if r.None? {
          var j :| 0 <= j < |segs[1..]| && NullishPos(After(spec, Step(spec, pos, segs[0]), segs[1..][..j]));
          assert NullishPos(After(spec, pos, segs[..j + 1]));
        }
      }
      r
  }

  /** The value a finished walk leaves in `result`, read as a schema. The
      root, a map and an array are read as a schema with none of the
      modelled members, even when a map has a key spelled like one (`type`,
      `items`, `properties`, `$ref`, `schema`). */
  function Value(p: Pos): Node {
    match p
    case AtNode(n) => n
    case _ => EmptyObject
  }

  function NoDefinitionMessage(path: string): string {
    "Swagger file has no definition for " + path
  }

  /** `getReferencedDefinition(path, root)`: the last segment and the value
      reached from the root. It throws exactly when a segment other than the
      last leads to `null` or `undefined`; a missing last segment is not an
      error and yields `undefined`. */
  function GetReferencedDefinition(spec: Spec, path: string): (r: Result<(string, Node)>)
    ensures r.Err? <==> exists j :: 1 <= j < |Segments(path)| && NullishPos(After(spec, AtRoot, Segments(path)[..j]))
    ensures r.Err? ==> r.error == Thrown(NoDefinitionMessage(path))
    ensures r.Ok? ==> r.value == (RefName(path), Value(After(spec, AtRoot, Segments(path))))
  {
    var segs := Segments(path);
    assert segs[..0] == [];
    match Walk(spec, AtRoot, segs)
    case None => Err(Thrown(NoDefinitionMessage(path)))
    case Some(p) => Ok((RefName(path), Value(p)))
  }

  ghost function DefsRefs(spec: Spec): set<string> {
    if spec.definitions.None? then {} else DictRefs(spec.definitions.value)
  }

  ghost function PosRefs(spec: Spec, p: Pos): set<string> {
    match p
    case AtRoot => DefsRefs(spec)
    case AtDict(d) => DictRefs(d)
    case AtList(es) => set i, x | 0 <= i < |es| && x in SubRefs(es[i]) :: x
    case AtNode(n) => SubRefs(n)
  }

  lemma LookupRefs(d: Dict<Node>, k: string)
    requires k in Keys(d)
    ensures SubRefs(Lookup(d, k).value) <= DictRefs(d)
  {
    var i :| 0 <= i < |d| && d[i] == (k, Lookup(d, k).value);
    forall x | x in SubRefs(Lookup(d, k).value) ensures x in DictRefs(d) {
      assert x in SubRefs(d[i].1);
    }
  }

  lemma StepRefs(spec: Spec, p: Pos, seg: string)
    ensures PosRefs(spec, Step(spec, p, seg)) <= PosRefs(spec, p)
  {
    match p
    case AtRoot =>
    case AtDict(d) =>
      if seg in Keys(d) { LookupRefs(d, seg); }
    case AtList(es) =>
      var k := ArrayIndex(seg);
      if k.Some? && k.value < |es| {
        forall x | x in SubRefs(es[k.value]) ensures x in PosRefs(spec, p) { }
      }
    case AtNode(n) =>
      match n
      case Schema(ref, typ, enum, items, props, required, sch) =>
        if seg == "properties" && props.Properties? {
          var ps := props.entries;
          forall x | x in DictRefs(ps) ensures x in SubRefs(n) {
            var i :| 0 <= i < |ps| && x in SubRefs(ps[i].1);
          }
        }
      case _ =>
  }

  lemma {:induction false} AfterRefs(spec: Spec, p: Pos, segs: seq<string>)
    ensures PosRefs(spec, After(spec, p, segs)) <= PosRefs(spec, p)
    decreases |segs|
  {
    if |segs| > 0 {
      StepRefs(spec, p, segs[0]);
      AfterRefs(spec, Step(spec, p, segs[0]), segs[1..]);
    }
  }

  /** A resolved value only mentions references the definitions mention. */
  lemma ResolvedRefs(spec: Spec, path: string)
    requires GetReferencedDefinition(spec, path).Ok?
    ensures SubRefs(GetReferencedDefinition(spec, path).value.1) <= DefsRefs(spec)
  {
    AfterRefs(spec, AtRoot, Segments(path));
  }

  function BindSet(names: seq<string>): set<string> {
    set i | 0 <= i < |names| :: Bind(names[i])
  }

  lemma BindSetCons(names: seq<string>)
    requires |names| > 0
    ensures BindSet(names) == {Bind(names[0])} + BindSet(names[1..])
  {
    forall k | k in BindSet(names) ensures k in {Bind(names[0])} + BindSet(names[1..]) {
      var i :| 0 <= i < |names| && k == Bind(names[i]);
      if i > 0 { assert names[1..][i - 1] == names[i]; }
    }
    forall k | k in BindSet(names[1..]) ensures k in BindSet(names) {
      var i :| 0 <= i < |names[1..]| && k == Bind(names[1..][i]);
      assert names[1..][i] == names[i + 1];
    }
  }

  /** The left fold of `getReferencedDefinitions`: each reference in order,
      `{ ...result, [`_${name}`]: schema }`. */
  function DefinitionsFold(spec: Spec, acc: Dict<Node>, names: seq<string>): Result<Dict<Node>>
    decreases |names|
  {
    if |names| == 0 then Ok(acc)
    else
      var head := GetReferencedDefinition(spec, names[0]);
      if head.Err? then Err(head.error)
      else DefinitionsFold(spec, Update(acc, "_" + head.value.0, head.value.1), names[1..])
  }

  /** The fold binds exactly the keys of the references, keeping keys distinct;
      when it fails, the error is the first unresolved reference's. */
  lemma {:induction false} DefinitionsFoldKeys(spec: Spec, acc: Dict<Node>, names: seq<string>)
    ensures var r := DefinitionsFold(spec, acc, names);
      r.Err? ==> exists i :: 0 <= i < |names| && r.error == Thrown(NoDefinitionMessage(names[i]))
    ensures var r := DefinitionsFold(spec, acc, names);
      r.Ok? ==> Keys(r.value) == Keys(acc) + BindSet(names)
    ensures var r := DefinitionsFold(spec, acc, names);
      r.Ok? && UniqueKeys(acc) ==> UniqueKeys(r.value)
    decreases |names|
  {
    if |names| > 0 {
      var head := GetReferencedDefinition(spec, names[0]);
      if head.Ok? {
        var acc' := Update(acc, "_" + head.value.0, head.value.1);
        DefinitionsFoldKeys(spec, acc', names[1..]);
        var r := DefinitionsFold(spec, acc', names[1..]);
        assert r == DefinitionsFold(spec, acc, names);
        if r.Err? {
          var i :| 0 <= i < |names[1..]| && r.error == Thrown(NoDefinitionMessage(names[1..][i]));
          assert names[1..][i] == names[i + 1];
        } else {
          BindSetCons(names);
        }
      }
    }
  }

  /** The fold fails exactly when some reference fails to resolve. */
  lemma {:induction false} DefinitionsFoldOk(spec: Spec, acc: Dict<Node>, names: seq<string>)
    ensures DefinitionsFold(spec, acc, names).Ok? <==> forall i :: 0 <= i < |names| ==> GetReferencedDefinition(spec, names[i]).Ok?
    decreases |names|
  {
    if |names| > 0 {
      var head := GetReferencedDefinition(spec, names[0]);
      if head.Ok? {
        var acc' := Update(acc, "_" + head.value.0, head.value.1);
        assert DefinitionsFold(spec, acc, names) == DefinitionsFold(spec, acc', names[1..]);
        DefinitionsFoldOk(spec, acc', names[1..]);
        assert (forall i :: 0 <= i < |names| ==> GetReferencedDefinition(spec, names[i]).Ok?)
          <==> (forall i :: 0 <= i < |names[1..]| ==> GetReferencedDefinition(spec, names[1..][i]).Ok?) by {
          forall i | 0 < i < |names| ensures names[i] == names[1..][i - 1] { }
        }
      }
    }
  }

  lemma {:induction false} UpdateRefs(d: Dict<Node>, k: string, v: Node)
    ensures DictRefs(Update(d, k, v)) <= DictRefs(d) + SubRefs(v)
  {
    var r := Update(d, k, v);
    forall x | x in DictRefs(r) ensures x in DictRefs(d) + SubRefs(v) {
      var i :| 0 <= i < |r| && x in SubRefs(r[i].1);
      if i < |d| && r[i] == d[i] {
        assert x in SubRefs(d[i].1);
      }
    }
  }

  /** Every value bound by the fold was reached from the root. */
  lemma {:induction false} DefinitionsFoldRefs(spec: Spec, acc: Dict<Node>, names: seq<string>)
    requires DefinitionsFold(spec, acc, names).Ok?
    ensures DictRefs(DefinitionsFold(spec, acc, names).value) <= DictRefs(acc) + DefsRefs(spec)
    decreases |names|
  {
    if |names| > 0 {
      var (name, schema) := GetReferencedDefinition(spec, names[0]).value;
      ResolvedRefs(spec, names[0]);
      UpdateRefs(acc, "_" + name, schema);
      DefinitionsFoldRefs(spec, Update(acc, "_" + name, schema), names[1..]);
    }
  }

  /** `getReferencedDefinitions(names, root)`. */
  function GetReferencedDefinitions(spec: Spec, names: seq<string>): (r: Result<Dict<Node>>)
    ensures r.Ok? <==> forall i :: 0 <= i < |names| ==> GetReferencedDefinition(spec, names[i]).Ok?
    ensures r.Ok? ==> UniqueKeys(r.value) && Keys(r.value) == BindSet(names)
    ensures r.Ok? ==> DictRefs(r.value) <= DefsRefs(spec)
  {
    if |names| == 0 then Ok([])
    else
      var r := DefinitionsFold(spec, [], names);
      DefinitionsFoldOk(spec, [], names);
      DefinitionsFoldKeys(spec, [], names);
      if r.Ok? then DefinitionsFoldRefs(spec, [], names); r else r
  }

  function RefsForMessage(key: string): string {
    "Error while getting refs for " + key + ":\r\n" + RefsErrorMessage([])
  }

  /** The `catch` in `getRefs`, naming the key whose value failed. */
  function Annotate(key: string, r: Result<seq<string>>): (out: Result<seq<string>>)
    ensures r.Ok? ==> out == r
    ensures r.Err? ==> out == Err(Thrown("Error while getting refs for " + key + ":\r\n" + Message(r.error)))
  {
    match r
    case Ok(_) => r
    case Err(e) => Err(Thrown("Error while getting refs for " + key + ":\r\n" + Message(e)))
  }

  function RefsOf(defs: Dict<Node>): (rs: seq<Result<seq<string>>>)
    ensures |rs| == |defs|
    ensures forall i :: 0 <= i < |defs| ==> rs[i] == Annotate(defs[i].0, FindSchemaReferences(defs[i].1, []))
  {
    seq(|defs|, i requires 0 <= i < |defs| => Annotate(defs[i].0, FindSchemaReferences(defs[i].1, [])))
  }

  /** `getRefs(defs)`: the references of every value in key order. It fails
      exactly when some value's extraction fails, naming the first such key. */
  function GetRefs(defs: Dict<Node>): (r: Result<seq<string>>)
    ensures r.Ok? <==> forall i :: 0 <= i < |defs| ==> FindSchemaReferences(defs[i].1, []).Ok?
    ensures r.Ok? ==> forall x :: x in r.value ==> x in DictRefs(defs)
    ensures r.Err? ==> exists i :: FirstFailing(defs, i) && r.error == Thrown(RefsForMessage(defs[i].0))
  {
    var rs := RefsOf(defs);
    match AllOk(rs)
    case Err(e) =>
      ghost var i :| 0 <= i < |rs| && rs[i] == Err(e) && forall j :: 0 <= j < i ==> rs[j].Ok?;
      assert FirstFailing(defs, i);
      Err(e)
    case Ok(all) =>
      assert forall i :: 0 <= i < |defs| ==> FindSchemaReferences(defs[i].1, []).Ok? by {
        forall i | 0 <= i < |defs| ensures FindSchemaReferences(defs[i].1, []).Ok? {
          assert rs[i].Ok?;
        }
      }
      forall i, x | 0 <= i < |all| && x in all[i] ensures x in DictRefs(defs) {
        assert x in SubRefs(defs[i].1);
      }
      FlattenWithin(all, DictRefs(defs));
      Ok(Flatten(all))
  }

  /** Entry `i` is the first whose references cannot be extracted. */
  ghost predicate FirstFailing(defs: Dict<Node>, i: int) {
    && 0 <= i < |defs|
    && FindSchemaReferences(defs[i].1, []).Err?
    && forall j :: 0 <= j < i ==> FindSchemaReferences(defs[j].1, []).Ok?
  }

  /** Everything a pass can mention: the seeds' references and the definitions'. */
  ghost function Universe(spec: Spec, seeds: Dict<Node>): set<string> {
    DictRefs(seeds) + DefsRefs(spec)
  }

  ghost function BindAll(refs: set<string>): set<string> {
    set r | r in refs :: Bind(r)
  }

  /** Every key the loop can ever hold: a seed key or the binding of a reference in the universe. */
  ghost function KeyUniverse(spec: Spec, seeds: Dict<Node>): set<string> {
    Keys(seeds) + BindAll(Universe(spec, seeds))
  }

  ghost predicate LoopInv(spec: Spec, seeds: Dict<Node>, result: Dict<Node>) {
    && UniqueKeys(result)
    && Keys(seeds) <= Keys(result) <= KeyUniverse(spec, seeds)
    && DictRefs(result) <= Universe(spec, seeds)
  }

  lemma {:induction false} MergeRefs(d: Dict<Node>, e: Dict<Node>)
    ensures DictRefs(Merge(d, e)) <= DictRefs(d) + DictRefs(e)
    decreases |e|
  {
    if |e| > 0 {
      var d' := Update(d, e[0].0, e[0].1);
      UpdateRefs(d, e[0].0, e[0].1);
      MergeRefs(d', e[1..]);
      forall x | x in DictRefs(e[1..]) ensures x in DictRefs(e) {
        var i :| 0 <= i < |e[1..]| && x in SubRefs(e[1..][i].1);
        assert e[1..][i] == e[i + 1];
      }
      assert SubRefs(e[0].1) <= DictRefs(e);
    }
  }

  lemma DiffCard(u: set<string>, a: set<string>, b: set<string>)
    requires a <= b <= u && |a| < |b|
    ensures |u - b| < |u - a|
  {
    assert u - a == (u - b) + (b - a);
    assert (u - b) !! (b - a);
    assert b == a + (b - a);
    assert a !! (b - a);
  }

  /** One pass keeps the loop invariant, never loses a key, and when the
      count grows the unused part of the key universe shrinks. */
  lemma PassKeepsInv(spec: Spec, seeds: Dict<Node>, result: Dict<Node>, refs: seq<string>, defs: Dict<Node>)
    requires LoopInv(spec, seeds, result)
    requires forall x :: x in refs ==> x in DictRefs(result)
    requires UniqueKeys(defs) && Keys(defs) == BindSet(refs) && DictRefs(defs) <= DefsRefs(spec)
    ensures LoopInv(spec, seeds, Merge(result, defs))
    ensures Keys(result) <= Keys(Merge(result, defs))
    ensures |Merge(result, defs)| != |result| ==>
      |KeyUniverse(spec, seeds) - Keys(Merge(result, defs))| < |KeyUniverse(spec, seeds) - Keys(result)|
  {
    var c := Merge(result, defs);
    var u := Universe(spec, seeds);
    assert BindSet(refs) <= BindAll(u) by {
      forall k | k in BindSet(refs) ensures k in BindAll(u) {
        var i :| 0 <= i < |refs| && k == Bind(refs[i]);
        assert refs[i] in DictRefs(result);
      }
    }
    MergeRefs(result, defs);
    if |c| != |result| {
      UniqueKeysCount(c);
      UniqueKeysCount(result);
      DiffCard(KeyUniverse(spec, seeds), Keys(result), Keys(c));
    }
  }

  /** The dictionary read by the pass that ended the loop, and what that pass did. */
  ghost predicate FinalPass(spec: Spec, last: Dict<Node>, c: Dict<Node>) {
    && UniqueKeys(last)
    && GetRefs(last).Ok?
    && GetReferencedDefinitions(spec, GetRefs(last).value).Ok?
    && c == Merge(last, GetReferencedDefinitions(spec, GetRefs(last).value).value)
    && Keys(c) == Keys(last)
    && forall x :: x in GetRefs(last).value ==> Bind(x) in Keys(c)
  }

  lemma SubsetSameSize(a: set<string>, b: set<string>)
    requires a <= b && |a| == |b|
    ensures a == b
  {
    assert b == a + (b - a);
    assert a !! (b - a);
    assert |b - a| == 0;
  }

  lemma BindSetMembers(names: seq<string>)
    ensures forall x :: x in names ==> Bind(x) in BindSet(names)
  {
    forall x | x in names ensures Bind(x) in BindSet(names) {
      var i :| 0 <= i < |names| && names[i] == x;
    }
  }

  lemma FinalPassHolds(spec: Spec, result: Dict<Node>, refs: seq<string>, defs: Dict<Node>)
    requires UniqueKeys(result)
    requires GetRefs(result) == Ok(refs) && GetReferencedDefinitions(spec, refs) == Ok(defs)
    requires |Merge(result, defs)| == |result|
    ensures FinalPass(spec, result, Merge(result, defs))
  {
    var c := Merge(result, defs);
    assert UniqueKeys(c) && Keys(c) == Keys(result) + BindSet(refs);
    UniqueKeysCount(c);
    UniqueKeysCount(result);
    SubsetSameSize(Keys(result), Keys(c));
    BindSetMembers(refs);
  }

  /** The `while (true)` loop. */
  function GatherLoop(spec: Spec, ghost seeds: Dict<Node>, result: Dict<Node>): (r: Result<Dict<Node>>)
    requires LoopInv(spec, seeds, result)
    ensures r.Ok? ==> LoopInv(spec, seeds, r.value) && Keys(result) <= Keys(r.value)
    ensures r.Ok? ==> exists last :: FinalPass(spec, last, r.value)
    decreases |KeyUniverse(spec, seeds) - Keys(result)|
  {
    var refs :- GetRefs(result);
    var defs :- GetReferencedDefinitions(spec, refs);
    var candidate := Merge(result, defs);
    PassKeepsInv(spec, seeds, result, refs, defs);
    if |candidate| == |result| then
      FinalPassHolds(spec, result, refs, defs);
      Ok(candidate)
    else
      GatherLoop(spec, seeds, candidate)
  }

  /** `gatherSchemas(spec, startingDefinitions)`. Without `definitions` the
      seeds are dropped. Otherwise the seed keys survive, only bindings of
      references reachable from the seeds or the definitions are added, and
      the loop ends on a pass that binds every reference it extracted to a key
      already present. It terminates on reference cycles because that set of
      possible keys is finite and each further pass adds one. */
  function GatherSchemas(spec: Spec, seeds: Dict<Node>): (r: Result<Dict<Node>>)
    requires UniqueKeys(seeds)
    ensures spec.definitions.None? ==> r == Ok([])
    ensures spec.definitions.Some? && r.Ok? ==>
      && UniqueKeys(r.value)
      && Keys(seeds) <= Keys(r.value) <= KeyUniverse(spec, seeds)
      && exists last :: FinalPass(spec, last, r.value)
  {
    if spec.definitions.None? then Ok([])
    else GatherLoop(spec, seeds, seeds)
  }

  /** Every value the fold binds came from resolving one of the references
      bound under that key; any other key keeps its value. */
  lemma {:induction false} DefinitionsFoldLookup(spec: Spec, acc: Dict<Node>, names: seq<string>, k: string)
    requires DefinitionsFold(spec, acc, names).Ok?
    requires k in Keys(DefinitionsFold(spec, acc, names).value)
    ensures var v := Lookup(DefinitionsFold(spec, acc, names).value, k).value;
      || Lookup(acc, k) == Some(v)
      || exists i :: 0 <= i < |names| && Bind(names[i]) == k && GetReferencedDefinition(spec, names[i]) == Ok((RefName(names[i]), v))
    decreases |names|
  {
    if |names| > 0 {
      var head := GetReferencedDefinition(spec, names[0]);
      var acc' := Update(acc, "_" + head.value.0, head.value.1);
      var r := DefinitionsFold(spec, acc', names[1..]);
      assert r == DefinitionsFold(spec, acc, names);
      var v := Lookup(r.value, k).value;
      DefinitionsFoldLookup(spec, acc', names[1..], k);
      if Lookup(acc', k) == Some(v) {
        if k == Bind(names[0]) {
          assert Bind(names[0]) == k && GetReferencedDefinition(spec, names[0]) == Ok((RefName(names[0]), v));
        }
      } else {
        var i :| 0 <= i < |names[1..]| && Bind(names[1..][i]) == k && GetReferencedDefinition(spec, names[1..][i]) == Ok((RefName(names[1..][i]), v));
        assert names[1..][i] == names[i + 1];
      }
    }
  }

  /** Every binding made by `getReferencedDefinitions` holds the resolution of
      a reference with that binding. */
  lemma DefinitionsLookup(spec: Spec, names: seq<string>, k: string)
    requires GetReferencedDefinitions(spec, names).Ok?
    requires k in Keys(GetReferencedDefinitions(spec, names).value)
    ensures exists i :: (0 <= i < |names| && Bind(names[i]) == k
      && GetReferencedDefinition(spec, names[i]) == Ok((RefName(names[i]), Lookup(GetReferencedDefinitions(spec, names).value, k).value)))
  {
    DefinitionsFoldLookup(spec, [], names, k);
  }

  /** References with the same binding resolve to the same value, so binding
      them in any order gives the same dictionary. */
  ghost predicate NameConsistent(spec: Spec, refs: set<string>) {
    forall x, y :: x in refs && y in refs && Bind(x) == Bind(y) ==>
      GetReferencedDefinition(spec, x) == GetReferencedDefinition(spec, y)
  }

  /** No seed key is of the form "_" + name that bindings use. */
  predicate PlainSeedKeys(seeds: Dict<Node>) {
    forall i :: 0 <= i < |seeds| ==> |seeds[i].0| == 0 || seeds[i].0[0] != '_'
  }

  /** Seeds keep their values, and every bound key holds the resolution of
      every reference in the universe with that binding. */
  ghost predicate Canonical(spec: Spec, seeds: Dict<Node>, result: Dict<Node>) {
    && (forall k :: k in Keys(seeds) ==> Lookup(result, k) == Lookup(seeds, k))
    && forall x :: x in Universe(spec, seeds) && Bind(x) in Keys(result) && Bind(x) !in Keys(seeds) ==>
      GetReferencedDefinition(spec, x) == Ok((RefName(x), Lookup(result, Bind(x)).value))
  }

  /** A dictionary the loop leaves unchanged: its references resolve and
      rebinding them changes nothing. */
  ghost predicate Closed(spec: Spec, d: Dict<Node>) {
    && UniqueKeys(d)
    && GetRefs(d).Ok?
    && GetReferencedDefinitions(spec, GetRefs(d).value).Ok?
    && Merge(d, GetReferencedDefinitions(spec, GetRefs(d).value).value) == d
  }

  lemma SeedKeyNotBound(seeds: Dict<Node>, x: string)
    requires PlainSeedKeys(seeds)
    ensures Bind(x) !in Keys(seeds)
  {
    forall i | 0 <= i < |seeds| ensures seeds[i].0 != Bind(x) {
    }
  }

  lemma BindInjective(x: string, y: string)
    requires Bind(x) == Bind(y)
    ensures RefName(x) == RefName(y)
  {
    assert RefName(x) == Bind(x)[1..];
    assert RefName(y) == Bind(y)[1..];
  }

  /** One pass of the loop keeps the dictionary canonical. */
  lemma PassKeepsCanonical(spec: Spec, seeds: Dict<Node>, result: Dict<Node>, refs: seq<string>)
    requires LoopInv(spec, seeds, result) && Canonical(spec, seeds, result)
    requires PlainSeedKeys(seeds) && NameConsistent(spec, Universe(spec, seeds))
    requires forall x :: x in refs ==> x in DictRefs(result)
    requires GetReferencedDefinitions(spec, refs).Ok?
    ensures Canonical(spec, seeds, Merge(result, GetReferencedDefinitions(spec, refs).value))
  {
    var defs := GetReferencedDefinitions(spec, refs).value;
    var c := Merge(result, defs);
    forall k | k in Keys(seeds) ensures Lookup(c, k) == Lookup(seeds, k) {
      forall i | 0 <= i < |refs| ensures Bind(refs[i]) != k {
        SeedKeyNotBound(seeds, refs[i]);
      }
      MergeLookup(result, defs, k);
    }
    forall x | x in Universe(spec, seeds) && Bind(x) in Keys(c) && Bind(x) !in Keys(seeds)
      ensures GetReferencedDefinition(spec, x) == Ok((RefName(x), Lookup(c, Bind(x)).value))
    {
      var k := Bind(x);
      MergeLookup(result, defs, k);
      if k in Keys(defs) {
        DefinitionsLookup(spec, refs, k);
        var i :| 0 <= i < |refs| && Bind(refs[i]) == k
          && GetReferencedDefinition(spec, refs[i]) == Ok((RefName(refs[i]), Lookup(defs, k).value));
        assert refs[i] in DictRefs(result);
        BindInjective(x, refs[i]);
      }
    }
  }

  /** On a canonical dictionary the pass that ends the loop rebinds every key
      to the value it already has, so the result is closed. */
  lemma FinalPassClosed(spec: Spec, seeds: Dict<Node>, last: Dict<Node>, c: Dict<Node>)
    requires LoopInv(spec, seeds, last) && Canonical(spec, seeds, last)
    requires PlainSeedKeys(seeds)
    requires FinalPass(spec, last, c)
    ensures c == last && Closed(spec, c)
  {
    var refs := GetRefs(last).value;
    var defs := GetReferencedDefinitions(spec, refs).value;
    forall k | k in Keys(defs) ensures Lookup(defs, k) == Lookup(last, k) {
      DefinitionsLookup(spec, refs, k);
      var i :| 0 <= i < |refs| && Bind(refs[i]) == k
        && GetReferencedDefinition(spec, refs[i]) == Ok((RefName(refs[i]), Lookup(defs, k).value));
      assert refs[i] in DictRefs(last);
      SeedKeyNotBound(seeds, refs[i]);
    }
    MergeUnchanged(last, defs);
  }

  lemma {:induction false} GatherLoopClosed(spec: Spec, seeds: Dict<Node>, result: Dict<Node>)
    requires LoopInv(spec, seeds, result) && Canonical(spec, seeds, result)
    requires PlainSeedKeys(seeds) && NameConsistent(spec, Universe(spec, seeds))
    requires GatherLoop(spec, seeds, result).Ok?
    ensures Closed(spec, GatherLoop(spec, seeds, result).value)
    decreases |KeyUniverse(spec, seeds) - Keys(result)|
  {
    var refs := GetRefs(result).value;
    var defs := GetReferencedDefinitions(spec, refs).value;
    var candidate := Merge(result, defs);
    PassKeepsInv(spec, seeds, result, refs, defs);
    PassKeepsCanonical(spec, seeds, result, refs);
    if |candidate| == |result| {
      FinalPassHolds(spec, result, refs, defs);
      FinalPassClosed(spec, seeds, result, candidate);
    } else {
      GatherLoopClosed(spec, seeds, candidate);
    }
  }

  /** A closed dictionary is returned unchanged by a first pass that adds nothing. */
  lemma ClosedIsFixpoint(spec: Spec, d: Dict<Node>)
    requires spec.definitions.Some? && Closed(spec, d)
    ensures GatherSchemas(spec, d) == Ok(d)
  {
  }

  /** When every two references with the same binding resolve alike and no
      seed key looks like a binding, the gathered dictionary is closed, and
      gathering again from it returns it unchanged. */
  lemma GatherIdempotent(spec: Spec, seeds: Dict<Node>)
    requires UniqueKeys(seeds) && spec.definitions.Some?
    requires PlainSeedKeys(seeds) && NameConsistent(spec, Universe(spec, seeds))
    requires GatherSchemas(spec, seeds).Ok?
    ensures Closed(spec, GatherSchemas(spec, seeds).value)
    ensures GatherSchemas(spec, GatherSchemas(spec, seeds).value) == GatherSchemas(spec, seeds)
  {
    GatherLoopClosed(spec, seeds, seeds);
    ClosedIsFixpoint(spec, GatherSchemas(spec, seeds).value);
  }

  /** The usual form of a reference, `#/definitions/<name>`. */
  function DefinitionRef(name: string): string {
    "#/definitions/" + name
  }

  /** A reference `#/definitions/<name>` is walked along `definitions` and
      `<name>`, and is bound as "_" + name. */
  lemma PlainRefSegments(name: string)
    requires '/' !in name && name != "#"
    ensures Segments(DefinitionRef(name)) == ["definitions", name]
    ensures Bind(DefinitionRef(name)) == "_" + name
  {
    var parts := ["#", "definitions", name];
    JoinCons("/", "definitions", [name]);
    JoinCons("/", "#", ["definitions", name]);
    assert ["#"] + ["definitions", name] == parts;
    assert ["definitions"] + [name] == ["definitions", name];
    assert Join("/", parts) == DefinitionRef(name);
    assert '/' !in "#" && '/' !in "definitions";
    SplitUnique(DefinitionRef(name), '/', parts);
    assert parts[1..] == ["definitions", name];
    assert parts[1..][1..] == [name];
    assert [name][1..] == [];
    assert DropHash([name]) == [name];
    assert DropHash(["definitions", name]) == ["definitions", name];
    assert DropHash(parts) == ["definitions", name];
  }

  /** `#/definitions/<name>/items/<i>`: a reference into slot `i` of a tuple. */
  function SlotRef(name: string, i: nat): string {
    DefinitionRef(name) + "/items/" + NatToString(i)
  }

  lemma IndexSpelling(i: nat)
    ensures '/' !in NatToString(i) && NatToString(i) != "#"
  {
    var idx := NatToString(i);
    assert IsDigit(idx[0]);
  }

  lemma SlotRefJoin(name: string, idx: string)
    ensures Join("/", ["#", "definitions", name, "items", idx]) == "#/definitions/" + name + "/items/" + idx
  {
    JoinCons("/", "items", [idx]);
    assert ["items"] + [idx] == ["items", idx];
    JoinCons("/", name, ["items", idx]);
    assert [name] + ["items", idx] == [name, "items", idx];
    JoinCons("/", "definitions", [name, "items", idx]);
    assert ["definitions"] + [name, "items", idx] == ["definitions", name, "items", idx];
    JoinCons("/", "#", ["definitions", name, "items", idx]);
    assert ["#"] + ["definitions", name, "items", idx] == ["#", "definitions", name, "items", idx];
  }

  lemma SlotRefDropHash(name: string, idx: string)
    requires name != "#" && idx != "#"
    ensures DropHash(["#", "definitions", name, "items", idx]) == ["definitions", name, "items", idx]
  {
    var parts := ["#", "definitions", name, "items", idx];
    assert parts[1..] == ["definitions", name, "items", idx];
    assert parts[1..][1..] == [name, "items", idx];
    assert parts[1..][1..][1..] == ["items", idx];
    assert parts[1..][1..][1..][1..] == [idx];
    assert [idx][1..] == [];
    assert DropHash([idx]) == [idx];
    assert DropHash(["items", idx]) == ["items", idx];
    assert DropHash([name, "items", idx]) == [name, "items", idx];
  }

  lemma SlotRefSegments(name: string, i: nat)
    requires '/' !in name && name != "#"
    ensures Segments(SlotRef(name, i)) == ["definitions", name, "items", NatToString(i)]
    ensures Bind(SlotRef(name, i)) == "_" + NatToString(i)
  {
    var idx := NatToString(i);
    IndexSpelling(i);
    var parts := ["#", "definitions", name, "items", idx];
    SlotRefJoin(name, idx);
    assert '/' !in "#" && '/' !in "definitions" && '/' !in "items";
    assert forall k :: 0 <= k < |parts| ==> '/' !in parts[k];
    SplitUnique(SlotRef(name, i), '/', parts);
    SlotRefDropHash(name, idx);
  }

  /** A reference into a tuple slot of a definition resolves to that slot and
      is bound under "_" + the index. */
  lemma SlotRefResolves(spec: Spec, name: string, d: Node, i: nat)
    requires '/' !in name && name != "#"
    requires spec.definitions.Some? && Lookup(spec.definitions.value, name) == Some(d)
    requires d.Schema? && d.items.Tuple? && i < |d.items.slots|
    ensures GetReferencedDefinition(spec, SlotRef(name, i)) == Ok((NatToString(i), d.items.slots[i]))
  {
    SlotRefSegments(name, i);
    ArrayIndexOfNat(i);
    var defs := spec.definitions.value;
    var idx := NatToString(i);
    var segs := ["definitions", name, "items", idx];
    var p1 := AtDict(defs);
    var p2 := AtNode(d);
    var p3 := AtList(d.items.slots);
    var p4 := AtNode(d.items.slots[i]);
    assert Step(spec, AtRoot, "definitions") == p1;
    assert Step(spec, p1, name) == p2;
    assert Step(spec, p2, "items") == p3;
    assert Step(spec, p3, idx) == p4;
    assert After(spec, p4, []) == p4;
    assert After(spec, p3, [idx]) == p4 by { assert [idx][1..] == []; }
    assert After(spec, p2, ["items", idx]) == p4 by { assert ["items", idx][1..] == [idx]; }
    assert After(spec, p1, [name, "items", idx]) == p4 by { assert [name, "items", idx][1..] == ["items", idx]; }
    assert After(spec, AtRoot, segs) == p4 by { assert segs[1..] == [name, "items", idx]; }
    assert After(spec, p1, []) == p1;
    assert After(spec, AtRoot, segs[..1]) == p1 by { assert segs[..1] == ["definitions"]; assert ["definitions"][1..] == []; }
    assert After(spec, AtRoot, segs[..2]) == p2 by {
      assert segs[..2] == ["definitions", name]; assert ["definitions", name][1..] == [name]; assert [name][1..] == [];
      assert After(spec, p2, []) == p2;
      assert After(spec, p1, [name]) == p2;
    }
    assert After(spec, AtRoot, segs[..3]) == p3 by {
      assert segs[..3] == ["definitions", name, "items"]; assert ["definitions", name, "items"][1..] == [name, "items"];
      assert [name, "items"][1..] == ["items"]; assert ["items"][1..] == [];
      assert After(spec, p3, []) == p3;
      assert After(spec, p2, ["items"]) == p3;
      assert After(spec, p1, [name, "items"]) == p3;
    }
    assert RefName(SlotRef(name, i)) == idx;
  }

  /** Such a reference resolves to the definition of that name, or to
      `undefined` when there is none; without `definitions` it fails. */
  lemma PlainRef(spec: Spec, name: string)
    requires '/' !in name && name != "#"
    ensures spec.definitions.None? ==> GetReferencedDefinition(spec, DefinitionRef(name)).Err?
    ensures spec.definitions.Some? ==>
      GetReferencedDefinition(spec, DefinitionRef(name)) == Ok((name, Lookup(spec.definitions.value, name).GetOr(Undefined)))
  {
    PlainRefSegments(name);
    var segs := ["definitions", name];
    assert segs[..1] == ["definitions"];
    assert segs[1..] == [name];
    assert ["definitions"][1..] == [];
    if spec.definitions.Some? {
      var defs := spec.definitions.value;
      assert After(spec, AtRoot, segs[..1]) == AtDict(defs);
      assert After(spec, AtRoot, segs) == After(spec, AtDict(defs), [name]);
      assert After(spec, AtDict(defs), [name]) == AtNode(Lookup(defs, name).GetOr(Undefined));
      assert RefName(DefinitionRef(name)) == name;
    }
  }

  /** A value that is not a schema object, such as the `undefined` bound for a
      missing last segment, makes the next pass fail, naming an entry at or
      before it. */
  lemma UnresolvedFailsNextPass(d: Dict<Node>, i: int)
    requires 0 <= i < |d| && !d[i].1.Schema?
    ensures GetRefs(d).Err?
    ensures exists j :: 0 <= j <= i && GetRefs(d).error == Thrown(RefsForMessage(d[j].0))
  {
    assert FindSchemaReferences(d[i].1, []).Err?;
    assert GetRefs(d).Err?;
    var j :| FirstFailing(d, j) && GetRefs(d).error == Thrown(RefsForMessage(d[j].0));
    assert j <= i;
  }
}

=== FILE: mime.dfy ===
/** src/getMIMEType.ts: `const { consumes: [consumes] = ['application/json'] } = operation`. */
module Mime {
  import opened Results
  import opened Swagger

  const DefaultMime := "application/json"

  /** Destructuring the first element of an optional list with a default
      list: an absent list gives the default, a declared one its first element,
      and a declared empty one `undefined` (`None`). */
  function FirstOrDefault(list: Option<seq<string>>): (r: Option<string>)
    ensures list.None? ==> r == Some(DefaultMime)
    ensures list.Some? && |list.value| > 0 ==> r == Some(list.value[0])
    ensures list == Some([]) ==> r == None
  {
    match list
    case None => Some(DefaultMime)
    case Some(xs) => if |xs| == 0 then None else Some(xs[0])
  }

  function GetRequestMimeType(op: Operation): (r: Option<string>)
    ensures op.consumes.None? ==> r == Some(DefaultMime)
    ensures op.consumes.Some? && |op.consumes.value| > 0 ==> r == Some(op.consumes.value[0])
    ensures op.consumes == Some([]) ==> r == None
  {
    FirstOrDefault(op.consumes)
  }

  function GetResponseMimeType(op: Operation): (r: Option<string>)
    ensures op.produces.None? ==> r == Some(DefaultMime)
    ensures op.produces.Some? && |op.produces.value| > 0 ==> r == Some(op.produces.value[0])
    ensures op.produces == Some([]) ==> r == None
  {
    FirstOrDefault(op.produces)
  }
}

=== FILE: naming.dfy ===
/** Name helpers: src/capitalize.ts, src/decapitalize.ts and src/getOperationName.ts. */
module Naming {
  import opened Strings
  import opened Results
  import opened Swagger

  /** `line.trim()` with its first character upper-cased. */
  function Capitalize(line: string): (r: string)
    ensures |r| == |Trim(line)|
    ensures AllSpace(line) <==> r == []
    ensures |r| > 0 ==> r[0] == ToUpper(Trim(line)[0]) && r[1..] == Trim(line)[1..]
  {
    var t := Trim(line);
    if |t| == 0 then [] else [ToUpper(t[0])] + t[1..]
  }

  /** `line.trim()` with its first character lower-cased. */
  function Decapitalize(line: string): (r: string)
    ensures |r| == |Trim(line)|
    ensures AllSpace(line) <==> r == []
    ensures |r| > 0 ==> r[0] == ToLower(Trim(line)[0]) && r[1..] == Trim(line)[1..]
  {
    var t := Trim(line);
    if |t| == 0 then [] else [ToLower(t[0])] + t[1..]
  }

  /** On a string with no surrounding whitespace, `Capitalize` only upper-cases
      the first character. */
  lemma CapitalizeTrimmed(s: string)
    requires |s| > 0 && !IsSpace(s[0]) && !IsSpace(s[|s| - 1])
    ensures Capitalize(s) == [ToUpper(s[0])] + s[1..]
  {
    TrimOfTrimmed(s);
  }

  /** On a string with no surrounding whitespace, `Decapitalize` only
      lower-cases the first character. */
  lemma DecapitalizeTrimmed(s: string)
    requires |s| > 0 && !IsSpace(s[0]) && !IsSpace(s[|s| - 1])
    ensures Decapitalize(s) == [ToLower(s[0])] + s[1..]
  {
    TrimOfTrimmed(s);
  }

  /** A string starting with a lower-case letter is changed by `Capitalize`. */
  lemma CapitalizeLowerStart(s: string)
    requires |s| > 0 && IsLower(s[0]) && !IsSpace(s[|s| - 1])
    ensures Capitalize(s) == [ToUpper(s[0])] + s[1..]
    ensures Capitalize(s) != s
  {
    CapitalizeTrimmed(s);
    assert Capitalize(s)[0] != s[0];
  }

  lemma CapitalizeEmpty()
    ensures Capitalize("") == ""
  {
    assert AllSpace("");
  }

  lemma CapitalizeIdempotent(s: string)
    ensures Capitalize(Capitalize(s)) == Capitalize(s)
  {
    var c := Capitalize(s);
    if |c| > 0 {
      var t := Trim(s);
      assert !IsSpace(c[|c| - 1]) by {
        if |c| > 1 { assert c[|c| - 1] == t[|t| - 1]; }
      }
      CapitalizeTrimmed(c);
      assert c == [c[0]] + c[1..];
    }
  }

  lemma DecapitalizeIdempotent(s: string)
    ensures Decapitalize(Decapitalize(s)) == Decapitalize(s)
  {
    var c := Decapitalize(s);
    if |c| > 0 {
      var t := Trim(s);
      assert !IsSpace(c[|c| - 1]) by {
        if |c| > 1 { assert c[|c| - 1] == t[|t| - 1]; }
      }
      DecapitalizeTrimmed(c);
      assert c == [c[0]] + c[1..];
    }
  }

  /** The characters `.` does not match in a JavaScript regular expression. */
  predicate IsLineTerminator(c: char) {
    c == '\n' || c == '\r' || c == '\U{2028}' || c == '\U{2029}'
  }

  /** Where the last line of `s` starts. */
  function LastLineStart(s: string): (k: nat)
    ensures k <= |s|
    ensures k > 0 ==> IsLineTerminator(s[k - 1])
    ensures forall i :: k <= i < |s| ==> !IsLineTerminator(s[i])
  {
    if |s| == 0 || IsLineTerminator(s[|s| - 1]) then |s| else LastLineStart(s[..|s| - 1])
  }

  /** "Using" followed by an upper-case letter starts at `i`. */
  predicate UsingAt(s: string, i: nat) {
    i + 6 <= |s| && s[i..i + 5] == "Using" && IsUpper(s[i + 5])
  }

  /** The first index from `from` on where `UsingAt` holds. */
  function FindUsing(s: string, from: nat): (r: Option<nat>)
    ensures r.Some? ==> from <= r.value && UsingAt(s, r.value)
    ensures r.Some? ==> forall j :: from <= j < r.value ==> !UsingAt(s, j)
    ensures r.None? ==> forall j :: from <= j ==> !UsingAt(s, j)
    decreases |s| - from
  {
    if from + 6 > |s| then None
    else if UsingAt(s, from) then Some(from)
    else FindUsing(s, from + 1)
  }

  /** The end of the run of upper-case letters starting at `i`. */
  function UpperRunEnd(s: string, i: nat): (j: nat)
    requires i <= |s|
    ensures i <= j <= |s|
    ensures forall k :: i <= k < j ==> IsUpper(s[k])
    ensures j < |s| ==> !IsUpper(s[j])
    decreases |s| - i
  {
    if i < |s| && IsUpper(s[i]) then UpperRunEnd(s, i + 1) else i
  }

  /** `/(.*?)Using([A-Z]+)(.*?)$/.exec(id)` joined as group 1 then group 3, or
      `id` when nothing matches. Because `.` stops at line terminators and `$`
      only matches at the end, a match lies in the last line: group 1 runs
      from the start of the last line to the first "Using" followed by an
      upper-case letter, and group 3 follows the longest upper-case run. */
  function StripUsing(id: string): (r: string)
    ensures (forall i :: LastLineStart(id) <= i ==> !UsingAt(id, i)) ==> r == id
    ensures (exists i :: LastLineStart(id) <= i && UsingAt(id, i)) ==>
      exists i, j ::
        && LastLineStart(id) <= i && i + 6 <= j <= |id|
        && UsingAt(id, i)
        && (forall k :: LastLineStart(id) <= k < i ==> !UsingAt(id, k))
        && (forall k :: i + 5 <= k < j ==> IsUpper(id[k]))
        && (j < |id| ==> !IsUpper(id[j]))
        && r == id[LastLineStart(id)..i] + id[j..]
        && |r| <= |id| - 6
  {
    var l := LastLineStart(id);
    match FindUsing(id, l)
    case None => id
    case Some(i) =>
      var j := UpperRunEnd(id, i + 5);
      id[l..i] + id[j..]
  }

  /** `getOperationName`: the `operationId`, "" when absent, with the
      `Using[A-Z]+` infix of generated ids removed. */
  function GetOperationName(op: Operation): (r: string)
    ensures op.operationId.None? ==> r == ""
    ensures op.operationId.Some? ==> r == StripUsing(op.operationId.value)
  {
    StripUsing(op.operationId.GetOr(""))
  }

  /** With no line terminator in the id, the name is a prefix of the id joined
      to a suffix of it: characters are deleted, never rewritten. */
  lemma OperationNameDeletesOnly(id: string)
    requires forall i :: 0 <= i < |id| ==> !IsLineTerminator(id[i])
    ensures exists i, j :: 0 <= i <= j <= |id| && StripUsing(id) == id[..i] + id[j..]
    ensures |StripUsing(id)| == |id| || |StripUsing(id)| <= |id| - 6
  {
    assert LastLineStart(id) == 0;
    if exists i :: 0 <= i && UsingAt(id, i) {
      var i, j :| 0 <= i && i + 6 <= j <= |id| && StripUsing(id) == id[0..i] + id[j..];
      assert id[0..i] == id[..i];
    } else {
      assert StripUsing(id) == id[..|id|] + id[|id|..];
    }
  }

  /** The infix and its whole upper-case run go: "getUserUsingGET" names the
      operation "getUser". */
  lemma StripUsingExample()
    ensures StripUsing("getUserUsingGET") == "getUser"
  {
    var s := "getUserUsingGET";
    assert LastLineStart(s) == 0 by {
      assert forall i :: 0 <= i < |s| ==> !IsLineTerminator(s[i]);
    }
    assert UsingAt(s, 7);
    forall j | 0 <= j < 7 ensures !UsingAt(s, j) {
      assert s[j] != 'U' || s[j + 2] != 'i';
      assert "Using"[0] == 'U' && "Using"[2] == 'i';
    }
    assert FindUsing(s, 0) == Some(7);
    assert UpperRunEnd(s, 12) == 15;
    assert s[0..7] == "getUser";
  }

  /** What follows the upper-case run is kept: "listUsingGET_1" names the
      operation "list_1". */
  lemma StripUsingKeepsSuffix()
    ensures StripUsing("listUsingGET_1") == "list_1"
  {
    var s := "listUsingGET_1";
    assert LastLineStart(s) == 0 by {
      assert forall i :: 0 <= i < |s| ==> !IsLineTerminator(s[i]);
    }
    assert UsingAt(s, 4);
    forall j | 0 <= j < 4 ensures !UsingAt(s, j) {
      assert s[j] != 'U';
      assert "Using"[0] == 'U';
    }
    assert FindUsing(s, 0) == Some(4);
    assert UpperRunEnd(s, 9) == 12;
    assert s[0..4] + s[12..] == "list_1";
  }
}

=== FILE: operationtypes.dfy ===
/** src/getOperationTypes.ts: the TypeScript declarations of one operation —
    its request record, one content type per response, the closure of the
    definitions they reference, an envelope per response and the union of the
    envelopes. */
module OperationTypes {
  import opened Results
  import opened Strings
  import opened Dicts
  import opened Swagger
  import opened Naming
  import opened Parameters
  import opened Gather
  import opened TypeScript

  /** `'schema' in parameter ? parameter.schema : parameter`. A parameter
      read as a schema shows its `type`, `items` and `enum`; its boolean
      `required` is read only for object types with properties, which a
      parameter without `schema` never has. */
  function ParamSchema(p: Param): (n: Node)
    ensures p.schema.Some? ==> n == p.schema.value
    ensures p.schema.None? ==> n.Schema? && n.typ == p.typ && n.items == p.items && n.enum == p.enum && n.ref.None?
  {
    if p.schema.Some? then p.schema.value
    else Schema(None, p.typ, p.enum, p.items, NoProperties, None, None)
  }

  function NameSet(params: seq<Param>): set<string> {
    set i | 0 <= i < |params| :: params[i].name
  }

  /** The `properties` reduce: `{ ...properties, [name]: schema }` per parameter. */
  function RequestProperties(acc: Dict<Node>, params: seq<Param>): (r: Dict<Node>)
    ensures Keys(r) == Keys(acc) + NameSet(params)
    ensures UniqueKeys(acc) ==> UniqueKeys(r)
    decreases |params|
  {
    if |params| == 0 then acc
    else
      assert NameSet(params) == {params[0].name} + NameSet(params[1..]) by {
        forall x | x in NameSet(params) ensures x in {params[0].name} + NameSet(params[1..]) {
          var i :| 0 <= i < |params| && params[i].name == x;
          if i > 0 { assert params[1..][i - 1] == params[i]; }
        }
        forall x | x in NameSet(params[1..]) ensures x in NameSet(params) {
          var i :| 0 <= i < |params[1..]| && params[1..][i].name == x;
          assert params[i + 1] == params[1..][i];
        }
      }
      RequestProperties(Update(acc, params[0].name, ParamSchema(params[0])), params[1..])
  }

  /** Parameter `i` is the last one named `k`. */
  predicate LastNamed(params: seq<Param>, i: int, k: string) {
    0 <= i < |params| && params[i].name == k && forall j :: i < j < |params| ==> params[j].name != k
  }

  /** A name maps to the schema of the last parameter with that name: a later
      parameter overwrites an earlier one. */
  lemma {:induction false} RequestPropertiesLookup(acc: Dict<Node>, params: seq<Param>, k: string)
    ensures k !in NameSet(params) ==> Lookup(RequestProperties(acc, params), k) == Lookup(acc, k)
    ensures k in NameSet(params) ==>
      exists i :: (LastNamed(params, i, k) && Lookup(RequestProperties(acc, params), k) == Some(ParamSchema(params[i])))
    decreases |params|
  {
    if |params| > 0 {
      var acc' := Update(acc, params[0].name, ParamSchema(params[0]));
      var rest := params[1..];
      RequestPropertiesLookup(acc', rest, k);
      assert forall j :: 0 <= j < |rest| ==> rest[j] == params[j + 1];
      if k in NameSet(rest) {
        var i :| LastNamed(rest, i, k) && Lookup(RequestProperties(acc', rest), k) == Some(ParamSchema(rest[i]));
        assert LastNamed(params, i + 1, k);
      } else if k in NameSet(params) {
        forall j | 0 < j < |params| ensures params[j].name != k {
          assert params[j] == rest[j - 1];
        }
        var i :| 0 <= i < |params| && params[i].name == k;
        assert i == 0;
        assert LastNamed(params, 0, k);
      } else {
        assert params[0].name != k;
      }
    }
  }

  /** `parameters.filter(p => p.required).map(p => p.name)`. */
  function RequiredNames(params: seq<Param>): (r: seq<string>)
    ensures |r| <= |params|
    ensures forall n :: n in r <==> exists i :: 0 <= i < |params| && params[i].required && params[i].name == n
  {
    if |params| == 0 then []
    else
      var r := (if params[0].required then [params[0].name] else []) + RequiredNames(params[1..]);
      assert forall i :: 0 < i < |params| ==> params[i] == params[1..][i - 1];
      r
  }

  /** The `<OpName>Request` seed. */
  function RequestSchema(params: seq<Param>): Node {
    Schema(None, Some("object"), None, NoItems, Properties(RequestProperties([], params)), Some(RequiredNames(params)), None)
  }

  /** One entry of `responsesList`. */
  datatype ResponseInfo = ResponseInfo(kind: string, codeType: string, schema: Node, description: Option<string>)

  /** `isNaN(parseInt(kind, 10)) ? 'any' : parseInt(kind, 10).toString()`,
      for keys without leading white space or sign whose leading digits do
      not exceed 2^53; larger values, which `parseInt` rounds through a
      double (printed in exponent form from 1e21), are read exactly here. */
  function CodeType(kind: string): (r: string)
    ensures LeadingDigits(kind) == [] <==> r == "any"
    ensures LeadingDigits(kind) != [] ==> |r| >= 1 && AllDigits(r) && DigitsValue(r) == DigitsValue(LeadingDigits(kind))
    ensures LeadingDigits(kind) != [] && r[0] == '0' ==> r == "0"
  {
    var digits := LeadingDigits(kind);
    if digits == [] then "any"
    else
      var r := NatToString(DigitsValue(digits));
      assert IsDigit(r[0]);
      r
  }

  /** A status code written canonically is its own code type. */
  lemma CodeTypeOfStatus(kind: string)
    requires |kind| >= 1 && AllDigits(kind) && (kind[0] == '0' ==> |kind| == 1)
    ensures CodeType(kind) == kind
  {
    var d := LeadingDigits(kind);
    assert |d| == |kind|;
    assert d == kind;
    NatToStringOfDigits(kind);
  }

  /** `const { schema = { type: 'object' }, description } = responses[kind]`:
      the default replaces a missing or `undefined` schema, not a `null` one. */
  function ResponseOf(kind: string, resp: Response): (r: ResponseInfo)
    ensures r.kind == kind && r.codeType == CodeType(kind) && r.description == resp.description
    ensures resp.schema.None? || resp.schema == Some(Undefined) ==> r.schema == TypeOnly("object")
    ensures resp.schema.Some? && resp.schema.value != Undefined ==> r.schema == resp.schema.value
    ensures !Nullish(r.schema) <==> resp.schema != Some(Null)
  {
    var schema := if resp.schema.None? || resp.schema.value.Undefined? then TypeOnly("object") else resp.schema.value;
    ResponseInfo(kind, CodeType(kind), schema, resp.description)
  }

  function ResponsesList(responses: Dict<Response>): (rs: seq<ResponseInfo>)
    ensures |rs| == |responses|
    ensures forall i :: 0 <= i < |rs| ==> rs[i] == ResponseOf(responses[i].0, responses[i].1)
  {
    seq(|responses|, i requires 0 <= i < |responses| => ResponseOf(responses[i].0, responses[i].1))
  }

  /** The content key as the declaration is written:
      `capitalize(`${opName}${kind}ResponseContent`)`. */
  function ContentKeyAsWritten(opName: string, kind: string): string {
    Capitalize(opName + kind + "ResponseContent")
  }

  /** The content key the envelope refers to, `${OpName}${kind}ResponseContent`;
      the corrected seeds use it too. */
  function ContentKey(OpName: string, kind: string): string {
    OpName + kind + "ResponseContent"
  }

  /** With no operation id, a response key starting with a lower-case letter
      (`default`, say) is declared under the capitalised key
      (`DefaultResponseContent`) while its envelope refers to the key as it is
      (`defaultResponseContent`). */
  lemma ContentKeyMismatch(kind: string)
    requires |kind| > 0 && IsLower(kind[0])
    ensures ContentKeyAsWritten("", kind) != ContentKey(Capitalize(""), kind)
  {
    DeclaredKeyForm(kind);
    ReferencedKeyForm(kind);
    assert ContentKeyAsWritten("", kind)[0] != ContentKey(Capitalize(""), kind)[0];
  }

  /** Without a name the declaration capitalises the response key. */
  lemma DeclaredKeyForm(kind: string)
    requires |kind| > 0 && IsLower(kind[0])
    ensures ContentKeyAsWritten("", kind) == [ToUpper(kind[0])] + (kind[1..] + "ResponseContent")
  {
    var suffix := "ResponseContent";
    var s := kind + suffix;
    EmptyConcat(kind, suffix);
    assert s[0] == kind[0] && s[|s| - 1] == 't';
    CapitalizeLowerStart(s);
    TailConcat(kind, suffix);
  }

  /** Without a name the envelope uses the response key as it is. */
  lemma ReferencedKeyForm(kind: string)
    ensures ContentKey(Capitalize(""), kind) == kind + "ResponseContent"
  {
    CapitalizeEmpty();
    EmptyConcat(kind, "ResponseContent");
  }

  /** For an operation name with no surrounding white space the two keys
      agree, so the correction only changes the mismatching cases. */
  lemma ContentKeyAgrees(opName: string, kind: string)
    requires |opName| > 0 && !IsSpace(opName[0]) && !IsSpace(opName[|opName| - 1])
    ensures ContentKeyAsWritten(opName, kind) == ContentKey(Capitalize(opName), kind)
  {
    var s := opName + kind + "ResponseContent";
    assert s[0] == opName[0];
    assert s[|s| - 1] == 't';
    TrimOfTrimmed(s);
    TrimOfTrimmed(opName);
    var a := Capitalize(s);
    var b := ContentKey(Capitalize(opName), kind);
    assert |a| == |b|;
    forall i | 0 <= i < |a| ensures a[i] == b[i] {
      if i < |opName| {
        assert s[i] == opName[i];
      } else {
        assert s[i] == b[i];
      }
    }
  }

  /** Which content key the seeds use: the one line 54 writes, or the one the
      envelope refers to. The generator as written uses `AsWritten`. */
  datatype KeyRule = AsWritten | Corrected

  function SeedKey(rule: KeyRule, opName: string, kind: string): string {
    match rule
    case AsWritten => ContentKeyAsWritten(opName, kind)
    case Corrected => ContentKey(Capitalize(opName), kind)
  }

  /** For a name without surrounding white space both rules give the same key. */
  lemma SeedKeyAgrees(opName: string, kind: string)
    requires |opName| > 0 && !IsSpace(opName[0]) && !IsSpace(opName[|opName| - 1])
    ensures SeedKey(AsWritten, opName, kind) == SeedKey(Corrected, opName, kind)
  {
    ContentKeyAgrees(opName, kind);
  }

  /** Response `i` is the last one with a truthy schema seeded under `k`. */
  predicate LastSeeded(rule: KeyRule, opName: string, rs: seq<ResponseInfo>, i: int, k: string) {
    0 <= i < |rs| && !Nullish(rs[i].schema) && SeedKey(rule, opName, rs[i].kind) == k
    && forall j :: i < j < |rs| ==> Nullish(rs[j].schema) || SeedKey(rule, opName, rs[j].kind) != k
  }

  /** The `forEach` that adds a content seed per response with a truthy
      schema: a key no such response seeds keeps its value, and any other key
      holds the schema of the last response seeded under it. */
  function ContentSeeds(acc: Dict<Node>, rule: KeyRule, opName: string, rs: seq<ResponseInfo>): (r: Dict<Node>)
    ensures UniqueKeys(acc) ==> UniqueKeys(r)
    ensures Keys(r) == Keys(acc) + ContentKeys(rule, opName, rs)
    ensures forall k :: k !in ContentKeys(rule, opName, rs) ==> Lookup(r, k) == Lookup(acc, k)
    ensures forall k :: k in ContentKeys(rule, opName, rs) ==>
      exists i :: LastSeeded(rule, opName, rs, i, k) && Lookup(r, k) == Some(rs[i].schema)
    decreases |rs|
  {
    if |rs| == 0 then acc
    else
      ContentKeysCons(rule, opName, rs);
      var acc' := if Nullish(rs[0].schema) then acc else Update(acc, SeedKey(rule, opName, rs[0].kind), rs[0].schema);
      var r := ContentSeeds(acc', rule, opName, rs[1..]);
      ContentSeedsStep(acc, acc', rule, opName, rs, r);
      r
  }

  /** One step of the `forEach`: the lookups of the remaining responses'
      seeds, on top of the first response's update, are the lookups of all of
      them. */
  lemma ContentSeedsStep(acc: Dict<Node>, acc': Dict<Node>, rule: KeyRule, opName: string, rs: seq<ResponseInfo>, r: Dict<Node>)
    requires |rs| > 0
    requires acc' == if Nullish(rs[0].schema) then acc else Update(acc, SeedKey(rule, opName, rs[0].kind), rs[0].schema)
    requires forall k :: k !in ContentKeys(rule, opName, rs[1..]) ==> Lookup(r, k) == Lookup(acc', k)
    requires forall k :: k in ContentKeys(rule, opName, rs[1..]) ==>
      exists i :: LastSeeded(rule, opName, rs[1..], i, k) && Lookup(r, k) == Some(rs[1..][i].schema)
    ensures forall k :: k !in ContentKeys(rule, opName, rs) ==> Lookup(r, k) == Lookup(acc, k)
    ensures forall k :: k in ContentKeys(rule, opName, rs) ==>
      exists i :: LastSeeded(rule, opName, rs, i, k) && Lookup(r, k) == Some(rs[i].schema)
  {
    ContentKeysCons(rule, opName, rs);
    var rest := rs[1..];
    forall k | k in ContentKeys(rule, opName, rs)
      ensures exists i :: LastSeeded(rule, opName, rs, i, k) && Lookup(r, k) == Some(rs[i].schema)
    {
      if k in ContentKeys(rule, opName, rest) {
        var i :| LastSeeded(rule, opName, rest, i, k) && Lookup(r, k) == Some(rest[i].schema);
        forall j | i + 1 < j < |rs| ensures Nullish(rs[j].schema) || SeedKey(rule, opName, rs[j].kind) != k {
          assert rs[j] == rest[j - 1];
        }
        assert LastSeeded(rule, opName, rs, i + 1, k);
      } else {
        forall j | 0 < j < |rs| ensures Nullish(rs[j].schema) || SeedKey(rule, opName, rs[j].kind) != k {
          assert rs[j] == rest[j - 1];
        }
        assert LastSeeded(rule, opName, rs, 0, k);
      }
    }
  }

  /** The keys of the responses whose schema is truthy. */
  function ContentKeys(rule: KeyRule, opName: string, rs: seq<ResponseInfo>): set<string> {
    set i | 0 <= i < |rs| && !Nullish(rs[i].schema) :: SeedKey(rule, opName, rs[i].kind)
  }

  lemma ContentKeysCons(rule: KeyRule, opName: string, rs: seq<ResponseInfo>)
    requires |rs| > 0
    ensures ContentKeys(rule, opName, rs)
      == (if Nullish(rs[0].schema) then {} else {SeedKey(rule, opName, rs[0].kind)}) + ContentKeys(rule, opName, rs[1..])
  {
    var head := if Nullish(rs[0].schema) then {} else {SeedKey(rule, opName, rs[0].kind)};
    forall x | x in ContentKeys(rule, opName, rs) ensures x in head + ContentKeys(rule, opName, rs[1..]) {
      var i :| 0 <= i < |rs| && !Nullish(rs[i].schema) && x == SeedKey(rule, opName, rs[i].kind);
      if i > 0 { assert rs[1..][i - 1] == rs[i]; }
    }
    forall x | x in ContentKeys(rule, opName, rs[1..]) ensures x in ContentKeys(rule, opName, rs) {
      var i :| 0 <= i < |rs[1..]| && !Nullish(rs[1..][i].schema) && x == SeedKey(rule, opName, rs[1..][i].kind);
      assert rs[i + 1] == rs[1..][i];
    }
  }

  /** For a name without surrounding white space the correction changes no seed. */
  lemma {:induction false} ContentSeedsAgree(acc: Dict<Node>, opName: string, rs: seq<ResponseInfo>)
    requires |opName| > 0 && !IsSpace(opName[0]) && !IsSpace(opName[|opName| - 1])
    ensures ContentSeeds(acc, AsWritten, opName, rs) == ContentSeeds(acc, Corrected, opName, rs)
    decreases |rs|
  {
    if |rs| > 0 {
      SeedKeyAgrees(opName, rs[0].kind);
      var acc' := if Nullish(rs[0].schema) then acc else Update(acc, SeedKey(AsWritten, opName, rs[0].kind), rs[0].schema);
      ContentSeedsAgree(acc', opName, rs[1..]);
    }
  }

  /** `fetcherSchemas` before gathering: the request record under
      `${OpName}Request`, then the content seeds. No content key ends like
      the request key, so the request record is never overwritten. */
  function Seeds(rule: KeyRule, opName: string, params: seq<Param>, rs: seq<ResponseInfo>): (r: Dict<Node>)
    ensures UniqueKeys(r)
    ensures Keys(r) == {Capitalize(opName) + "Request"} + ContentKeys(rule, opName, rs)
    ensures Lookup(r, Capitalize(opName) + "Request") == Some(RequestSchema(params))
    ensures forall k :: k in ContentKeys(rule, opName, rs) ==>
      exists i :: LastSeeded(rule, opName, rs, i, k) && Lookup(r, k) == Some(rs[i].schema)
  {
    var request := Capitalize(opName) + "Request";
    RequestKeyNotContent(rule, opName, rs);
    var acc := [(request, RequestSchema(params))];
    assert Lookup(acc, request) == Some(RequestSchema(params)) by { LookupAt(acc, 0); }
    ContentSeeds(acc, rule, opName, rs)
  }

  /** Every seed key of a response ends in `…ResponseContent`. */
  lemma SeedKeyEnd(rule: KeyRule, opName: string, kind: string)
    ensures var k := SeedKey(rule, opName, kind); |k| >= 2 && k[|k| - 2] == 'n'
  {
    var line := opName + kind + "ResponseContent";
    assert line[|line| - 3] == 'e' && line[|line| - 2] == 'n' && line[|line| - 1] == 't';
    if rule.AsWritten? {
      CapitalizeKeepsEnd(line);
    }
  }

  /** Capitalising keeps the second-to-last character when none of the last
      three characters is white space. */
  lemma CapitalizeKeepsEnd(s: string)
    requires |s| >= 3 && !IsSpace(s[|s| - 1]) && !IsSpace(s[|s| - 2]) && !IsSpace(s[|s| - 3])
    ensures var c := Capitalize(s); |c| >= 2 && c[|c| - 2] == s[|s| - 2]
  {
    var t := Trim(s);
    var k := LeadingSpace(s);
    assert k + |t| == |s|;
    assert t[|t| - 2] == s[|s| - 2];
    var c := Capitalize(s);
    assert c[1..][|c| - 3] == t[1..][|t| - 3];
  }

  /** The request key is never a content key. */
  lemma RequestKeyNotContent(rule: KeyRule, opName: string, rs: seq<ResponseInfo>)
    ensures Capitalize(opName) + "Request" !in ContentKeys(rule, opName, rs)
  {
    var request := Capitalize(opName) + "Request";
    if request in ContentKeys(rule, opName, rs) {
      var i :| 0 <= i < |rs| && !Nullish(rs[i].schema) && request == SeedKey(rule, opName, rs[i].kind);
      SeedKeyEnd(rule, opName, rs[i].kind);
      assert false;
    }
  }

  /** The name of the envelope interface of a response kind. */
  function ResponseInterface(OpName: string, kind: string): string {
    OpName + kind + "Response"
  }

  /** The description, when truthy, as a comment line above the envelope. */
  function EnvelopeComment(r: ResponseInfo): string {
    if Truthy(r.description) then "// " + r.description.value + "\n" else ""
  }

  /** The `json` member that closes an envelope. */
  function JsonField(contentType: string): string {
    "json?: " + contentType + "\n      }"
  }

  /** The envelope interface of one response. */
  function Envelope(OpName: string, r: ResponseInfo): string {
    EnvelopeComment(r) + "export interface " + ResponseInterface(OpName, r.kind) + " {\n        status: " + r.codeType
      + ",\n        text: string,\n        " + JsonField(ContentKey(OpName, r.kind))
  }

  /** One envelope per response, in key order. */
  function Envelopes(OpName: string, rs: seq<ResponseInfo>): (es: seq<string>)
    ensures |es| == |rs| && forall i :: 0 <= i < |rs| ==> es[i] == Envelope(OpName, rs[i])
  {
    seq(|rs|, i requires 0 <= i < |rs| => Envelope(OpName, rs[i]))
  }

  /** The `<OpName>Responses` union of every envelope, in key order. */
  function ResponsesUnion(OpName: string, rs: seq<ResponseInfo>): string {
    "export type " + OpName + "Responses = "
      + Join(" | ", seq(|rs|, i requires 0 <= i < |rs| => ResponseInterface(OpName, rs[i].kind)))
  }

  /** Every envelope declares an interface that the union lists, and types
      its `json` member with the response's content declaration. */
  lemma EnvelopeInUnion(OpName: string, rs: seq<ResponseInfo>, i: nat)
    requires i < |rs|
    ensures var name := ResponseInterface(OpName, rs[i].kind);
      OccursAt(Envelope(OpName, rs[i]), "export interface " + name, |EnvelopeComment(rs[i])|)
      && exists j :: OccursAt(ResponsesUnion(OpName, rs), name, j)
    ensures EndsWith(Envelope(OpName, rs[i]), JsonField(ContentKey(OpName, rs[i].kind)))
  {
    var r := rs[i];
    var name := ResponseInterface(OpName, r.kind);
    var decl := "export interface " + name;
    var middle := " {\n        status: " + r.codeType + ",\n        text: string,\n        ";
    var json := JsonField(ContentKey(OpName, r.kind));
    assert Envelope(OpName, r) == EnvelopeComment(r) + decl + (middle + json);
    OccursInside(EnvelopeComment(r), decl, middle + json, decl, 0);
    assert Envelope(OpName, r) == (EnvelopeComment(r) + decl + middle) + json;
    EndsWithLast(EnvelopeComment(r) + decl + middle, json);
    var names := seq(|rs|, k requires 0 <= k < |rs| => ResponseInterface(OpName, rs[k].kind));
    var j := JoinOccurs(" | ", names, i);
    var head := "export type " + OpName + "Responses = ";
    OccursInside(head, Join(" | ", names), [], name, j);
    assert head + Join(" | ", names) + [] == ResponsesUnion(OpName, rs);
  }

  /** The output of one operation once its closure is gathered: a declaration
      per definition, an envelope per response, then the union. */
  function Assemble(defs: Dict<Node>, OpName: string, rs: seq<ResponseInfo>): (r: Result<seq<string>>)
    ensures r.Ok? <==> forall i :: 0 <= i < |defs| ==> Renderable(defs[i].1)
    ensures r.Ok? ==> |r.value| == |defs| + |rs| + 1
    ensures r.Ok? ==> forall i :: 0 <= i < |rs| ==> r.value[|defs| + i] == Envelope(OpName, rs[i])
    ensures r.Ok? ==> r.value[|r.value| - 1] == ResponsesUnion(OpName, rs)
  {
    match RenderDict(defs)
    case Err(e) => Err(e)
    case Ok(decls) => Ok(decls + Envelopes(OpName, rs) + [ResponsesUnion(OpName, rs)])
  }

  /** The closure the declarations of an operation are drawn from. */
  function Gathered(spec: Spec, rule: KeyRule, opName: string, params: seq<Param>, responses: Dict<Response>): Result<Dict<Node>> {
    GatherSchemas(spec, Seeds(rule, opName, params, ResponsesList(responses)))
  }

  /** The declarations for an operation with name `opName` and the given
      parameters, with content seeds keyed by `rule`. */
  function TypesFor(spec: Spec, rule: KeyRule, opName: string, params: seq<Param>, responses: Dict<Response>): Result<seq<string>> {
    var g := Gathered(spec, rule, opName, params, responses);
    if g.Err? then Err(g.error) else Assemble(g.value, Capitalize(opName), ResponsesList(responses))
  }

  /** The output is the rendered closure, then one envelope per response in
      key order, then the union; it fails exactly when gathering fails or a
      gathered schema cannot be rendered. */
  lemma TypesForShape(spec: Spec, rule: KeyRule, opName: string, params: seq<Param>, responses: Dict<Response>)
    ensures var g := Gathered(spec, rule, opName, params, responses);
      TypesFor(spec, rule, opName, params, responses).Ok? <==> (g.Ok? && forall i :: 0 <= i < |g.value| ==> Renderable(g.value[i].1))
    ensures var g := Gathered(spec, rule, opName, params, responses); var r := TypesFor(spec, rule, opName, params, responses);
      r.Ok? ==> (|r.value| == |g.value| + |responses| + 1
        && (forall i :: 0 <= i < |responses| ==>
              r.value[|g.value| + i] == Envelope(Capitalize(opName), ResponseOf(responses[i].0, responses[i].1)))
        && r.value[|r.value| - 1] == ResponsesUnion(Capitalize(opName), ResponsesList(responses)))
  {
    var g := Gathered(spec, rule, opName, params, responses);
    if g.Ok? {
      var rs := ResponsesList(responses);
      assert TypesFor(spec, rule, opName, params, responses) == Assemble(g.value, Capitalize(opName), rs);
    }
  }

  /** Without `definitions` nothing is gathered: the output is the envelopes
      and the union. */
  lemma TypesWithoutDefinitions(spec: Spec, rule: KeyRule, opName: string, params: seq<Param>, responses: Dict<Response>)
    requires spec.definitions.None?
    ensures TypesFor(spec, rule, opName, params, responses).Ok?
    ensures |TypesFor(spec, rule, opName, params, responses).value| == |responses| + 1
  {
    assert Gathered(spec, rule, opName, params, responses) == Ok([]);
    TypesForShape(spec, rule, opName, params, responses);
  }

  /** With corrected seeds every content type an envelope refers to is
      declared: its key is a seed, and gathering keeps every seed. */
  lemma EnvelopeContentDeclared(spec: Spec, opName: string, params: seq<Param>, responses: Dict<Response>, i: int)
    requires spec.definitions.Some? && 0 <= i < |responses|
    requires !Nullish(ResponsesList(responses)[i].schema)
    ensures var g := Gathered(spec, Corrected, opName, params, responses);
      g.Ok? ==> ContentKey(Capitalize(opName), responses[i].0) in Keys(g.value)
  {
    var rs := ResponsesList(responses);
    assert SeedKey(Corrected, opName, rs[i].kind) in ContentKeys(Corrected, opName, rs);
  }

  /** A capitalised string that is not all white space does not start with a
      lower-case letter. */
  lemma CapitalizedStart(s: string)
    requires !AllSpace(s)
    ensures |Capitalize(s)| > 0 && !IsLower(Capitalize(s)[0])
  {
  }

  /** As written, no seed key of an unnamed operation starts with a lower-case
      letter: the request key is "Request" and every content key is capitalised. */
  lemma UnnamedSeedKeys(params: seq<Param>, rs: seq<ResponseInfo>, k: string)
    requires k in Keys(Seeds(AsWritten, "", params, rs))
    ensures |k| > 0 && !IsLower(k[0])
  {
    assert k == Capitalize("") + "Request" || k in ContentKeys(AsWritten, "", rs);
    if k == Capitalize("") + "Request" {
      CapitalizeEmpty();
      assert k == "Request";
    } else {
      var j :| 0 <= j < |rs| && !Nullish(rs[j].schema) && k == SeedKey(AsWritten, "", rs[j].kind);
      UnnamedContentKey(rs[j].kind);
    }
  }

  lemma UnnamedContentKey(kind: string)
    ensures |SeedKey(AsWritten, "", kind)| > 0 && !IsLower(SeedKey(AsWritten, "", kind)[0])
  {
    var line := "" + kind + "ResponseContent";
    assert line[|line| - 1] == 't';
    assert !IsSpace(line[|line| - 1]);
    CapitalizedStart(line);
  }

  /** As written, an operation without a name and a response key starting with
      a lower-case letter (`default`, say) gets an envelope whose `json?` type
      is never declared: every seed key is capitalised and every gathered
      binding starts with `_`. */
  lemma EnvelopeContentUndeclared(spec: Spec, params: seq<Param>, responses: Dict<Response>, i: int)
    requires 0 <= i < |responses| && |responses[i].0| > 0 && IsLower(responses[i].0[0])
    ensures var g := Gathered(spec, AsWritten, "", params, responses);
      g.Ok? ==> ContentKey(Capitalize(""), responses[i].0) !in Keys(g.value)
  {
    var rs := ResponsesList(responses);
    var seeds := Seeds(AsWritten, "", params, rs);
    var key := ContentKey(Capitalize(""), responses[i].0);
    ReferencedKeyForm(responses[i].0);
    assert IsLower(key[0]);
    var g := GatherSchemas(spec, seeds);
    if g.Ok? && spec.definitions.Some? && key in Keys(g.value) {
      assert key in KeyUniverse(spec, seeds);
      if key in Keys(seeds) {
        UnnamedSeedKeys(params, rs, key);
      }
      assert false;
    }
  }

  /** `getOperationTypes(swagger, dir, method)`. A missing path item is a
      `TypeError` and a missing operation an error of its own; otherwise the
      declarations of the gathered closure, an envelope per response key and
      the union. */
  function GetOperationTypes(spec: Spec, dir: string, verb: string): (r: Result<seq<string>>)
    ensures dir !in Keys(spec.paths) ==> r == Err(TypeError)
    ensures dir in Keys(spec.paths) && OperationAt(spec, dir, verb) == Ok(None) ==>
      r == Err(Thrown("createTypes: operation is empty"))
    ensures r.Ok? ==> dir in Keys(spec.paths) && OperationAt(spec, dir, verb).value.Some?
    ensures dir in Keys(spec.paths) && OperationAt(spec, dir, verb).Ok? && OperationAt(spec, dir, verb).value.Some? ==>
      var op := OperationAt(spec, dir, verb).value.value;
      GetParameters(spec, dir, verb).Ok?
      && r == TypesFor(spec, AsWritten, GetOperationName(op), GetParameters(spec, dir, verb).value, op.responses.GetOr([]))
  {
    var op :- OperationAt(spec, dir, verb);
    if op.None? then Err(Thrown("createTypes: operation is empty"))
    else
      var params := GetParameters(spec, dir, verb);
      assert params.Ok?;
      TypesFor(spec, AsWritten, GetOperationName(op.value), params.value, op.value.responses.GetOr([]))
  }
}

=== FILE: parameters.dfy ===
/** src/getParameters.ts: the parameters of one operation, gathered from the
    operation, its path item and its security requirements, first occurrence
    of each (name, in) pair kept. */
module Parameters {
  import opened Results
  import opened Dicts
  import opened Swagger
  import opened Flattening

  /** An entry of the policy list: a resolved Security Scheme Object, or a
      Security Requirement Object kept as is because none of its names
      resolved. */
  datatype Policy = Scheme(scheme: SecurityScheme) | Subject(requirement: Requirement)

  /** `isApiKeySecurity`. A requirement object's `type` member, if any, is
      an array of scopes and never equals the string "apiKey". */
  predicate IsApiKeySecurity(p: Policy) {
    p.Scheme? && p.scheme.typ == "apiKey"
  }

  /** `isBasicAuth`, on the same terms. */
  predicate IsBasicAuth(p: Policy) {
    p.Scheme? && p.scheme.typ == "basic"
  }

  /** A requirement name resolves when `securityDefinitions` declares it. */
  predicate Resolves(defs: Option<Dict<SecurityScheme>>, name: string) {
    defs.Some? && name in Keys(defs.value)
  }

  /** `extPolicies`: the schemes the requirement's names resolve to, in key order. */
  function ExtPolicies(defs: Option<Dict<SecurityScheme>>, subject: Requirement): (r: seq<Policy>)
    ensures forall p :: p in r <==> exists i :: (0 <= i < |subject| && Resolves(defs, subject[i].0)
      && p == Scheme(Lookup(defs.value, subject[i].0).value))
    ensures |r| == 0 <==> forall i :: 0 <= i < |subject| ==> !Resolves(defs, subject[i].0)
  {
    if |subject| == 0 then []
    else
      var r := (if Resolves(defs, subject[0].0) then [Scheme(Lookup(defs.value, subject[0].0).value)] else [])
        + ExtPolicies(defs, subject[1..]);
      assert forall i :: 0 < i < |subject| ==> subject[i] == subject[1..][i - 1];
      r
  }

  /** The policies one requirement contributes: its schemes, or the
      requirement itself when none of its names resolves. */
  function SubjectPolicies(defs: Option<Dict<SecurityScheme>>, subject: Requirement): (r: seq<Policy>)
    ensures |r| > 0
    ensures (forall i :: 0 <= i < |subject| ==> !Resolves(defs, subject[i].0)) ==> r == [Subject(subject)]
    ensures (exists i :: 0 <= i < |subject| && Resolves(defs, subject[i].0)) ==> forall p :: p in r ==> p.Scheme?
  {
    var ext := ExtPolicies(defs, subject);
    if |ext| > 0 then ext else [Subject(subject)]
  }

  /** `policies`: every requirement's policies, in order. */
  function Policies(defs: Option<Dict<SecurityScheme>>, security: seq<Requirement>): (r: seq<Policy>)
    ensures forall p :: p in r <==> exists i :: 0 <= i < |security| && p in SubjectPolicies(defs, security[i])
    ensures |security| == 0 ==> r == []
  {
    if |security| == 0 then []
    else
      var r := SubjectPolicies(defs, security[0]) + Policies(defs, security[1..]);
      assert forall i :: 0 < i < |security| ==> security[i] == security[1..][i - 1];
      r
  }

  /** `const { security = globalSecurity } = operation`, with the global list
      defaulting to `[]`. A declared operation list, even an empty one, wins. */
  function EffectiveSecurity(spec: Spec, op: Operation): seq<Requirement> {
    if op.security.Some? then op.security.value else spec.security.GetOr([])
  }

  function ApiKeyParam(s: SecurityScheme): Param {
    Param(s.name, s.loc, false, Some("string"), NoItems, None, None)
  }

  const AuthorizationParam: Param := Param("Authorization", "header", false, Some("string"), NoItems, None, None)

  /** `policies.filter(isApiKeySecurity).map(…)`. */
  function ApiKeyParams(ps: seq<Policy>): (r: seq<Param>)
    ensures forall p :: p in r <==> exists i :: 0 <= i < |ps| && IsApiKeySecurity(ps[i]) && p == ApiKeyParam(ps[i].scheme)
  {
    if |ps| == 0 then []
    else
      var r := (if IsApiKeySecurity(ps[0]) then [ApiKeyParam(ps[0].scheme)] else []) + ApiKeyParams(ps[1..]);
      assert forall i :: 0 < i < |ps| ==> ps[i] == ps[1..][i - 1];
      r
  }

  /** `policies.filter(isBasicAuth).map(…)`: one `Authorization` header per basic scheme. */
  function BasicParams(ps: seq<Policy>): (r: seq<Param>)
    ensures forall p :: p in r ==> p == AuthorizationParam
    ensures |r| > 0 <==> exists i :: 0 <= i < |ps| && IsBasicAuth(ps[i])
  {
    if |ps| == 0 then []
    else
      var r := (if IsBasicAuth(ps[0]) then [AuthorizationParam] else []) + BasicParams(ps[1..]);
      assert forall i :: 0 < i < |ps| ==> ps[i] == ps[1..][i - 1];
      r
  }

  /** The parameters derived from security: API keys, then basic authentication. */
  function SecurityParams(spec: Spec, op: Operation): seq<Param> {
    var ps := Policies(spec.securityDefinitions, EffectiveSecurity(spec, op));
    ApiKeyParams(ps) + BasicParams(ps)
  }

  /** The concatenated candidate list, before deduplication. */
  function Candidates(spec: Spec, item: PathItem, op: Operation): seq<Param> {
    op.parameters.GetOr([]) + item.parameters.GetOr([]) + SecurityParams(spec, op)
  }

  /** The identity deduplication compares. */
  function Key(p: Param): (string, string) {
    (p.name, p.loc)
  }

  predicate HasKey(ps: seq<Param>, k: (string, string)) {
    exists j :: 0 <= j < |ps| && Key(ps[j]) == k
  }

  /** Candidate `i` is the first with its (name, in) pair. */
  predicate IsFirst(c: seq<Param>, i: int)
    requires 0 <= i < |c|
  {
    forall j :: 0 <= j < i ==> Key(c[j]) != Key(c[i])
  }

  /** Reference definition: the candidates from index `i` on that are first
      with their pair, in order. */
  function KeepFirstFrom(c: seq<Param>, i: nat): (r: seq<Param>)
    requires i <= |c|
    decreases |c| - i
  {
    if i == |c| then []
    else (if IsFirst(c, i) then [c[i]] else []) + KeepFirstFrom(c, i + 1)
  }

  function KeepFirst(c: seq<Param>): seq<Param> {
    KeepFirstFrom(c, 0)
  }

  /** No two entries share a (name, in) pair. */
  predicate Distinct(ps: seq<Param>) {
    forall i, j :: 0 <= i < j < |ps| ==> Key(ps[i]) != Key(ps[j])
  }

  /** Some candidate before index `k` has pair `key`. */
  predicate KeyBefore(c: seq<Param>, k: int, key: (string, string)) {
    exists j :: 0 <= j < k && j < |c| && Key(c[j]) == key
  }

  /** The reduce: append a candidate unless its pair is already present. */
  function Dedup(acc: seq<Param>, c: seq<Param>): (r: seq<Param>)
    decreases |c|
  {
    if |c| == 0 then acc
    else Dedup(if HasKey(acc, Key(c[0])) then acc else acc + [c[0]], c[1..])
  }

  lemma {:induction false} KeepFirstMembers(c: seq<Param>, i: nat)
    requires i <= |c|
    ensures forall p :: p in KeepFirstFrom(c, i) <==> exists m :: i <= m < |c| && IsFirst(c, m) && c[m] == p
    decreases |c| - i
  {
    if i < |c| {
      KeepFirstMembers(c, i + 1);
    }
  }

  lemma {:induction false} KeepFirstDistinct(c: seq<Param>, i: nat)
    requires i <= |c|
    ensures Distinct(KeepFirstFrom(c, i))
    decreases |c| - i
  {
    if i < |c| {
      KeepFirstDistinct(c, i + 1);
      KeepFirstMembers(c, i + 1);
      var rest := KeepFirstFrom(c, i + 1);
      if IsFirst(c, i) {
        forall j | 0 <= j < |rest| ensures Key(rest[j]) != Key(c[i]) {
          assert rest[j] in rest;
          var m :| i + 1 <= m < |c| && IsFirst(c, m) && c[m] == rest[j];
          assert Key(c[i]) != Key(c[m]);
        }
        DistinctCons(c[i], rest);
      }
    }
  }

  lemma DistinctCons(x: Param, rest: seq<Param>)
    requires Distinct(rest) && forall j :: 0 <= j < |rest| ==> Key(rest[j]) != Key(x)
    ensures Distinct([x] + rest)
  {
    var r := [x] + rest;
    forall a, b | 0 <= a < b < |r| ensures Key(r[a]) != Key(r[b]) {
      assert r[b] == rest[b - 1];
      if a > 0 {
        assert r[a] == rest[a - 1];
      }
    }
  }

  /** Every pair occurs first somewhere. */
  lemma {:induction false} FirstOccurrence(c: seq<Param>, j: nat)
    requires j < |c|
    ensures exists m :: 0 <= m <= j && IsFirst(c, m) && Key(c[m]) == Key(c[j])
    decreases j
  {
    if !IsFirst(c, j) {
      var j' :| 0 <= j' < j && Key(c[j']) == Key(c[j]);
      FirstOccurrence(c, j');
    }
  }

  /** The kept entries carry exactly the pairs of the candidates. */
  lemma KeepFirstKeys(c: seq<Param>)
    ensures forall k :: HasKey(KeepFirst(c), k) <==> HasKey(c, k)
  {
    var r := KeepFirst(c);
    KeepFirstMembers(c, 0);
    forall k ensures HasKey(r, k) <==> HasKey(c, k) {
      if HasKey(c, k) {
        var j :| 0 <= j < |c| && Key(c[j]) == k;
        FirstOccurrence(c, j);
        var m :| 0 <= m <= j && IsFirst(c, m) && Key(c[m]) == k;
        assert c[m] in r;
        var t :| 0 <= t < |r| && r[t] == c[m];
      }
      if HasKey(r, k) {
        var t :| 0 <= t < |r| && Key(r[t]) == k;
        assert r[t] in r;
        var m :| 0 <= m < |c| && IsFirst(c, m) && c[m] == r[t];
      }
    }
  }

  /** One step of the reduce. */
  function Next(acc: seq<Param>, x: Param): seq<Param> {
    if HasKey(acc, Key(x)) then acc else acc + [x]
  }

  lemma HasKeyAppend(acc: seq<Param>, x: Param, key: (string, string))
    ensures HasKey(acc + [x], key) <==> HasKey(acc, key) || Key(x) == key
  {
    if HasKey(acc, key) {
      var j :| 0 <= j < |acc| && Key(acc[j]) == key;
      assert (acc + [x])[j] == acc[j];
    }
    if Key(x) == key {
      assert (acc + [x])[|acc|] == x;
    }
    if HasKey(acc + [x], key) && Key(x) != key {
      var j :| 0 <= j < |acc + [x]| && Key((acc + [x])[j]) == key;
      assert j < |acc| && (acc + [x])[j] == acc[j];
    }
  }

  lemma KeyBeforeStep(c: seq<Param>, k: nat, key: (string, string))
    requires k < |c|
    ensures KeyBefore(c, k + 1, key) <==> KeyBefore(c, k, key) || Key(c[k]) == key
  {
    if KeyBefore(c, k + 1, key) && Key(c[k]) != key {
      var j :| 0 <= j < k + 1 && j < |c| && Key(c[j]) == key;
      assert j < k;
    }
  }

  /** A step keeps the accumulator's pairs equal to the pairs seen so far,
      and appends exactly the first occurrences. */
  lemma AccStep(c: seq<Param>, k: nat, acc: seq<Param>)
    requires k < |c|
    requires forall key :: HasKey(acc, key) <==> KeyBefore(c, k, key)
    ensures forall key :: HasKey(Next(acc, c[k]), key) <==> KeyBefore(c, k + 1, key)
    ensures IsFirst(c, k) <==> !HasKey(acc, Key(c[k]))
  {
    forall key ensures HasKey(Next(acc, c[k]), key) <==> KeyBefore(c, k + 1, key) {
      KeyBeforeStep(c, k, key);
      HasKeyAppend(acc, c[k], key);
    }
    if !IsFirst(c, k) {
      var j :| 0 <= j < k && Key(c[j]) == Key(c[k]);
      assert KeyBefore(c, k, Key(c[k]));
    }
  }

  /** One reduce step extends the accumulator by what the first-occurrence
      filter keeps at `k`. */
  lemma KeepFirstStep(c: seq<Param>, k: nat, acc: seq<Param>)
    requires k < |c|
    requires forall key :: HasKey(acc, key) <==> KeyBefore(c, k, key)
    ensures acc + KeepFirstFrom(c, k) == Next(acc, c[k]) + KeepFirstFrom(c, k + 1)
  {
    AccStep(c, k, acc);
    if IsFirst(c, k) {
      assert KeepFirstFrom(c, k) == [c[k]] + KeepFirstFrom(c, k + 1);
      assert acc + [c[k]] + KeepFirstFrom(c, k + 1) == acc + ([c[k]] + KeepFirstFrom(c, k + 1));
    } else {
      assert KeepFirstFrom(c, k) == KeepFirstFrom(c, k + 1);
    }
  }

  /** The fold, started from an accumulator holding exactly the pairs seen
      before `k`, appends the first occurrences from `k` on. */
  lemma {:induction false} DedupFrom(c: seq<Param>, k: nat, acc: seq<Param>)
    requires k <= |c|
    requires forall key :: HasKey(acc, key) <==> KeyBefore(c, k, key)
    ensures Dedup(acc, c[k..]) == acc + KeepFirstFrom(c, k)
    decreases |c| - k
  {
    if k < |c| {
      assert c[k..][0] == c[k];
      assert c[k..][1..] == c[k + 1..];
      AccStep(c, k, acc);
      var acc' := Next(acc, c[k]);
      assert Dedup(acc, c[k..]) == Dedup(acc', c[k + 1..]);
      DedupFrom(c, k + 1, acc');
      KeepFirstStep(c, k, acc);
    } else {
      assert c[k..] == [];
    }
  }

  /** The reduce of `getParameters` on the candidate list. It keeps exactly
      the first occurrence of each pair, in candidate order, so the result is
      duplicate free and loses no pair. */
  function Deduplicate(c: seq<Param>): (r: seq<Param>)
    ensures r == KeepFirst(c)
    ensures Distinct(r)
    ensures forall k :: HasKey(r, k) <==> HasKey(c, k)
  {
    assert c[0..] == c;
    DedupFrom(c, 0, []);
    KeepFirstDistinct(c, 0);
    KeepFirstKeys(c);
    Dedup([], c)
  }

  /** `getParameters(swagger, dir, method)`. A missing path item is a
      `TypeError`, a missing operation an error of its own; otherwise the
      operation's parameters, the path item's, one per API key scheme and one
      `Authorization` header per basic scheme, first occurrence of each
      (name, in) pair kept. */
  function GetParameters(spec: Spec, dir: string, verb: string): (r: Result<seq<Param>>)
    ensures dir !in Keys(spec.paths) ==> r == Err(TypeError)
    ensures dir in Keys(spec.paths) && OperationAt(spec, dir, verb) == Ok(None) ==>
      r == Err(Thrown("getParameters: operation is empty"))
    ensures r.Ok? <==> dir in Keys(spec.paths) && OperationAt(spec, dir, verb).value.Some?
    ensures r.Ok? ==> r.value == KeepFirst(Candidates(spec, Lookup(spec.paths, dir).value, OperationAt(spec, dir, verb).value.value))
    ensures r.Ok? ==> Distinct(r.value)
  {
    var op :- OperationAt(spec, dir, verb);
    if op.None? then Err(Thrown("getParameters: operation is empty"))
    else Ok(Deduplicate(Candidates(spec, Lookup(spec.paths, dir).value, op.value)))
  }

  /** Operation parameters come first, so one of them that is first among
      them survives, and any later candidate with its pair is dropped. */
  lemma OperationParamsWin(spec: Spec, item: PathItem, op: Operation, i: int)
    requires 0 <= i < |op.parameters.GetOr([])| && IsFirst(op.parameters.GetOr([]), i)
    ensures op.parameters.GetOr([])[i] in KeepFirst(Candidates(spec, item, op))
    ensures forall j :: i < j < |Candidates(spec, item, op)| && Key(Candidates(spec, item, op)[j]) == Key(op.parameters.GetOr([])[i]) ==>
      !IsFirst(Candidates(spec, item, op), j)
  {
    var c := Candidates(spec, item, op);
    var ops := op.parameters.GetOr([]);
    assert forall j :: 0 <= j < |ops| ==> c[j] == ops[j];
    assert IsFirst(c, i);
    KeepFirstMembers(c, 0);
  }

  /** However many basic schemes apply, the result has at most one
      `Authorization` header, and has one whenever some basic scheme applies. */
  lemma OneAuthorizationHeader(spec: Spec, item: PathItem, op: Operation)
    ensures var r := KeepFirst(Candidates(spec, item, op));
      forall i, j :: 0 <= i < j < |r| ==> !(Key(r[i]) == Key(AuthorizationParam) && Key(r[j]) == Key(AuthorizationParam))
    ensures (exists p :: p in Policies(spec.securityDefinitions, EffectiveSecurity(spec, op)) && IsBasicAuth(p)) ==>
      HasKey(KeepFirst(Candidates(spec, item, op)), Key(AuthorizationParam))
  {
    var c := Candidates(spec, item, op);
    var ps := Policies(spec.securityDefinitions, EffectiveSecurity(spec, op));
    KeepFirstDistinct(c, 0);
    KeepFirstKeys(c);
    if exists p :: p in ps && IsBasicAuth(p) {
      var p :| p in ps && IsBasicAuth(p);
      var b := BasicParams(ps);
      assert |b| > 0 && b[0] in b;
      var front := op.parameters.GetOr([]) + item.parameters.GetOr([]);
      var keys := ApiKeyParams(ps);
      assert c == front + (keys + b);
      assert c[|front| + |keys|] == b[0];
      assert HasKey(c, Key(AuthorizationParam));
    }
  }

  /** Parameters derived from security never carry `required`. */
  lemma SecurityParamsOptional(spec: Spec, op: Operation)
    ensures forall p :: p in SecurityParams(spec, op) ==> !p.required && p.typ == Some("string") && p.schema.None?
  {
    var ps := Policies(spec.securityDefinitions, EffectiveSecurity(spec, op));
    forall p | p in SecurityParams(spec, op) ensures !p.required && p.typ == Some("string") && p.schema.None? {
      if p in ApiKeyParams(ps) {
        var i :| 0 <= i < |ps| && IsApiKeySecurity(ps[i]) && p == ApiKeyParam(ps[i].scheme);
      }
    }
  }

  /** A declared operation security list replaces the global one, even when
      empty; the global list applies only when the operation declares none. */
  lemma OperationSecurityOverrides(spec: Spec, op: Operation)
    ensures op.security == Some([]) ==> SecurityParams(spec, op) == []
    ensures op.security.None? && spec.security.None? ==> SecurityParams(spec, op) == []
    ensures op.security.None? ==> SecurityParams(spec, op) == SecurityParams(spec, op.(security := Some(spec.security.GetOr([]))))
  {
  }
}

=== FILE: process.dfy ===
/** src/processSpec.ts: the generator that walks every path and method key,
    yields one file per generated operation, records a failure for an
    operation whose generation throws, and stops altogether at a recognised
    method key whose operation is falsy. Logging and `process.exitCode` are
    represented by the events it produces. */
module Process {
  import opened Results
  import opened Strings
  import opened Dicts
  import opened Swagger
  import opened Naming
  import opened Executor
  import opened Flattening

  /** The template text this model does not spell out: the runtime part of
      each fetcher (from the names and the method) and the React component of
      an operation. */
  datatype Templates = Templates(
    tail: (string, string, string) -> string,
    component: (Spec, string, string) -> seq<string>)

  /** What the walk does at one recognised key: yield a file, record a
      failure (the `catch`), or warn and return. */
  datatype Event =
    | Yielded(opName: string, file: string)
    | Failed(dir: string, verb: string, error: Error)
    | NotAnOperation(dir: string, verb: string)

  /** The method keys the walk handles; `patch`, `parameters` and any other
      key are passed over. */
  predicate Recognized(verb: string) {
    verb == "get" || verb == "put" || verb == "post" || verb == "delete" || verb == "head" || verb == "options"
  }

  /** `/^\s*$/.test(l) ? '' : l`. */
  function Blank(line: string): (r: string)
    ensures r == "" <==> AllSpace(line)
    ensures r != "" ==> r == line
  {
    if AllSpace(line) then "" else line
  }

  /** The file of one operation: the lint directive, the fetcher and the
      component, blank entries emptied, separated by empty lines. */
  function FileOf(fetcher: seq<string>, component: seq<string>): string {
    var lines := ["// tslint:disable"] + fetcher + component;
    Join("\n\n", seq(|lines|, i requires 0 <= i < |lines| => Blank(lines[i])))
  }

  /** Every file opens with the lint directive; with anything after it the
      directive stands on its own, followed by an empty line. */
  lemma FileStartsWithDirective(fetcher: seq<string>, component: seq<string>)
    ensures var f := FileOf(fetcher, component);
      |fetcher + component| == 0 ==> f == "// tslint:disable"
    ensures var f := FileOf(fetcher, component);
      |fetcher + component| > 0 ==> |f| >= 19 && f[..19] == "// tslint:disable\n\n"
  {
    var lines := ["// tslint:disable"] + fetcher + component;
    var blanked := seq(|lines|, i requires 0 <= i < |lines| => Blank(lines[i]));
    assert !AllSpace("// tslint:disable") by { assert !IsSpace("// tslint:disable"[0]); }
    assert blanked[0] == "// tslint:disable";
    if |fetcher + component| > 0 {
      JoinCons("\n\n", blanked[0], blanked[1..]);
      assert [blanked[0]] + blanked[1..] == blanked;
    }
  }

  /** The `[dir, method]` pairs of one path item, in key order. */
  function MemberPairs(entry: (string, PathItem)): (ps: seq<(string, string)>)
    ensures |ps| == |entry.1.members|
    ensures forall j :: 0 <= j < |ps| ==> ps[j] == (entry.0, entry.1.members[j].0)
  {
    seq(|entry.1.members|, j requires 0 <= j < |entry.1.members| => (entry.0, entry.1.members[j].0))
  }

  function PairsPerPath(paths: Dict<PathItem>): seq<seq<(string, string)>> {
    seq(|paths|, i requires 0 <= i < |paths| => MemberPairs(paths[i]))
  }

  /** Each `[dir, method]` pair in `Object.keys` order: the pairs of each
      path item in key order, one path after the other, as the two nested
      loops visit them. */
  function Pairs(paths: Dict<PathItem>): (ps: seq<(string, string)>)
    ensures ps == Flatten(PairsPerPath(paths))
    ensures forall d, v :: (d, v) in ps <==> exists i, j :: (0 <= i < |paths| && 0 <= j < |paths[i].1.members|
      && d == paths[i].0 && v == paths[i].1.members[j].0)
  {
    if |paths| == 0 then []
    else
      var members := paths[0].1.members;
      var here := seq(|members|, j requires 0 <= j < |members| => (paths[0].0, members[j].0));
      var rest := Pairs(paths[1..]);
      assert here == MemberPairs(paths[0]);
      assert PairsPerPath(paths) == [here] + PairsPerPath(paths[1..]) by {
        forall i | 0 < i < |paths| ensures PairsPerPath(paths)[i] == PairsPerPath(paths[1..])[i - 1] {
          assert paths[1..][i - 1] == paths[i];
        }
      }
      FlattenAppend([here], PairsPerPath(paths[1..]));
      assert Flatten([here]) == here by { FoldIsConcat([], [here]); }
      assert forall i :: 0 < i < |paths| ==> paths[i] == paths[1..][i - 1];
      forall d, v | (d, v) in here + rest
        ensures exists i, j :: (0 <= i < |paths| && 0 <= j < |paths[i].1.members|
          && d == paths[i].0 && v == paths[i].1.members[j].0)
      {
        if (d, v) in here {
          var j :| 0 <= j < |members| && here[j] == (d, v);
          assert 0 < |paths| && d == paths[0].0 && v == paths[0].1.members[j].0;
        } else {
          var i, j :| 0 <= i < |paths[1..]| && 0 <= j < |paths[1..][i].1.members|
            && d == paths[1..][i].0 && v == paths[1..][i].1.members[j].0;
          assert paths[i + 1] == paths[1..][i];
        }
      }
      forall i, j | 0 <= i < |paths| && 0 <= j < |paths[i].1.members|
        ensures (paths[i].0, paths[i].1.members[j].0) in here + rest
      {
        if i == 0 {
          assert here[j] == (paths[i].0, paths[i].1.members[j].0);
        } else {
          assert paths[1..][i - 1] == paths[i];
          assert (paths[i].0, paths[i].1.members[j].0) in rest;
        }
      }
      here + rest
  }

  /** No element occurs twice. */
  predicate NoRepeats<T(==)>(s: seq<T>) {
    forall a, b :: 0 <= a < b < |s| ==> s[a] != s[b]
  }

  lemma NoRepeatsConcat<T>(x: seq<T>, y: seq<T>)
    requires NoRepeats(x) && NoRepeats(y) && forall p :: p in x ==> p !in y
    ensures NoRepeats(x + y)
  {
    forall a, b | 0 <= a < b < |x + y| ensures (x + y)[a] != (x + y)[b] {
      if a < |x| && |x| <= b {
        assert (x + y)[a] in x && (x + y)[b] == y[b - |x|];
      }
    }
  }

  lemma MemberPairsDistinct(entry: (string, PathItem))
    requires UniqueKeys(entry.1.members)
    ensures NoRepeats(MemberPairs(entry))
  {
    var ps := MemberPairs(entry);
    forall a, b | 0 <= a < b < |ps| ensures ps[a] != ps[b] {
      assert ps[a].1 == entry.1.members[a].0 && ps[b].1 == entry.1.members[b].0;
    }
  }

  /** No pair of a later path has the first path's name. */
  lemma LaterPairsAvoidFirst(paths: Dict<PathItem>)
    requires |paths| > 0 && UniqueKeys(paths)
    ensures forall p :: p in Pairs(paths[1..]) ==> p.0 != paths[0].0
  {
    var later := paths[1..];
    forall p | p in Pairs(later) ensures p.0 != paths[0].0 {
      assert (p.0, p.1) in Pairs(later);
      var i, j :| 0 <= i < |later| && 0 <= j < |later[i].1.members|
        && p.0 == later[i].0 && p.1 == later[i].1.members[j].0;
      assert later[i] == paths[i + 1];
      assert paths[0].0 != paths[i + 1].0;
    }
  }

  /** Object keys are distinct, so every `[dir, method]` pair is visited once. */
  lemma {:induction false} PairsDistinct(paths: Dict<PathItem>)
    requires UniqueKeys(paths) && forall i :: 0 <= i < |paths| ==> UniqueKeys(paths[i].1.members)
    ensures NoRepeats(Pairs(paths))
    decreases |paths|
  {
    if |paths| > 0 {
      var here := MemberPairs(paths[0]);
      var rest := Pairs(paths[1..]);
      assert forall i :: 0 <= i < |paths[1..]| ==> paths[1..][i] == paths[i + 1];
      PairsDistinct(paths[1..]);
      assert Pairs(paths) == here + rest;
      MemberPairsDistinct(paths[0]);
      LaterPairsAvoidFirst(paths);
      NoRepeatsConcat(here, rest);
    }
  }

  /** The fetcher of one operation; `tail` supplies the runtime part. */
  function Fetcher(spec: Spec, t: Templates, dir: string, verb: string): Result<seq<string>> {
    GetOperationExecutorFunction(spec, dir, verb, t.tail)
  }

  /** What one recognised key produces from its operation, its fetcher and
      its component. A missing path item is the `TypeError` of
      `swagger.paths[dir][method]`, caught like any other failure. */
  function OutcomeOf(dir: string, verb: string, op: Result<Option<Operation>>, fetcher: Result<seq<string>>, component: seq<string>): (e: Event)
    ensures e.NotAnOperation? <==> op == Ok(None)
    ensures e.NotAnOperation? ==> e == NotAnOperation(dir, verb)
    ensures e.Yielded? <==> op.Ok? && op.value.Some? && fetcher.Ok?
    ensures e.Yielded? ==> e.opName == GetOperationName(op.value.value) && e.file == FileOf(fetcher.value, component)
    ensures e.Failed? ==> e.dir == dir && e.verb == verb
    ensures e.Failed? && op.Err? ==> e.error == op.error
    ensures e.Failed? && op.Ok? ==> fetcher.Err? && e.error == fetcher.error
  {
    match op
    case Err(err) => Failed(dir, verb, err)
    case Ok(None) => NotAnOperation(dir, verb)
    case Ok(Some(operation)) =>
      match fetcher
      case Err(err) => Failed(dir, verb, err)
      case Ok(lines) => Yielded(GetOperationName(operation), FileOf(lines, component))
  }

  function Outcome(spec: Spec, t: Templates, dir: string, verb: string): Event {
    OutcomeOf(dir, verb, OperationAt(spec, dir, verb), Fetcher(spec, t, dir, verb), t.component(spec, dir, verb))
  }

  /** `Outcome` of one spec, as the function the walk applies to each key. */
  function Outcomer(spec: Spec, t: Templates): (string, string) -> Event {
    (dir, verb) => Outcome(spec, t, dir, verb)
  }

  /** The walk itself over given outcomes: unrecognised keys are skipped, a
      falsy operation ends everything, anything else produces its outcome and
      the walk goes on. */
  function Walk(outcome: (string, string) -> Event, pairs: seq<(string, string)>): (es: seq<Event>)
    ensures forall i :: 0 <= i < |es| - 1 ==> !es[i].NotAnOperation?
    ensures |es| <= |pairs|
    decreases |pairs|
  {
    if |pairs| == 0 then []
    else if !Recognized(pairs[0].1) then Walk(outcome, pairs[1..])
    else
      var e := outcome(pairs[0].0, pairs[0].1);
      if e.NotAnOperation? then [e]
      else
        var rest := Walk(outcome, pairs[1..]);
        assert forall i :: 0 < i < |[e] + rest| ==> ([e] + rest)[i] == rest[i - 1];
        [e] + rest
  }

  /** `processSpec(swagger, signale)`, as the sequence of what it yields,
      reports and stops at. */
  function ProcessSpec(spec: Spec, t: Templates): (es: seq<Event>)
    ensures forall i :: 0 <= i < |es| - 1 ==> !es[i].NotAnOperation?
  {
    Walk(Outcomer(spec, t), Pairs(spec.paths))
  }

  /** `process.exitCode = 1` after any caught failure. */
  predicate ExitsWithFailure(es: seq<Event>) {
    exists i :: 0 <= i < |es| && es[i].Failed?
  }

  // ---------------------------------------------------------------- reference

  function RecognizedPairs(pairs: seq<(string, string)>): (r: seq<(string, string)>)
    ensures forall p :: p in r <==> p in pairs && Recognized(p.1)
    ensures |r| <= |pairs|
  {
    if |pairs| == 0 then []
    else
      RecognizedPairsCons(pairs);
      (if Recognized(pairs[0].1) then [pairs[0]] else []) + RecognizedPairs(pairs[1..])
  }

  lemma RecognizedPairsCons(pairs: seq<(string, string)>)
    requires |pairs| > 0
    ensures forall p :: p in pairs <==> p == pairs[0] || p in pairs[1..]
  {
    assert pairs == [pairs[0]] + pairs[1..];
  }

  function Outcomes(outcome: (string, string) -> Event, pairs: seq<(string, string)>): (es: seq<Event>)
    ensures |es| == |pairs| && forall i :: 0 <= i < |pairs| ==> es[i] == outcome(pairs[i].0, pairs[i].1)
  {
    seq(|pairs|, i requires 0 <= i < |pairs| => outcome(pairs[i].0, pairs[i].1))
  }

  /** The events up to and including the first `NotAnOperation`. */
  function UpToAbort(es: seq<Event>): (r: seq<Event>)
    ensures |r| <= |es| && r == es[..|r|]
    ensures (forall i :: 0 <= i < |es| ==> !es[i].NotAnOperation?) ==> r == es
  {
    if |es| == 0 then []
    else if es[0].NotAnOperation? then [es[0]]
    else
      var rest := UpToAbort(es[1..]);
      assert es == [es[0]] + es[1..];
      [es[0]] + rest
  }

  /** The cut falls right after the first `NotAnOperation`. */
  lemma {:induction false} UpToAbortAt(es: seq<Event>, k: nat)
    requires k < |es| && es[k].NotAnOperation? && forall i :: 0 <= i < k ==> !es[i].NotAnOperation?
    ensures UpToAbort(es) == es[..k + 1]
    decreases k
  {
    if k > 0 {
      assert !es[0].NotAnOperation?;
      UpToAbortAt(es[1..], k - 1);
      assert es[..k + 1] == [es[0]] + es[1..][..k];
    }
  }

  /** The interleaved walk equals the three-stage reading of the code: keep
      the recognised keys, compute each outcome, cut after the first falsy
      operation. */
  lemma {:induction false} WalkIsOutcomesUpToAbort(outcome: (string, string) -> Event, pairs: seq<(string, string)>)
    ensures Walk(outcome, pairs) == UpToAbort(Outcomes(outcome, RecognizedPairs(pairs)))
    decreases |pairs|
  {
    if |pairs| > 0 {
      WalkIsOutcomesUpToAbort(outcome, pairs[1..]);
      var rest := RecognizedPairs(pairs[1..]);
      if Recognized(pairs[0].1) {
        assert RecognizedPairs(pairs) == [pairs[0]] + rest;
        OutcomesCons(outcome, pairs[0], rest);
        UpToAbortCons(outcome(pairs[0].0, pairs[0].1), Outcomes(outcome, rest));
      } else {
        assert RecognizedPairs(pairs) == rest;
      }
    }
  }

  lemma OutcomesCons(outcome: (string, string) -> Event, p: (string, string), rest: seq<(string, string)>)
    ensures Outcomes(outcome, [p] + rest) == [outcome(p.0, p.1)] + Outcomes(outcome, rest)
  {
    var os := Outcomes(outcome, [p] + rest);
    forall i | 1 <= i < |os| ensures os[i] == Outcomes(outcome, rest)[i - 1] {
      assert ([p] + rest)[i] == rest[i - 1];
    }
  }

  lemma UpToAbortCons(e: Event, es: seq<Event>)
    ensures UpToAbort([e] + es) == if e.NotAnOperation? then [e] else [e] + UpToAbort(es)
  {
    assert ([e] + es)[0] == e && ([e] + es)[1..] == es;
  }

  /** Without an abort every recognised key produces exactly its outcome, in
      key order. */
  lemma NoAbortWalk(outcome: (string, string) -> Event, pairs: seq<(string, string)>)
    requires var rp := RecognizedPairs(pairs);
      forall i :: 0 <= i < |rp| ==> !outcome(rp[i].0, rp[i].1).NotAnOperation?
    ensures Walk(outcome, pairs) == Outcomes(outcome, RecognizedPairs(pairs))
  {
    WalkIsOutcomesUpToAbort(outcome, pairs);
  }

  /** Without a falsy operation every recognised key produces exactly one
      event, in key order: a failure does not stop the walk. */
  lemma OneEventPerOperation(spec: Spec, t: Templates)
    requires forall p :: p in Pairs(spec.paths) && Recognized(p.1) ==> OperationAt(spec, p.0, p.1) != Ok(None)
    ensures ProcessSpec(spec, t) == Outcomes(Outcomer(spec, t), RecognizedPairs(Pairs(spec.paths)))
  {
    var outcome := Outcomer(spec, t);
    var rp := RecognizedPairs(Pairs(spec.paths));
    forall i | 0 <= i < |rp| ensures !outcome(rp[i].0, rp[i].1).NotAnOperation? {
      assert rp[i] in rp;
      OutcomerAborts(spec, t, rp[i].0, rp[i].1);
    }
    NoAbortWalk(outcome, Pairs(spec.paths));
  }

  /** A falsy operation at a recognised key ends the walk: the keys after it
      produce nothing. */
  lemma AbortEndsWalk(outcome: (string, string) -> Event, pairs: seq<(string, string)>, k: nat)
    requires var rp := RecognizedPairs(pairs);
      k < |rp| && outcome(rp[k].0, rp[k].1).NotAnOperation?
      && forall i :: 0 <= i < k ==> !outcome(rp[i].0, rp[i].1).NotAnOperation?
    ensures var rp := RecognizedPairs(pairs);
      Walk(outcome, pairs) == Outcomes(outcome, rp[..k]) + [outcome(rp[k].0, rp[k].1)]
  {
    var rp := RecognizedPairs(pairs);
    WalkIsOutcomesUpToAbort(outcome, pairs);
    var os := Outcomes(outcome, rp);
    UpToAbortAt(os, k);
    var front := Outcomes(outcome, rp[..k]);
    forall i | 0 <= i < k ensures os[i] == front[i] {
      assert rp[..k][i] == rp[i];
    }
    assert os[..k + 1] == front + [os[k]];
  }

  /** Only a falsy operation stops the walk. */
  lemma OutcomeAborts(spec: Spec, t: Templates, dir: string, verb: string)
    ensures Outcome(spec, t, dir, verb).NotAnOperation? <==> OperationAt(spec, dir, verb) == Ok(None)
    ensures Outcome(spec, t, dir, verb).NotAnOperation? ==> Outcome(spec, t, dir, verb) == NotAnOperation(dir, verb)
  {
  }

  lemma OutcomerAborts(spec: Spec, t: Templates, dir: string, verb: string)
    ensures Outcomer(spec, t)(dir, verb).NotAnOperation? <==> OperationAt(spec, dir, verb) == Ok(None)
    ensures Outcomer(spec, t)(dir, verb).NotAnOperation? ==> Outcomer(spec, t)(dir, verb) == NotAnOperation(dir, verb)
  {
    OutcomeAborts(spec, t, dir, verb);
  }

  /** `processSpec` at the first recognised key whose operation is falsy: the
      outcomes before it, then the warning, then nothing. */
  lemma ProcessSpecAborts(spec: Spec, t: Templates, k: nat)
    requires var rp := RecognizedPairs(Pairs(spec.paths));
      k < |rp| && OperationAt(spec, rp[k].0, rp[k].1) == Ok(None)
      && forall i :: 0 <= i < k ==> OperationAt(spec, rp[i].0, rp[i].1) != Ok(None)
    ensures var rp := RecognizedPairs(Pairs(spec.paths));
      ProcessSpec(spec, t) == Outcomes(Outcomer(spec, t), rp[..k]) + [NotAnOperation(rp[k].0, rp[k].1)]
  {
    var outcome := Outcomer(spec, t);
    var rp := RecognizedPairs(Pairs(spec.paths));
    OutcomerAborts(spec, t, rp[k].0, rp[k].1);
    forall i | 0 <= i < k ensures !outcome(rp[i].0, rp[i].1).NotAnOperation? {
      OutcomerAborts(spec, t, rp[i].0, rp[i].1);
    }
    AbortEndsWalk(outcome, Pairs(spec.paths), k);
  }

  /** An outcome is a failure exactly when the path item is missing or the
      operation exists and its fetcher cannot be built. */
  lemma OutcomeFails(spec: Spec, t: Templates, dir: string, verb: string)
    ensures Outcomer(spec, t)(dir, verb).Failed? <==>
      OperationAt(spec, dir, verb).Err? || (OperationAt(spec, dir, verb).value.Some? && Fetcher(spec, t, dir, verb).Err?)
  {
    assert Outcomer(spec, t)(dir, verb) == Outcome(spec, t, dir, verb);
  }

  /** Without a falsy operation, `process.exitCode` becomes 1 exactly when some
      recognised key fails (`OutcomeFails` says when one does). */
  lemma ExitCodeWithoutAbort(spec: Spec, t: Templates)
    requires forall p :: p in Pairs(spec.paths) && Recognized(p.1) ==> OperationAt(spec, p.0, p.1) != Ok(None)
    ensures ExitsWithFailure(ProcessSpec(spec, t)) <==>
      exists p :: p in RecognizedPairs(Pairs(spec.paths)) && Outcomer(spec, t)(p.0, p.1).Failed?
  {
    var outcome := Outcomer(spec, t);
    var rp := RecognizedPairs(Pairs(spec.paths));
    forall i | 0 <= i < |rp| ensures !outcome(rp[i].0, rp[i].1).NotAnOperation? {
      assert rp[i] in rp;
      OutcomerAborts(spec, t, rp[i].0, rp[i].1);
    }
    WalkFailures(outcome, Pairs(spec.paths));
  }

  /** `ExitCodeWithoutAbort` for any outcomes. */
  lemma WalkFailures(outcome: (string, string) -> Event, pairs: seq<(string, string)>)
    requires var rp := RecognizedPairs(pairs);
      forall i :: 0 <= i < |rp| ==> !outcome(rp[i].0, rp[i].1).NotAnOperation?
    ensures ExitsWithFailure(Walk(outcome, pairs)) <==>
      exists p :: p in RecognizedPairs(pairs) && outcome(p.0, p.1).Failed?
  {
    var rp := RecognizedPairs(pairs);
    NoAbortWalk(outcome, pairs);
    var es := Walk(outcome, pairs);
    if ExitsWithFailure(es) {
      var i :| 0 <= i < |es| && es[i].Failed?;
      assert rp[i] in rp;
    }
    forall p | p in rp && outcome(p.0, p.1).Failed? ensures ExitsWithFailure(es) {
      var i :| 0 <= i < |rp| && rp[i] == p;
      assert es[i].Failed?;
    }
  }

  /** With a falsy operation at the `k`-th recognised key, only the keys before
      it can set the exit code; the warning itself does not. */
  lemma ExitCodeWithAbort(spec: Spec, t: Templates, k: nat)
    requires var rp := RecognizedPairs(Pairs(spec.paths));
      k < |rp| && OperationAt(spec, rp[k].0, rp[k].1) == Ok(None)
      && forall i :: 0 <= i < k ==> OperationAt(spec, rp[i].0, rp[i].1) != Ok(None)
    ensures var rp := RecognizedPairs(Pairs(spec.paths));
      ExitsWithFailure(ProcessSpec(spec, t)) <==> exists i :: 0 <= i < k && Outcomer(spec, t)(rp[i].0, rp[i].1).Failed?
  {
    var rp := RecognizedPairs(Pairs(spec.paths));
    ProcessSpecAborts(spec, t, k);
    AbortFailures(Outcomes(Outcomer(spec, t), rp[..k]), NotAnOperation(rp[k].0, rp[k].1));
    forall i | 0 <= i < k ensures Outcomes(Outcomer(spec, t), rp[..k])[i] == Outcomer(spec, t)(rp[i].0, rp[i].1) {
      assert rp[..k][i] == rp[i];
    }
  }

  lemma AbortFailures(front: seq<Event>, last: Event)
    requires last.NotAnOperation?
    ensures ExitsWithFailure(front + [last]) <==> ExitsWithFailure(front)
  {
    if ExitsWithFailure(front + [last]) {
      var i :| 0 <= i < |front + [last]| && (front + [last])[i].Failed?;
      assert i < |front| && front[i].Failed?;
    }
    if ExitsWithFailure(front) {
      var i :| 0 <= i < |front| && front[i].Failed?;
      assert (front + [last])[i].Failed?;
    }
  }

  /** Keys other than the six methods make no difference to the walk. */
  lemma UnrecognizedKeysIgnored(outcome: (string, string) -> Event, pairs: seq<(string, string)>)
    ensures Walk(outcome, pairs) == Walk(outcome, RecognizedPairs(pairs))
  {
    WalkIsOutcomesUpToAbort(outcome, pairs);
    WalkIsOutcomesUpToAbort(outcome, RecognizedPairs(pairs));
    RecognizedPairsIdempotent(pairs);
  }

  lemma {:induction false} RecognizedPairsIdempotent(pairs: seq<(string, string)>)
    ensures RecognizedPairs(RecognizedPairs(pairs)) == RecognizedPairs(pairs)
    decreases |pairs|
  {
    if |pairs| > 0 {
      RecognizedPairsIdempotent(pairs[1..]);
      var rest := RecognizedPairs(pairs[1..]);
      if Recognized(pairs[0].1) {
        var r := [pairs[0]] + rest;
        assert RecognizedPairs(pairs) == r;
        assert r[0] == pairs[0] && r[1..] == rest;
        assert RecognizedPairs(r) == [pairs[0]] + RecognizedPairs(rest);
      } else {
        assert RecognizedPairs(pairs) == rest;
      }
    }
  }
}

=== FILE: references.dfy ===
/** src/findSchemaReferences.ts: the `$ref` strings one schema node mentions. */
module References {
  import opened Results
  import opened Strings
  import opened Dicts
  import opened Swagger
  import opened Flattening

  /** Every `$ref` string anywhere inside a node, whichever members lead to it.
      The extraction below never reports anything outside this set. */
  ghost function SubRefs(n: Node): set<string> {
    match n
    case Schema(ref, _, _, items, props, _, sch) =>
      (if ref.Some? then {ref.value} else {})
      + (match items
         case NoItems => {}
         case One(item) => SubRefs(item)
         case Tuple(slots) => set i, x | 0 <= i < |slots| && x in SubRefs(slots[i]) :: x)
      + (match props
         case NoProperties => {}
         case Properties(ps) => set i, x | 0 <= i < |ps| && x in SubRefs(ps[i].1) :: x)
      + (if sch.Some? then SubRefs(sch.value) else {})
    case _ => {}
  }

  /** The references of every value of a dictionary. */
  ghost function DictRefs(d: Dict<Node>): set<string> {
    set i, x | 0 <= i < |d| && x in SubRefs(d[i].1) :: x
  }

  /** The message thrown on any failure, listing the path argument one accessor per line. */
  function RefsErrorMessage(path: seq<string>): string {
    "Error retrieving references from:\r\n" + Join("\r\n", seq(|path|, i requires 0 <= i < |path| => "\t" + path[i]))
  }

  /** The `catch` of one frame: any failure below is replaced by this frame's
      message; a success is flattened in order. */
  function Rethrow(r: Result<seq<seq<string>>>, path: seq<string>): (out: Result<seq<string>>)
    ensures r.Err? ==> out == Err(Thrown(RefsErrorMessage(path)))
    ensures r.Ok? ==> out == Ok(Flatten(r.value))
  {
    match r
    case Err(_) => Err(Thrown(RefsErrorMessage(path)))
    case Ok(vs) => Ok(Flatten(vs))
  }

  /** The `catch` of one frame around a single nested call. */
  function Rewrap(r: Result<seq<string>>, path: seq<string>): (out: Result<seq<string>>)
    ensures r.Err? ==> out == Err(Thrown(RefsErrorMessage(path)))
    ensures r.Ok? ==> out == r
  {
    if r.Err? then Err(Thrown(RefsErrorMessage(path))) else r
  }

  lemma FlattenWithin(vs: seq<seq<string>>, s: set<string>)
    requires forall i, x :: 0 <= i < |vs| && x in vs[i] ==> x in s
    ensures forall x :: x in Flatten(vs) ==> x in s
  {
    forall x | x in Flatten(vs) ensures x in s {
      FlattenMembership(vs, x);
    }
  }

  /** `findSchemaReferences(def, path)`. `type` is tested first: an object
      walks its properties in key order, an array its items; only then does a
      `schema` member (anything `typeof` calls an object, `null` included) and
      finally a string `$ref` count. A `null`, `undefined` or primitive node
      makes the `in` operator throw. */
  function FindSchemaReferences(def: Node, path: seq<string>): (r: Result<seq<string>>)
    ensures r.Err? ==> r.error == Thrown(RefsErrorMessage(path))
    ensures r.Ok? ==> forall x :: x in r.value ==> x in SubRefs(def)
    ensures !def.Schema? ==> r.Err?
    ensures def.Schema? && def.typ == Some("object") && def.properties.NoProperties? ==> r == Ok([])
    ensures def.Schema? && def.typ == Some("array") && def.items.NoItems? ==> r == Ok([])
    ensures def.Schema? && def.typ !in {Some("object"), Some("array")} && def.schema.None? ==>
      r == Ok(if def.ref.Some? then [def.ref.value] else [])
    decreases def
  {
    match def
    case Schema(ref, typ, _, items, props, _, sch) =>
      if typ == Some("object") then
        match props
        case NoProperties => Ok([])
        case Properties(ps) =>
          var rs := seq(|ps|, i requires 0 <= i < |ps| => FindSchemaReferences(ps[i].1, path + ["." + ps[i].0]));
          var out := Rethrow(AllOk(rs), path);
          assert out.Ok? ==> forall x :: x in out.value ==> x in SubRefs(def) by {
            if out.Ok? {
              var vs := AllOk(rs).value;
              forall i, x | 0 <= i < |vs| && x in vs[i] ensures x in SubRefs(def) {
                assert x in SubRefs(ps[i].1);
              }
              FlattenWithin(vs, SubRefs(def));
            }
          }
          out
      else if typ == Some("array") then
        match items
        case NoItems => Ok([])
        case One(item) =>
          if Nullish(item) then Ok([])
          else Rewrap(FindSchemaReferences(item, path + ["[]"]), path)
        case Tuple(slots) =>
          var rs := seq(|slots|, i requires 0 <= i < |slots| => FindSchemaReferences(slots[i], path + ["[" + NatToString(i) + "]"]));
          var out := Rethrow(AllOk(rs), path);
          assert out.Ok? ==> forall x :: x in out.value ==> x in SubRefs(def) by {
            if out.Ok? {
              var vs := AllOk(rs).value;
              forall i, x | 0 <= i < |vs| && x in vs[i] ensures x in SubRefs(def) {
                assert x in SubRefs(slots[i]);
              }
              FlattenWithin(vs, SubRefs(def));
            }
          }
          out
      else if sch.Some? && (sch.value.Null? || sch.value.Schema?) then
        Rewrap(FindSchemaReferences(sch.value, path + ["[schema]"]), path)
      else if ref.Some? then Ok([ref.value])
      else Ok([])
    case _ => Err(Thrown(RefsErrorMessage(path)))
  }

  /** An object with properties: the extraction succeeds exactly when every
      property's does, and then yields their references one property after
      the other, in key order, duplicates kept. */
  lemma ObjectReferences(def: Node, path: seq<string>)
    requires def.Schema? && def.typ == Some("object") && def.properties.Properties?
    ensures var ps := def.properties.entries;
      FindSchemaReferences(def, path).Ok? <==>
        forall i :: 0 <= i < |ps| ==> FindSchemaReferences(ps[i].1, path + ["." + ps[i].0]).Ok?
    ensures var ps := def.properties.entries;
      FindSchemaReferences(def, path).Ok? ==>
        exists vs: seq<seq<string>> :: (|vs| == |ps|
          && (forall i :: 0 <= i < |ps| ==> FindSchemaReferences(ps[i].1, path + ["." + ps[i].0]) == Ok(vs[i]))
          && FindSchemaReferences(def, path).value == Flatten(vs))
  {
    var ps := def.properties.entries;
    var rs := seq(|ps|, i requires 0 <= i < |ps| => FindSchemaReferences(ps[i].1, path + ["." + ps[i].0]));
    assert FindSchemaReferences(def, path) == Rethrow(AllOk(rs), path);
    if AllOk(rs).Ok? {
      var vs := AllOk(rs).value;
      assert forall i :: 0 <= i < |ps| ==> FindSchemaReferences(ps[i].1, path + ["." + ps[i].0]) == Ok(vs[i]);
    }
  }

  /** A tuple array: likewise over its slots, in order, each slot labelled
      with its index. */
  lemma TupleReferences(def: Node, path: seq<string>)
    requires def.Schema? && def.typ == Some("array") && def.items.Tuple?
    ensures var ss := def.items.slots;
      FindSchemaReferences(def, path).Ok? <==>
        forall i :: 0 <= i < |ss| ==> FindSchemaReferences(ss[i], path + ["[" + NatToString(i) + "]"]).Ok?
    ensures var ss := def.items.slots;
      FindSchemaReferences(def, path).Ok? ==>
        exists vs: seq<seq<string>> :: (|vs| == |ss|
          && (forall i :: 0 <= i < |ss| ==> FindSchemaReferences(ss[i], path + ["[" + NatToString(i) + "]"]) == Ok(vs[i]))
          && FindSchemaReferences(def, path).value == Flatten(vs))
  {
    var ss := def.items.slots;
    var rs := seq(|ss|, i requires 0 <= i < |ss| => FindSchemaReferences(ss[i], path + ["[" + NatToString(i) + "]"]));
    assert FindSchemaReferences(def, path) == Rethrow(AllOk(rs), path);
    if AllOk(rs).Ok? {
      var vs := AllOk(rs).value;
      assert forall i :: 0 <= i < |ss| ==> FindSchemaReferences(ss[i], path + ["[" + NatToString(i) + "]"]) == Ok(vs[i]);
    }
  }

  /** An array with a single `items` schema: a falsy one yields nothing;
      otherwise the extraction is the item's, under the label `[]`, with any
      failure rethrown at this level. */
  lemma SingleItemReferences(def: Node, path: seq<string>)
    requires def.Schema? && def.typ == Some("array") && def.items.One?
    ensures Nullish(def.items.item) ==> FindSchemaReferences(def, path) == Ok([])
    ensures !Nullish(def.items.item) ==>
      (FindSchemaReferences(def, path).Ok? <==> FindSchemaReferences(def.items.item, path + ["[]"]).Ok?)
    ensures !Nullish(def.items.item) && FindSchemaReferences(def, path).Ok? ==>
      FindSchemaReferences(def, path) == FindSchemaReferences(def.items.item, path + ["[]"])
  {
  }

  /** Outside objects and arrays a `schema` object is followed and `$ref` is
      ignored: the node yields exactly the inner schema's references. */
  lemma SchemaBeforeRef(def: Node, path: seq<string>)
    requires def.Schema? && def.typ != Some("object") && def.typ != Some("array")
    requires def.schema.Some? && def.schema.value.Schema?
    ensures FindSchemaReferences(def, path) == FindSchemaReferences(def.(ref := None), path)
    ensures FindSchemaReferences(def, path).Ok? <==> FindSchemaReferences(def.schema.value, path + ["[schema]"]).Ok?
    ensures FindSchemaReferences(def, path).Ok? ==>
      FindSchemaReferences(def, path) == FindSchemaReferences(def.schema.value, path + ["[schema]"])
  {
  }
}

=== FILE: results.dfy ===
/** Failure-compatible result and option types shared by every module.

    The generator signals failure by throwing. `Error` keeps the two kinds of
    throw the model needs to tell apart: an object or `Error` built by the
    generator itself, which carries a message, and a `TypeError` raised by the
    JavaScript engine (a property read or an `in` test on `null` or
    `undefined`), whose wording is the engine's and is not modelled. */
module Results {

  datatype Option<+T> = None | Some(value: T) {
    function GetOr(default: T): T {
      match this
      case Some(v) => v
      case None => default
    }
  }

  datatype Error = TypeError | Thrown(message: string)

  /** The `message` property a `catch` block reads from an error. */
  function Message(e: Error): string {
    match e
    case Thrown(m) => m
    case TypeError => ""
  }

  datatype Result<+T> = Ok(value: T) | Err(error: Error) {
    predicate IsFailure() {
      Err?
    }

    function PropagateFailure<U>(): Result<U>
      requires Err?
    {
      Err(error)
    }

    function Extract(): T
      requires Ok?
    {
      value
    }
  }

  /** Runs a sequence of computations in order, as a JavaScript `map` does:
      the first failure is the one that escapes, otherwise every value is kept. */
  function AllOk<T>(rs: seq<Result<T>>): (r: Result<seq<T>>)
    ensures r.Ok? <==> forall i :: 0 <= i < |rs| ==> rs[i].Ok?
    ensures r.Ok? ==> |r.value| == |rs| && forall i :: 0 <= i < |rs| ==> r.value[i] == rs[i].value
    ensures r.Err? ==> exists i :: 0 <= i < |rs| && rs[i] == Err(r.error) && forall j :: 0 <= j < i ==> rs[j].Ok?
  {
    if |rs| == 0 then Ok([])
    else if rs[0].Err? then Err(rs[0].error)
    else
      match AllOk(rs[1..])
      case Err(e) =>
        assert rs[1..][0] == rs[1];
        ghost var k :| 0 <= k < |rs[1..]| && rs[1..][k] == Err(e) && forall j :: 0 <= j < k ==> rs[1..][j].Ok?;
        assert rs[k + 1] == Err(e);
        Err(e)
      case Ok(vs) => Ok([rs[0].value] + vs)
  }
}

=== FILE: strings.dfy ===
/** ASCII string helpers standing in for the JavaScript string methods the
    generator calls: `trim`, `toUpperCase`/`toLowerCase` of one character,
    `split`, `join`, `indexOf`, `parseInt` and number-to-string conversion.
    Only the ASCII whitespace and letter sets are modelled. */
module Strings {

  /** The ASCII members of the whitespace set of `String.prototype.trim` and of `\s`. */
  predicate IsSpace(c: char) {
    c == ' ' || c == '\t' || c == '\n' || c == '\r' || c == '\U{B}' || c == '\U{C}'
  }

  predicate AllSpace(s: string) {
    forall i :: 0 <= i < |s| ==> IsSpace(s[i])
  }

  predicate IsUpper(c: char) { 'A' <= c <= 'Z' }

  predicate IsLower(c: char) { 'a' <= c <= 'z' }

  predicate IsDigit(c: char) { '0' <= c <= '9' }

  function ToUpper(c: char): (r: char)
    ensures IsLower(c) ==> IsUpper(r)
    ensures !IsLower(c) ==> r == c
  {
    if IsLower(c) then (c as int - 32) as char else c
  }

  function ToLower(c: char): (r: char)
    ensures IsUpper(c) ==> IsLower(r)
    ensures !IsUpper(c) ==> r == c
  {
    if IsUpper(c) then (c as int + 32) as char else c
  }

  /** The number of whitespace characters `s` starts with. */
  function LeadingSpace(s: string): (n: nat)
    ensures n <= |s| && AllSpace(s[..n])
    ensures n < |s| ==> !IsSpace(s[n])
  {
    if |s| > 0 && IsSpace(s[0]) then
      var m := LeadingSpace(s[1..]);
      assert s[..m + 1] == [s[0]] + s[1..][..m];
      m + 1
    else 0
  }

  /** The number of whitespace characters `s` ends with. */
  function TrailingSpace(s: string): (n: nat)
    ensures n <= |s| && AllSpace(s[|s| - n..])
    ensures n < |s| ==> !IsSpace(s[|s| - n - 1])
  {
    if |s| > 0 && IsSpace(s[|s| - 1]) then
      var p := s[..|s| - 1];
      var m := TrailingSpace(p);
      TrailingSpaceSnoc(s, p, m);
      m + 1
    else 0
  }

  /** One more trailing space: a whitespace run at the end of `s` minus its
      last character, followed by that character when it is whitespace. */
  lemma TrailingSpaceSnoc(s: string, p: string, m: nat)
    requires |s| > 0 && p == s[..|s| - 1] && IsSpace(s[|s| - 1])
    requires m <= |p| && AllSpace(p[|p| - m..])
    requires m < |p| ==> !IsSpace(p[|p| - m - 1])
    ensures AllSpace(s[|s| - (m + 1)..])
    ensures m + 1 < |s| ==> !IsSpace(s[|s| - (m + 1) - 1])
  {
    assert s[|s| - (m + 1)..] == p[|p| - m..] + [s[|s| - 1]];
  }

  lemma AllSpaceConcat(a: string, b: string)
    requires AllSpace(a) && AllSpace(b)
    ensures AllSpace(a + b)
  {
  }

  /** `String.prototype.trim` over ASCII whitespace: `s` is `r` preceded by
      whitespace only and followed by whitespace only, and `r` neither starts
      nor ends with whitespace. */
  function Trim(s: string): (r: string)
    ensures var k := LeadingSpace(s);
      k + |r| <= |s| && r == s[k..k + |r|] && AllSpace(s[..k]) && AllSpace(s[k + |r|..])
    ensures |r| > 0 ==> !IsSpace(r[0]) && !IsSpace(r[|r| - 1])
    ensures AllSpace(s) <==> r == []
  {
    var k := LeadingSpace(s);
    var n := TrailingSpace(s[k..]);
    TrimCut(s, k, n);
    s[k..][..|s[k..]| - n]
  }

  /** The cut `Trim` makes, on plain indices. */
  lemma TrimCut(s: string, k: nat, n: nat)
    requires k <= |s| && AllSpace(s[..k]) && (k < |s| ==> !IsSpace(s[k]))
    requires n <= |s| - k && AllSpace(s[|s| - n..]) && (n < |s| - k ==> !IsSpace(s[|s| - n - 1]))
    ensures var r := s[k..][..|s[k..]| - n];
      k + |r| <= |s| && r == s[k..k + |r|] && AllSpace(s[..k]) && AllSpace(s[k + |r|..])
      && (|r| > 0 ==> !IsSpace(r[0]) && !IsSpace(r[|r| - 1]))
      && (AllSpace(s) <==> r == [])
  {
    var t := s[k..];
    var r := t[..|t| - n];
    assert r == s[k..k + |r|];
    assert s[k + |r|..] == s[|s| - n..];
    if r == [] {
      assert s == s[..k] + s[|s| - n..];
      AllSpaceConcat(s[..k], s[|s| - n..]);
    } else {
      assert r[0] == s[k];
      assert r[|r| - 1] == s[|s| - n - 1];
    }
  }

  /** Trimming a string that neither starts nor ends with whitespace leaves it unchanged. */
  lemma TrimOfTrimmed(s: string)
    requires |s| > 0 ==> !IsSpace(s[0]) && !IsSpace(s[|s| - 1])
    ensures Trim(s) == s
  {
    assert LeadingSpace(s) == 0;
    assert TrailingSpace(s) == 0;
    assert s[0..] == s;
  }

  lemma EmptyConcat(a: string, b: string)
    ensures "" + a + b == a + b
  {
    assert "" + a == a;
  }

  lemma TailConcat(a: string, b: string)
    requires |a| > 0
    ensures (a + b)[1..] == a[1..] + b
  {
  }

  /** `parts.join(sep)`. */
  function Join(sep: string, parts: seq<string>): (r: string)
    ensures |parts| == 0 ==> r == []
    ensures |parts| == 1 ==> r == parts[0]
  {
    if |parts| == 0 then []
    else if |parts| == 1 then parts[0]
    else parts[0] + sep + Join(sep, parts[1..])
  }

  lemma JoinCons(sep: string, p: string, parts: seq<string>)
    requires |parts| > 0
    ensures Join(sep, [p] + parts) == p + sep + Join(sep, parts)
  {
    assert ([p] + parts)[1..] == parts;
  }

  /** Every part shows up in the joined string. */
  lemma {:induction false} JoinOccurs(sep: string, parts: seq<string>, i: nat) returns (j: nat)
    requires i < |parts|
    ensures OccursAt(Join(sep, parts), parts[i], j)
    decreases |parts|
  {
    var s := Join(sep, parts);
    if |parts| == 1 {
      j := 0;
      assert s[..|parts[0]|] == parts[0];
    } else if i == 0 {
      j := 0;
      assert s[..|parts[0]|] == parts[0];
    } else {
      var k := JoinOccurs(sep, parts[1..], i - 1);
      var rest := Join(sep, parts[1..]);
      assert s == parts[0] + sep + rest;
      j := |parts[0] + sep| + k;
      assert s[j..j + |parts[i]|] == rest[k..k + |parts[i]|];
    }
  }

  /** `s.split(sep)` for a one-character separator: joining the pieces back with
      the separator gives `s` again, and no piece contains the separator. */
  function Split(s: string, sep: char): (r: seq<string>)
    ensures |r| >= 1
    ensures Join([sep], r) == s
    ensures forall i :: 0 <= i < |r| ==> sep !in r[i]
  {
    if |s| == 0 then [""]
    else
      var rest := Split(s[1..], sep);
      if s[0] == sep then
        JoinCons([sep], "", rest);
        [""] + rest
      else
        var r := [[s[0]] + rest[0]] + rest[1..];
        assert Join([sep], r) == s by {
          if |rest| > 1 {
            JoinCons([sep], [s[0]] + rest[0], rest[1..]);
            JoinCons([sep], rest[0], rest[1..]);
            assert [rest[0]] + rest[1..] == rest;
          }
        }
        assert forall i :: 1 <= i < |r| ==> r[i] == rest[i];
        r
  }

  /** The pieces of a split are determined by the string: any separator-free
      pieces that join to `s` are exactly `Split(s, sep)`. */
  lemma {:induction false} SplitUnique(s: string, sep: char, parts: seq<string>)
    requires |parts| >= 1
    requires forall i :: 0 <= i < |parts| ==> sep !in parts[i]
    requires Join([sep], parts) == s
    ensures Split(s, sep) == parts
    decreases |s|
  {
    if |parts[0]| > 0 {
      var p0 := parts[0];
      var parts' := [p0[1..]] + parts[1..];
      assert parts'[0] == p0[1..];
      assert forall i :: 1 <= i < |parts'| ==> parts'[i] == parts[i];
      if |parts| == 1 {
        assert s == p0;
      } else {
        JoinCons([sep], p0, parts[1..]);
        JoinCons([sep], p0[1..], parts[1..]);
        assert [p0] + parts[1..] == parts;
      }
      assert Join([sep], parts') == s[1..];
      assert s[0] == p0[0];
      assert p0[0] != sep by { assert p0[0] in p0; }
      SplitUnique(s[1..], sep, parts');
      assert [s[0]] + parts'[0] == p0;
      assert parts'[1..] == parts[1..];
      assert [[s[0]] + parts'[0]] + parts'[1..] == parts;
    } else if |parts| == 1 {
      assert s == "";
    } else {
      JoinCons([sep], "", parts[1..]);
      assert [""] + parts[1..] == parts;
      assert s == [sep] + Join([sep], parts[1..]);
      assert s[1..] == Join([sep], parts[1..]);
      SplitUnique(s[1..], sep, parts[1..]);
    }
  }

  /** `s.indexOf(sub) >= 0`. */
  predicate Contains(s: string, sub: string) {
    exists i | 0 <= i <= |s| - |sub| :: OccursAt(s, sub, i)
  }

  predicate OccursAt(s: string, sub: string, i: nat) {
    i + |sub| <= |s| && s[i..i + |sub|] == sub
  }

  /** An occurrence inside the middle part of a concatenation. */
  lemma OccursInside(a: string, b: string, c: string, x: string, i: nat)
    requires OccursAt(b, x, i)
    ensures OccursAt(a + b + c, x, |a| + i)
  {
    assert (a + b + c)[|a| + i..|a| + i + |x|] == b[i..i + |x|];
  }

  predicate EndsWith(s: string, t: string) {
    |t| <= |s| && s[|s| - |t|..] == t
  }

  lemma EndsWithLast(s: string, t: string)
    ensures EndsWith(s + t, t)
  {
    assert (s + t)[|s|..] == t;
  }

  /** The last part of a concatenation occurs where it starts. */
  lemma OccursEnd(a: string, x: string)
    ensures OccursAt(a + x, x, |a|)
  {
    assert (a + x)[|a|..|a| + |x|] == x;
  }

  /** An occurrence survives appending. */
  lemma OccursExtend(a: string, c: string, x: string, i: nat)
    requires OccursAt(a, x, i)
    ensures OccursAt(a + c, x, i)
  {
    assert (a + c)[i..i + |x|] == a[i..i + |x|];
  }

  /** An occurrence of `x + y` is one of `x`. */
  lemma OccursFront(s: string, x: string, y: string, i: nat)
    requires OccursAt(s, x + y, i)
    ensures OccursAt(s, x, i)
  {
    assert s[i..i + |x|] == s[i..i + |x + y|][..|x|];
  }

  function DigitChar(d: nat): (c: char)
    requires d < 10
    ensures IsDigit(c)
  {
    ('0' as int + d) as char
  }

  function DigitValue(c: char): (d: nat)
    requires IsDigit(c)
    ensures d < 10 && DigitChar(d) == c
  {
    c as int - '0' as int
  }

  predicate AllDigits(s: string) {
    forall i :: 0 <= i < |s| ==> IsDigit(s[i])
  }

  /** The value of a string of decimal digits. */
  function DigitsValue(s: string): nat
    requires AllDigits(s)
  {
    if |s| == 0 then 0 else DigitsValue(s[..|s| - 1]) * 10 + DigitValue(s[|s| - 1])
  }

  /** The canonical decimal spelling a JavaScript number's `toString` gives for a
      non-negative integer: digits only, no leading zero, and it reads back as `n`. */
  function NatToString(n: nat): (r: string)
    ensures |r| >= 1 && AllDigits(r)
    ensures r[0] == '0' ==> n == 0
    ensures DigitsValue(r) == n
  {
    if n < 10 then [DigitChar(n)]
    else
      var r := NatToString(n / 10) + [DigitChar(n % 10)];
      assert r[..|r| - 1] == NatToString(n / 10);
      r
  }

  /** A canonical numeral (no leading zero unless it is "0") is spelled back verbatim. */
  lemma {:induction false} NatToStringOfDigits(s: string)
    requires |s| >= 1 && AllDigits(s)
    requires s[0] == '0' ==> |s| == 1
    ensures NatToString(DigitsValue(s)) == s
    decreases |s|
  {
    if |s| > 1 {
      var p := s[..|s| - 1];
      assert p[0] == s[0];
      NatToStringOfDigits(p);
      DigitsValuePositive(p);
    }
  }

  lemma {:induction false} DigitsValuePositive(s: string)
    requires |s| >= 1 && AllDigits(s) && s[0] != '0'
    ensures DigitsValue(s) >= 1
    decreases |s|
  {
    if |s| > 1 {
      var p := s[..|s| - 1];
      assert p[0] == s[0];
      DigitsValuePositive(p);
    }
  }

  function IntToString(n: int): (r: string)
    ensures n >= 0 ==> r == NatToString(n)
    ensures n < 0 ==> r == "-" + NatToString(-n)
  {
    if n >= 0 then NatToString(n) else "-" + NatToString(-n)
  }

  /** The longest prefix of `s` made of decimal digits. */
  function LeadingDigits(s: string): (r: string)
    ensures |r| <= |s| && r == s[..|r|] && AllDigits(r)
    ensures |r| < |s| ==> !IsDigit(s[|r|])
  {
    if |s| > 0 && IsDigit(s[0]) then [s[0]] + LeadingDigits(s[1..]) else []
  }
}

=== FILE: swagger.dfy ===
/** The Swagger 2.0 document as the generator reads it.

    A schema node is a record of optional members rather than a closed
    variant, because the two traversals of a node test its members in
    different orders. `None` in an optional member stands for a member that is
    absent (or `null`, where the code only tests truthiness). */
module Swagger {
  import opened Results
  import opened Dicts

  /** A value listed in an `enum`. Only integral numbers are modelled. */
  datatype Literal = LStr(s: string) | LNum(n: int) | LBool(b: bool) | LNull

  /** The `items` member: absent or falsy, one schema, or a positional tuple (an array). */
  datatype Items = NoItems | One(item: Node) | Tuple(slots: seq<Node>)

  /** The `properties` member: absent (or falsy), or an object of named schemas. */
  datatype Properties = NoProperties | Properties(entries: Dict<Node>)

  /** A value found where a schema is expected.
      - `Undefined`: JavaScript `undefined`, produced by a pointer that ends at a missing member;
      - `Null`: JSON `null`;
      - `Scalar`: a truthy string, number or boolean;
      - `Schema`: a JSON object (an array behaves as an object with none of these members). */
  datatype Node =
    | Undefined
    | Null
    | Scalar
    | Schema(
        ref: Option<string>,
        typ: Option<string>,
        enum: Option<seq<Literal>>,
        items: Items,
        properties: Properties,
        required: Option<seq<string>>,
        schema: Option<Node>)

  /** A JSON object with none of the schema members. */
  const EmptyObject: Node := Schema(None, None, None, NoItems, NoProperties, None, None)

  /** `{ type: t }`. */
  function TypeOnly(t: string): Node {
    Schema(None, Some(t), None, NoItems, NoProperties, None, None)
  }

  /** `x == null` in JavaScript. */
  predicate Nullish(n: Node) {
    n.Undefined? || n.Null?
  }

  /** A Parameter Object of section "Parameter Object" of OpenAPI 2.0. `loc` is
      its `in` member; `required` is false when absent. */
  datatype Param = Param(
    name: string,
    loc: string,
    required: bool,
    typ: Option<string>,
    items: Items,
    enum: Option<seq<Literal>>,
    schema: Option<Node>)

  /** A Security Scheme Object: `typ` is its `type` ("apiKey", "basic", "oauth2"),
      `loc` and `name` are meaningful for API keys. */
  datatype SecurityScheme = SecurityScheme(typ: string, loc: string, name: string)

  /** A Security Requirement Object: scheme names mapped to scopes. */
  type Requirement = Dict<seq<string>>

  datatype Response = Response(schema: Option<Node>, description: Option<string>)

  datatype Operation = Operation(
    operationId: Option<string>,
    description: Option<string>,
    parameters: Option<seq<Param>>,
    responses: Option<Dict<Response>>,
    security: Option<seq<Requirement>>,
    consumes: Option<seq<string>>,
    produces: Option<seq<string>>)

  /** A Path Item Object: its shared `parameters`, and every other member in
      key order, an operation or `None` for a falsy value such as `null`. */
  datatype PathItem = PathItem(parameters: Option<seq<Param>>, members: Dict<Option<Operation>>)

  datatype Spec = Spec(
    paths: Dict<PathItem>,
    definitions: Option<Dict<Node>>,
    host: Option<string>,
    basePath: Option<string>,
    security: Option<seq<Requirement>>,
    securityDefinitions: Option<Dict<SecurityScheme>>)

  /** `swagger.paths[dir][method]`: reading a member of a missing path item is
      a `TypeError`; a missing or falsy member is `None`. */
  function OperationAt(spec: Spec, dir: string, verb: string): (r: Result<Option<Operation>>)
    ensures r.Err? <==> dir !in Keys(spec.paths)
    ensures r.Ok? && r.value.Some? ==> Lookup(Lookup(spec.paths, dir).value.members, verb) == Some(r.value)
  {
    match Lookup(spec.paths, dir)
    case None => Err(TypeError)
    case Some(item) =>
      match Lookup(item.members, verb)
      case None => Ok(None)
      case Some(op) => Ok(op)
  }

  /** A JavaScript string is truthy when it is not empty. */
  predicate Truthy(s: Option<string>) {
    s.Some? && s.value != ""
  }
}

=== FILE: typescript.dfy ===
/** src/swaggerSchemaToTypeScript.ts and src/swaggerSchemaDictToTypeScript.ts:
    rendering schema nodes as TypeScript type expressions and a dictionary of
    them as exported declarations. The text, line breaks and indentation of
    the templates are reproduced as written. */
module TypeScript {
  import opened Results
  import opened Strings
  import opened Dicts
  import opened Swagger
  import Gather

  const DefsPrefix: string := "#/definitions/"

  /** The regular expression `#\/definitions\/([^/]+)` matches at `i`. */
  predicate MatchAt(s: string, i: int) {
    0 <= i && i + |DefsPrefix| < |s| && s[i..i + |DefsPrefix|] == DefsPrefix && s[i + |DefsPrefix|] != '/'
  }

  /** The leftmost match at or after `from`. */
  function FirstMatch(s: string, from: nat): (r: Option<nat>)
    requires from <= |s|
    ensures r.Some? ==> from <= r.value && MatchAt(s, r.value) && forall j :: from <= j < r.value ==> !MatchAt(s, j)
    ensures r.None? ==> forall j :: from <= j ==> !MatchAt(s, j)
    decreases |s| - from
  {
    if from == |s| then None
    else if MatchAt(s, from) then Some(from)
    else FirstMatch(s, from + 1)
  }

  /** The end of the run of non-`/` characters starting at `j` (the greedy `[^/]+`). */
  function RunEnd(s: string, j: nat): (e: nat)
    requires j <= |s|
    ensures j <= e <= |s|
    ensures forall k :: j <= k < e ==> s[k] != '/'
    ensures e == |s| || s[e] == '/'
    decreases |s| - j
  {
    if j == |s| || s[j] == '/' then j else RunEnd(s, j + 1)
  }

  /** The capture group of `/#\/definitions\/([^/]+)/.exec(ref)`: the
      non-empty, `/`-free run after the leftmost `#/definitions/` that is
      followed by such a run. */
  function RefTypeName(ref: string): (r: Option<string>)
    ensures r.None? <==> forall i :: !MatchAt(ref, i)
    ensures r.Some? ==> |r.value| > 0 && forall k :: 0 <= k < |r.value| ==> r.value[k] != '/'
    ensures r.Some? ==> exists i :: (MatchAt(ref, i) && (forall j :: 0 <= j < i ==> !MatchAt(ref, j))
      && i + |DefsPrefix| + |r.value| <= |ref|
      && ref[i + |DefsPrefix|..i + |DefsPrefix| + |r.value|] == r.value
      && (i + |DefsPrefix| + |r.value| == |ref| || ref[i + |DefsPrefix| + |r.value|] == '/'))
  {
    match FirstMatch(ref, 0)
    case None => None
    case Some(i) =>
      var start := i + |DefsPrefix|;
      var name := ref[start..RunEnd(ref, start)];
      assert forall k :: 0 <= k < |name| ==> name[k] == ref[start + k];
      Some(name)
  }

  /** `#/definitions/<name>` yields `name` when it is non-empty and `/`-free. */
  lemma RefTypeNameOfDefinitionRef(name: string)
    requires name != "" && '/' !in name
    ensures RefTypeName(Gather.DefinitionRef(name)) == Some(name)
  {
    var ref := Gather.DefinitionRef(name);
    assert ref[..|DefsPrefix|] == DefsPrefix;
    assert ref[|DefsPrefix|] == name[0];
    assert MatchAt(ref, 0);
    assert FirstMatch(ref, 0) == Some(0);
    assert forall k :: |DefsPrefix| <= k < |ref| ==> ref[k] == name[k - |DefsPrefix|];
    assert forall k :: |DefsPrefix| <= k < |ref| ==> ref[k] != '/' by {
      forall k | |DefsPrefix| <= k < |ref| ensures ref[k] != '/' {
        assert ref[k] == name[k - |DefsPrefix|];
        assert name[k - |DefsPrefix|] in name;
      }
    }
    RunEndToEnd(ref, |DefsPrefix|);
    assert ref[|DefsPrefix|..|ref|] == name;
    assert RefTypeName(ref) == Some(ref[|DefsPrefix|..|ref|]);
  }

  lemma {:induction false} RunEndToEnd(s: string, j: nat)
    requires j <= |s| && forall k :: j <= k < |s| ==> s[k] != '/'
    ensures RunEnd(s, j) == |s|
    decreases |s| - j
  {
    if j < |s| {
      RunEndToEnd(s, j + 1);
    }
  }

  /** `JSON.stringify` of an enum value; escaping inside strings is not modelled. */
  function LiteralJson(l: Literal): (r: string)
    ensures |r| > 0
  {
    match l
    case LStr(s) => "\"" + s + "\""
    case LNum(n) => IntToString(n)
    case LBool(b) => if b then "true" else "false"
    case LNull => "null"
  }

  /** How every JSON rendering of an enum begins: a quote, a sign, a digit,
      `t`, `f`, or the whole word `null`. */
  predicate EnumLike(r: string) {
    |r| > 0 && (r[0] in {'"', '-', 't', 'f'} || IsDigit(r[0]) || (|r| >= 4 && r[..4] == "null"))
  }

  lemma LiteralJsonEnumLike(l: Literal)
    ensures EnumLike(LiteralJson(l))
  {
    if l.LNum? {
      var n := l.n;
      if n >= 0 {
        assert IsDigit(NatToString(n)[0]);
      } else {
        assert LiteralJson(l)[0] == '-';
      }
    }
  }

  lemma {:induction false} JoinPrefix(sep: string, parts: seq<string>)
    requires |parts| > 0
    ensures |parts[0]| <= |Join(sep, parts)| && Join(sep, parts)[..|parts[0]|] == parts[0]
  {
    if |parts| > 1 {
      assert Join(sep, parts) == parts[0] + (sep + Join(sep, parts[1..]));
    }
  }

  /** `def.enum.map(v => JSON.stringify(v)).join(' | ')`. */
  function EnumType(values: seq<Literal>): (r: string)
    ensures |values| == 0 <==> r == ""
    ensures |values| > 0 ==> EnumLike(r)
  {
    var parts := seq(|values|, i requires 0 <= i < |values| => LiteralJson(values[i]));
    if |values| > 0 then
      JoinPrefix(" | ", parts);
      LiteralJsonEnumLike(values[0]);
      assert Join(" | ", parts)[..|parts[0]|] == parts[0];
      assert parts[0][..1] == Join(" | ", parts)[..1];
      assert |parts[0]| >= 4 ==> parts[0][..4] == Join(" | ", parts)[..4];
      Join(" | ", parts)
    else
      Join(" | ", parts)
  }

  /** The tuple slots, each prefixed "| " when there are at least two. */
  function TupleSlots(ts: seq<string>): (r: seq<string>)
    ensures |r| == |ts|
    ensures forall i :: 0 <= i < |ts| ==> r[i] == (if |ts| > 1 then "| " + ts[i] else ts[i])
  {
    seq(|ts|, i requires 0 <= i < |ts| => if |ts| > 1 then "| " + ts[i] else ts[i])
  }

  /** `required && required.indexOf(p) >= 0`. */
  predicate IsRequired(required: Option<seq<string>>, p: string) {
    required.Some? && p in required.value
  }

  /** One record member: `'p'?: T,` with the `?` only when `p` is not required. */
  function Field(p: string, required: Option<seq<string>>, t: string): (r: string)
    ensures |r| > |p| + 2 && r[..|p| + 2] == "'" + p + "'"
    ensures (r[|p| + 2] == '?') <==> !IsRequired(required, p)
  {
    "'" + p + "'" + (if IsRequired(required, p) then "" else "?") + ": " + t + ","
  }

  /** Succeeds exactly when every node the renderer visits is a JSON object
      and every `$ref` it meets names a definition. Array items and object
      properties are visited only under the matching `type`, and nothing
      below a `$ref` or an `enum` is visited. */
  ghost predicate Renderable(n: Node)
    decreases n
  {
    match n
    case Schema(ref, typ, enum, items, props, _, _) =>
      if ref.Some? then RefTypeName(ref.value).Some?
      else if typ.None? || enum.Some? then true
      else if typ == Some("array") then
        match items
        case NoItems => true
        case One(i) => Nullish(i) || Renderable(i)
        case Tuple(slots) => forall k :: 0 <= k < |slots| ==> Renderable(slots[k])
      else if typ == Some("object") then
        match props
        case NoProperties => true
        case Properties(ps) => forall k :: 0 <= k < |ps| ==> Renderable(ps[k].1)
      else true
    case _ => false
  }

  /** A node rendered as a `{ … }` record: an object type with properties,
      reached neither through `$ref` nor through `enum`. */
  predicate IsRecord(n: Node) {
    n.Schema? && n.ref.None? && n.typ == Some("object") && n.enum.None? && n.properties.Properties?
  }

  predicate StartsWithBrace(s: string) {
    |s| > 0 && s[0] == '{'
  }

  /** `swaggerSchemaToTypeScript(def, dir)`. `dir` only names the nested
      calls. The `in` operator throws on `null`, `undefined` and primitives. */
  function Render(n: Node, dir: string): (r: Result<string>)
    ensures r.Ok? <==> Renderable(n)
    ensures !n.Schema? ==> r == Err(TypeError)
    decreases n
  {
    match n
    case Schema(ref, typ, enum, items, props, required, _) =>
      if ref.Some? then
        match RefTypeName(ref.value)
        case Some(name) => Ok("_" + name)
        case None => Err(Thrown(ref.value + " is unrecognized reference"))
      else if typ.None? then Ok("void")
      else if enum.Some? then
        Ok(EnumType(enum.value))
      else if typ == Some("boolean") then Ok("boolean")
      else if typ == Some("number") || typ == Some("integer") then Ok("number")
      else if typ == Some("string") then Ok("string")
      else if typ == Some("array") then
        match items
        case NoItems => Ok("any[]")
        case One(item) =>
          if Nullish(item) then Ok("any[]")
          else
            var t :- Render(item, dir + "[]");
            Ok("Array<" + t + "\n        >")
        case Tuple(slots) =>
          var rs := seq(|slots|, i requires 0 <= i < |slots| => Render(slots[i], dir + "[" + NatToString(i) + "]"));
          assert forall k :: 0 <= k < |slots| ==> (rs[k].Ok? <==> Renderable(slots[k]));
          var ts :- AllOk(rs);
          Ok("Array<\n          " + Join(",", TupleSlots(ts)) + "\n          >")
      else if typ == Some("object") then
        match props
        case NoProperties => Ok("any")
        case Properties(ps) =>
          var rs := seq(|ps|, i requires 0 <= i < |ps| => Render(ps[i].1, dir + "." + ps[i].0));
          assert forall k :: 0 <= k < |ps| ==> (rs[k].Ok? <==> Renderable(ps[k].1));
          var ts :- AllOk(rs);
          var fields := seq(|ps|, i requires 0 <= i < |ps| => Field(ps[i].0, required, ts[i]));
          Ok("{\n          " + Join("\n", fields) + "\n        }")
      else if typ == Some("file") then Ok("Blob")
      else Ok("void")
    case _ => Err(TypeError)
  }

  /** A rendering starts with `{` exactly for a record; every other rendering
      starts with `_`, a keyword, `Array<`, or the first character of a JSON value. */
  lemma RenderBrace(n: Node, dir: string)
    requires Render(n, dir).Ok?
    ensures StartsWithBrace(Render(n, dir).value) <==> IsRecord(n)
  {
    var r := Render(n, dir).value;
    if n.ref.None? && n.typ.Some? && n.enum.Some? {
      assert r == EnumType(n.enum.value);
    }
  }

  /** `dir` only labels nested calls and never reaches the output. */
  lemma {:induction false} RenderIgnoresDir(n: Node, d1: string, d2: string)
    ensures Render(n, d1) == Render(n, d2)
    decreases n
  {
    match n
    case Schema(ref, typ, enum, items, props, required, _) =>
      if ref.None? && typ.Some? && enum.None? {
        if typ == Some("array") {
          match items
          case NoItems =>
          case One(item) =>
            if !Nullish(item) {
              RenderIgnoresDir(item, d1 + "[]", d2 + "[]");
            }
          case Tuple(slots) =>
            var rs1 := seq(|slots|, i requires 0 <= i < |slots| => Render(slots[i], d1 + "[" + NatToString(i) + "]"));
            var rs2 := seq(|slots|, i requires 0 <= i < |slots| => Render(slots[i], d2 + "[" + NatToString(i) + "]"));
            forall i | 0 <= i < |slots| ensures rs1[i] == rs2[i] {
              RenderIgnoresDir(slots[i], d1 + "[" + NatToString(i) + "]", d2 + "[" + NatToString(i) + "]");
            }
            assert rs1 == rs2;
        } else if typ == Some("object") {
          match props
          case NoProperties =>
          case Properties(ps) =>
            var rs1 := seq(|ps|, i requires 0 <= i < |ps| => Render(ps[i].1, d1 + "." + ps[i].0));
            var rs2 := seq(|ps|, i requires 0 <= i < |ps| => Render(ps[i].1, d2 + "." + ps[i].0));
            forall i | 0 <= i < |ps| ensures rs1[i] == rs2[i] {
              RenderIgnoresDir(ps[i].1, d1 + "." + ps[i].0, d2 + "." + ps[i].0);
            }
            assert rs1 == rs2;
        }
      }
    case _ =>
  }

  /** `$ref` takes precedence over every other member: two objects with the
      same `$ref` render alike. */
  lemma RefWins(n: Node, m: Node, dir: string)
    requires n.Schema? && m.Schema? && n.ref.Some? && n.ref == m.ref
    ensures Render(n, dir) == Render(m, dir)
    ensures Render(n, dir).Err? <==> RefTypeName(n.ref.value).None?
    ensures Render(n, dir).Err? ==> Render(n, dir).error == Thrown(n.ref.value + " is unrecognized reference")
  {
  }

  /** Without `$ref`, an `enum` list wins over the `type`: two typed nodes
      with the same list render alike, whatever their types. */
  lemma EnumWins(n: Node, m: Node, dir: string)
    requires n.Schema? && m.Schema? && n.ref.None? && m.ref.None?
    requires n.typ.Some? && m.typ.Some? && n.enum.Some? && n.enum == m.enum
    ensures Render(n, dir) == Render(m, dir)
    ensures Render(n, dir).Ok?
  {
  }

  /** Numbers in an `enum` become a union of number literals, even under a
      `string` type. */
  lemma NumericEnumExample(dir: string)
    ensures Render(Schema(None, Some("string"), Some([LNum(1), LNum(-2)]), NoItems, NoProperties, None, None), dir)
      == Ok("1 | -2")
  {
    var values := [LNum(1), LNum(-2)];
    assert LiteralJson(LNum(1)) == "1";
    assert LiteralJson(LNum(-2)) == "-2";
    var parts := ["1", "-2"];
    assert seq(|values|, i requires 0 <= i < |values| => LiteralJson(values[i])) == parts;
    JoinCons(" | ", "1", ["-2"]);
    assert ["1"] + ["-2"] == parts;
    assert EnumType(values) == "1 | -2";
  }

  /** A `#/definitions/<name>` reference renders as the very key the
      gathering step binds it under. */
  lemma PlainRefRendersBinding(n: Node, name: string, dir: string)
    requires n.Schema? && n.ref == Some(Gather.DefinitionRef(name))
    requires name != "" && '/' !in name && name != "#"
    ensures Render(n, dir) == Ok("_" + name)
    ensures Render(n, dir) == Ok(Gather.Bind(Gather.DefinitionRef(name)))
  {
    RefTypeNameOfDefinitionRef(name);
    Gather.PlainRefSegments(name);
  }

  /** A node with a type but neither `$ref` nor `enum`. */
  predicate Typed(n: Node, t: string) {
    n.Schema? && n.ref.None? && n.enum.None? && n.typ == Some(t)
  }

  /** The four keyword renderings come from exactly the primitive types, and
      `void` from a node with neither `$ref` nor `type` or with an unlisted
      `type`. */
  lemma KeywordRendering(n: Node, dir: string)
    ensures Render(n, dir) == Ok("boolean") <==> Typed(n, "boolean")
    ensures Render(n, dir) == Ok("number") <==> Typed(n, "number") || Typed(n, "integer")
    ensures Render(n, dir) == Ok("string") <==> Typed(n, "string")
    ensures Render(n, dir) == Ok("Blob") <==> Typed(n, "file")
    ensures Render(n, dir) == Ok("void") <==>
      n.Schema? && n.ref.None? && (n.typ.None? || (n.enum.None? && n.typ.value !in {"boolean", "number", "integer", "string", "array", "object", "file"}))
  {
    if Render(n, dir).Ok? {
      NonScalarRendering(n, dir);
      if n.ref.None? && n.typ.Some? && n.enum.Some? {
        EnumNotKeyword(n.enum.value);
      }
    }
  }

  /** How a `$ref`, an `enum`, an array and a record render begins: `_`, the
      union of the listed values, `any[]` or `Array<`, and `any` or `{`. */
  lemma NonScalarRendering(n: Node, dir: string)
    requires Render(n, dir).Ok?
    ensures var r := Render(n, dir).value;
      n.ref.Some? ==> |r| > 0 && r[0] == '_'
    ensures n.ref.None? && n.typ.Some? && n.enum.Some? ==> Render(n, dir).value == EnumType(n.enum.value)
    ensures var r := Render(n, dir).value;
      n.ref.None? && n.enum.None? && n.typ == Some("array") ==> r == "any[]" || (|r| > 0 && r[0] == 'A')
    ensures var r := Render(n, dir).value;
      n.ref.None? && n.enum.None? && n.typ == Some("object") ==> r == "any" || (|r| > 0 && r[0] == '{')
  {
  }

  /** An `enum` union is never one of the keyword renderings. */
  lemma EnumNotKeyword(values: seq<Literal>)
    ensures EnumType(values) !in {"boolean", "number", "string", "Blob", "void"}
  {
    var r := EnumType(values);
    if |r| > 0 {
      assert r[0] != 'b' && r[0] != 's' && r[0] != 'B' && r[0] != 'v';
      assert r != "number" by {
        if |r| >= 4 && r[..4] == "null" { assert r[2] != "number"[2]; }
      }
    }
  }

  /** Arrays: no items (or a `null` item) give `any[]`; a single item gives
      `Array<T>`; a tuple gives its slot types comma-joined inside `Array<…>`,
      each prefixed `| ` when there are at least two. */
  lemma ArrayRendering(n: Node, dir: string)
    requires Typed(n, "array")
    ensures n.items.NoItems? ==> Render(n, dir) == Ok("any[]")
    ensures n.items.One? && Nullish(n.items.item) ==> Render(n, dir) == Ok("any[]")
    ensures n.items.One? && !Nullish(n.items.item) && Render(n.items.item, dir + "[]").Ok? ==>
      Render(n, dir) == Ok("Array<" + Render(n.items.item, "").value + "\n        >")
    ensures n.items.Tuple? && Render(n, dir).Ok? ==>
      var slots := n.items.slots;
      Render(n, dir) == Ok("Array<\n          "
        + Join(",", TupleSlots(seq(|slots|, i requires 0 <= i < |slots| => Render(slots[i], "").value)))
        + "\n          >")
  {
    match n.items
    case NoItems =>
    case One(item) =>
      if !Nullish(item) {
        RenderIgnoresDir(item, dir + "[]", "");
      }
    case Tuple(slots) =>
      if Render(n, dir).Ok? {
        var rs := seq(|slots|, i requires 0 <= i < |slots| => Render(slots[i], dir + "[" + NatToString(i) + "]"));
        assert AllOk(rs).Ok?;
        var ts := AllOk(rs).value;
        forall i | 0 <= i < |slots| ensures ts[i] == Render(slots[i], "").value {
          RenderIgnoresDir(slots[i], dir + "[" + NatToString(i) + "]", "");
        }
        assert ts == seq(|slots|, i requires 0 <= i < |slots| => Render(slots[i], "").value);
      }
  }

  /** Objects: no properties give `any`; otherwise one member per property in
      key order, optional unless listed in `required`. */
  lemma ObjectRendering(n: Node, dir: string)
    requires Typed(n, "object")
    ensures n.properties.NoProperties? ==> Render(n, dir) == Ok("any")
    ensures n.properties.Properties? && Render(n, dir).Ok? ==>
      var ps := n.properties.entries;
      Render(n, dir) == Ok("{\n          "
        + Join("\n", seq(|ps|, i requires 0 <= i < |ps| => Field(ps[i].0, n.required, Render(ps[i].1, "").value)))
        + "\n        }")
  {
    match n.properties
    case NoProperties =>
    case Properties(ps) =>
      if Render(n, dir).Ok? {
        var rs := seq(|ps|, i requires 0 <= i < |ps| => Render(ps[i].1, dir + "." + ps[i].0));
        assert AllOk(rs).Ok?;
        var ts := AllOk(rs).value;
        forall i | 0 <= i < |ps| ensures ts[i] == Render(ps[i].1, "").value {
          RenderIgnoresDir(ps[i].1, dir + "." + ps[i].0, "");
        }
        assert seq(|ps|, i requires 0 <= i < |ps| => Field(ps[i].0, n.required, ts[i]))
          == seq(|ps|, i requires 0 <= i < |ps| => Field(ps[i].0, n.required, Render(ps[i].1, "").value));
      }
  }

  /** `export interface K  {…}` for a record, `export type K =  T` otherwise. */
  function Declaration(key: string, def: string): string {
    "export " + (if StartsWithBrace(def) then "interface " + key + " " else "type " + key + " = ") + " " + def
  }

  /** An object body becomes an interface and anything else a type alias,
      both named by the key and ending with the body itself. */
  lemma DeclarationForm(key: string, def: string)
    ensures StartsWithBrace(def) ==> OccursAt(Declaration(key, def), "export interface " + key, 0)
    ensures !StartsWithBrace(def) ==> OccursAt(Declaration(key, def), "export type " + key + " = ", 0)
    ensures EndsWith(Declaration(key, def), def)
  {
    var mid := if StartsWithBrace(def) then "interface " + key + " " else "type " + key + " = ";
    var d := Declaration(key, def);
    assert d == "export " + mid + " " + def;
    EndsWithLast("export " + mid + " ", def);
    if StartsWithBrace(def) {
      var x := "export interface " + key;
      assert "export " + mid == x + " ";
      assert d == x + (" " + " " + def);
      assert d[..|x|] == x;
    } else {
      var x := "export type " + key + " = ";
      assert "export " + mid == x;
      assert d == x + (" " + def);
      assert d[..|x|] == x;
    }
  }

  /** `swaggerSchemaDictToTypeScript(dict)`: one declaration per key, in key
      order, each rendered with the key as `dir`. The first failing entry
      aborts the call with its error and no partial output. */
  function RenderDict(dict: Dict<Node>): (r: Result<seq<string>>)
    ensures r.Ok? <==> forall i :: 0 <= i < |dict| ==> Renderable(dict[i].1)
    ensures r.Ok? ==> |r.value| == |dict| && forall i :: 0 <= i < |dict| ==>
      r.value[i] == "export " + (if IsRecord(dict[i].1) then "interface " + dict[i].0 + " " else "type " + dict[i].0 + " = ")
        + " " + Render(dict[i].1, dict[i].0).value
    ensures r.Err? ==> exists i :: (0 <= i < |dict| && Render(dict[i].1, dict[i].0) == Err(r.error)
      && forall j :: 0 <= j < i ==> Renderable(dict[j].1))
  {
    var rs := seq(|dict|, i requires 0 <= i < |dict| => Render(dict[i].1, dict[i].0));
    assert forall j :: 0 <= j < |dict| ==> (rs[j].Ok? <==> Renderable(dict[j].1));
    var defs :- AllOk(rs);
    forall i | 0 <= i < |dict| ensures StartsWithBrace(defs[i]) <==> IsRecord(dict[i].1) {
      RenderBrace(dict[i].1, dict[i].0);
    }
    Ok(seq(|dict|, i requires 0 <= i < |dict| => Declaration(dict[i].0, defs[i])))
  }
}
